=== FILE: README.md ===
# ObjectPool in Dafny

A model of the pooling core of the Unity library GameUtil ObjectPool. Its parts:

- **Plain-object pools.** `CommonPool` keys its sub-pools by type. Each
  `CommonPoolItem<T>` is a stack of idle `new T()` instances, and each entry
  carries the time it was returned.
- **Unity-object pools.** `ObjectPool` keys its sub-pools by `PoolKey`: the
  type, the load mode (Resource, AssetBundle or Custom), a bundle name that
  only counts for AssetBundle, and an asset name. Each `ObjectPoolItem<T>`
  clones a template.
  - Pooled GameObjects carry an `ObjectPoolItemKey` marker, which routes a
    later dispose back to the right sub-pool.
  - The sub-pool guards against pooling the same instance twice with an ID
    set.
  - It runs `ISpawnHandler` / `IDisposeHandler` handlers through a shared,
    reentrancy-aware buffer.
- **The older generation.** The root-level `ObjectPool` with `PoolItem<T>`
  keys by type, asset path and a one-member load mode. It marks its objects
  with `DisposeSelf`.
- **Delete times.** Every sub-pool is bound to a `DeleteTime`:
  - `AssetDeleteTime` evicts idle entries that have been idle at least that many seconds.
  - `PoolItemDeleteTime` drops a sub-pool that has stayed empty that long.
  - A negative value disables either one.
  - Both are shared, mutable objects. A setter assigns the object in place, so
    every sub-pool bound to it sees the change. The registry's default object
    is never mutated.
- **The per-frame tick.** It walks the registry, drops the sub-pools whose
  `Update` answers false, and empties the pending list.
- **Path helper.** The pure `GetFullPath` helper builds load paths.

How the model represents these:

- Unity objects are integer instance IDs.
- Object liveness is a set of destroyed IDs in a `World`. The `World` also
  holds the handler lists each GameObject's components contribute.
- The clock is a parameter `now`.
- New instance IDs come from a counter `next`.
- Loading an asset is a function `resources` from (type, path) to a reference.
- The marker a GameObject carries is a function `markers`.
- Shared policy objects are a `PolicyTable`: keys map to policy handles, and
  handles map to values. Mutation through one holder is therefore visible to
  every holder.
- Hook invocations are recorded as an event trace. The trace includes the
  borrow and return of the shared buffer.

Modules:

- `Engine`: references, liveness, handlers.
- `DeleteTimes`: policies and the setter family.
- `FreeList`: timestamped idle lists.
- `TrackedList`: an idle list with its ID set.
- `Hooks`: handler dispatch.
- `PoolKeys` and `Paths`.
- `Sweep`: the tick loop over a registry.
- `CommonPoolItem`, `ObjectPoolItem`, `LegacyPoolItem`: the sub-pools.
- `CommonPool`, `ObjectPool`, `LegacyObjectPool`: the registries.

## Model

| member | source | states |
|---|---|---|
| `DeleteTimes.TryGet` | Pools/CommonPool.cs:50-53 | a policy is reported exactly when the key has its own, and it is the one in force for that key; the default is never reported |
| `DeleteTimes.Assign` | Pools/CommonPool.cs:20-48 | a setter overwrites exactly the fields it names and keeps the other |
| `DeleteTimes.InsertEffect` | Pools/CommonPool.cs:55-60 | AddDeleteTime creates a fresh shared object for the key that no existing holder sees; every other key keeps its binding |
| `DeleteTimes.MutateEffect` | Pools/CommonPool.cs:20-27 | assigning an existing policy in place changes only that policy object, and every holder of it sees the new values |
| `DeleteTimes.SetPolicyEffect` | Pools/CommonPool.cs:20-60 | after any setter the key has its own policy: the old one with the named fields replaced, or a new one completed from the defaults; other keys and the default are untouched |
| `FreeList.ExpiredPrefix` | PoolItems/CommonPoolItem.cs:91-102 | the eviction walk stops at the first entry that is not yet old enough, and every entry before it is old enough |
| `FreeList.PopUntil` | PoolItems/ObjectPoolItem.cs:140-149 | popping from the tail removes a suffix; every popped entry but the last was rejected, and the last popped is the accepted one |
| `FreeList.ExpiredPrefixIsExactlyExpired` | PoolItems/CommonPoolItem.cs:88-102 | on a list stamped in chronological order, the stop-at-first-young walk removes exactly the expired entries |
| `FreeList.PushChronological` | PoolItems/CommonPoolItem.cs:77-81 | appending an entry stamped no earlier than the tail keeps the list chronological |
| `TrackedList.LiveObjs` | PoolItems/ObjectPoolItem.cs:78-91 | Clear destroys exactly the idle objects that are still alive, at most once per entry (so no object twice in a list without repeats), starting with a live front entry |
| `TrackedList.TickIdle` | PoolItems/ObjectPoolItem.cs:176-208 | the idle tick removes an expired prefix with its IDs, destroys its live objects, restamps the empty-since time when the list ran dry, and keeps the sub-pool unless it has been empty at least PoolItemDeleteTime |
| `TrackedList.TickIdleInv` | PoolItems/ObjectPoolItem.cs:184-201 | the tick keeps every idle entry's ID in the ID set, with no ID listed twice |
| `TrackedList.AddInv` | PoolItems/ObjectPoolItem.cs:162-169 | pooling a new ID keeps the list and ID set consistent |
| `TrackedList.PopLiveInv` | PoolItems/ObjectPoolItem.cs:140-149 | popping from the tail removes the popped IDs and keeps consistency |
| `TrackedList.EvictExpiredInv` | PoolItems/ObjectPoolItem.cs:184-198 | evicting a prefix removes its IDs and keeps consistency |
| `TrackedList.ShrinkToInv` | PoolItems/ObjectPoolItem.cs:119-130 | shrinking from the front keeps consistency |
| `TrackedList.GrowInv` | PoolItems/ObjectPoolItem.cs:102-117 | appending freshly cloned IDs keeps consistency and leaves the supply fresh |
| `Hooks.InvokedInvocations` | PoolItems/ObjectPoolItem.cs:246-262 | invoking a handler list records exactly those handlers in order |
| `Hooks.Dispatch` | PoolItems/ObjectPoolItem.cs:233-263 | each handler runs once, in component order; the shared buffer is borrowed only when free, then cleared before the last handler runs, then returned after it |
| `Hooks.LegacyDispatch` | PoolItem.cs:189-198 | the older dispatch runs every handler in order and then clears the buffer, never borrowing or returning it |
| `PoolKeys.MakeKey` | Pools/ObjectPool.cs:20-26 | a key keeps the bundle name only in AssetBundle mode |
| `PoolKeys.KeyHash` | Pools/ObjectPool.cs:48-58 | GetHashCode in wrapping 32-bit arithmetic, with 1 for a null name; HashIgnoresDroppedBundle states that it agrees with key equality |
| `PoolKeys.MakeKeyEquality` | Pools/ObjectPool.cs:28-31 | two lookups name the same sub-pool exactly when type, mode, asset name and, in AssetBundle mode only, bundle name agree |
| `PoolKeys.HashIgnoresDroppedBundle` | Pools/ObjectPool.cs:48-58 | outside AssetBundle mode, lookups that differ only in bundle name get the same key and the same 32-bit hash |
| `Paths.StripRoot` | Pools/ObjectPool.cs:114-117 | one leading '/' is removed, and nothing else changes |
| `Paths.GetFullPath` | Pools/ObjectPool.cs:105-127 | the full path is null exactly when name, path and root are all null; the joining order is stated by FullPathJoinsInOrder and FullPathRootedNameWins |
| `Paths.FullPathNullIff` | Pools/ObjectPool.cs:105-127 | the full path is null exactly when name, path and root are all null |
| `Paths.FullPathSingle` | Pools/ObjectPool.cs:105-127 | a single given component is returned with its leading '/' removed |
| `Paths.FullPathJoinsInOrder` | Pools/ObjectPool.cs:105-127 | root, path and name are joined in that order, with a '/' inserted after a part unless it already ends with one |
| `Paths.FullPathRootedNameWins` | Pools/ObjectPool.cs:120-125 | a name that is still rooted after stripping replaces everything before it, as Path.Combine does |
| `Paths.ViewPathUnderDefaultRoot` | Pools/ObjectPool.cs:85-103 | GetViewPath, GetGamePath, GetParticlePath and GetMaterialPath place a relative name directly under "Prefabs/View/", "Prefabs/Game/", "Prefabs/ParticleSystem/" and "Materials/"; without the default path the name comes back stripped |
| `Paths.PathUnderRoot` | Pools/ObjectPool.cs:85-127 | any relative root ending in '/' receives a relative name with nothing inserted between them |
| `Sweep.Ticked` | Pools/ObjectPool.cs:442-459 | after a sweep, a visited sub-pool survives with its ticked state exactly when its Update answered true; unvisited ones are unchanged |
| `Sweep.SweepLiveKeys` | Pools/CommonPool.cs:116-136 | the key-set walk with a pending list leaves exactly the surviving sub-pools and keys, with nothing pending |
| `Sweep.SweepEntries` | Pools/ObjectPool.cs:442-459 | the dictionary walk with a pending list leaves exactly the surviving sub-pools, with nothing pending |
| `Sweep.TickedKeys` | Pools/ObjectPool.cs:450-458 | the surviving keys are exactly those whose Update answered true |
| `CommonPoolItem.New` | PoolItems/CommonPoolItem.cs:24-27 | a new sub-pool is empty, bound to the given policy, and empty since time 0, since the constructor never sets the empty-since time |
| `CommonPoolItem.NewPoolKeptIff` | PoolItems/CommonPoolItem.cs:108-111 | a never-used sub-pool survives a tick exactly when pool deletion is disabled or the clock is still below PoolItemDeleteTime, because it counts as empty since time 0 |
| `CommonPoolItem.Get` | PoolItems/CommonPoolItem.cs:58-75 | Get always hands out an object: the newest idle entry, or `new T()` with a fresh ID when the list is empty; the rest of the list is kept |
| `CommonPoolItem.Dispose` | PoolItems/CommonPoolItem.cs:77-81 | a null is ignored; anything else is appended with the current time, even if already pooled |
| `CommonPoolItem.Clear` | PoolItems/CommonPoolItem.cs:29-32 | Clear empties the list and keeps the binding and the empty-since time |
| `CommonPoolItem.Resize` | PoolItems/CommonPoolItem.cs:34-56 | Resize leaves exactly `size` entries (none when size <= 0): it drops the oldest, or appends fresh instances stamped now |
| `CommonPoolItem.Update` | PoolItems/CommonPoolItem.cs:83-112 | the tick removes an expired prefix; the empty-since time becomes now exactly when eviction is enabled and emptied a non-empty list, and is kept otherwise; the sub-pool is dropped exactly when it is empty and has been so for at least PoolItemDeleteTime |
| `CommonPoolItem.DisposeThenGet` | PoolItems/CommonPoolItem.cs:58-81 | an object disposed is the next one handed out, and the list returns to what it was |
| `CommonPoolItem.GetPopsTail` | PoolItems/CommonPoolItem.cs:64-74 | with no null entries, Get pops exactly the tail entry |
| `CommonPoolItem.DisposeTwiceKeepsBoth` | PoolItems/CommonPoolItem.cs:77-81 | with no duplicate guard, disposing the same object twice pools it twice |
| `CommonPoolItem.NoNullEntriesPreserved` | PoolItems/CommonPoolItem.cs:34-81 | no operation puts a null into the idle list |
| `CommonPoolItem.UpdateRemovesExactlyExpired` | PoolItems/CommonPoolItem.cs:86-106 | on a chronological list, the tick keeps exactly the entries younger than AssetDeleteTime |
| `CommonPoolItem.GetUpdateChronological` | PoolItems/CommonPoolItem.cs:58-112 | Get and the tick keep the list chronological |
| `CommonPoolItem.ResizeChronological` | PoolItems/CommonPoolItem.cs:34-56 | Resize keeps the list chronological when no entry is stamped in the future |
| `CommonPoolItem.UpdateKeepsWhenDisabledOrNonEmpty` | PoolItems/CommonPoolItem.cs:108-111 | a sub-pool with entries left, or with pool deletion disabled, is never dropped |
| `ObjectPoolItem.New` | PoolItems/ObjectPoolItem.cs:40-76 | corrected, see Findings row 1: a new sub-pool is empty, empty since its creation, and holds the loaded template only in Resource mode |
| `ObjectPoolItem.NewAsWritten` | PoolItems/PoolItemBase.cs:6-11 | the constructor as written leaves the empty-since time at 0 |
| `ObjectPoolItem.Spawn` | PoolItems/ObjectPoolItem.cs:210-231 | without a live template nothing is cloned; otherwise a fresh ID is cloned, a GameObject gets this sub-pool's marker, and its spawn handlers run only when asked |
| `ObjectPoolItem.Get` | PoolItems/ObjectPoolItem.cs:133-160 | dead entries are skipped and forgotten from the tail; the first live one is handed out, and only a GameObject has its spawn handlers run; otherwise Spawn makes a clone, and a GameObject clone carries this sub-pool's marker and runs its spawn handlers |
| `ObjectPoolItem.Dispose` | PoolItems/ObjectPoolItem.cs:162-174 | a dead or already-pooled object is ignored; otherwise it is appended with its ID and a GameObject's dispose handlers run |
| `ObjectPoolItem.Clear` | PoolItems/ObjectPoolItem.cs:78-91 | Clear forgets every entry and ID and destroys exactly the live idle objects |
| `ObjectPoolItem.Resize` | PoolItems/ObjectPoolItem.cs:93-131 | corrected, see Findings row 2: Resize leaves exactly `size` entries, dropping the oldest or appending fresh clones with no hooks run; with no live template, growth leaves the sub-pool unchanged. Size <= 0 destroys what Clear destroys; growth adds the clones' IDs to the guard set; shrinking forgets the IDs of the dropped objects that are still alive and nothing else |
| `ObjectPoolItem.ResizeAsWritten` | PoolItems/ObjectPoolItem.cs:105-116 | as written, growth with no live template fails with a null reference, and otherwise agrees with Resize |
| `ObjectPoolItem.Update` | PoolItems/ObjectPoolItem.cs:176-208 | the tick changes only the idle list and empty-since time, does nothing when eviction is disabled, and drops the sub-pool exactly when it has been empty long enough |
| `ObjectPoolItem.ValidPreserved` | PoolItems/ObjectPoolItem.cs:133-208 | Get, Dispose, the tick and Clear keep the ID set matching the idle list, with no duplicate |
| `ObjectPoolItem.ResizeValid` | PoolItems/ObjectPoolItem.cs:93-131 | Resize keeps the ID set matching the idle list when new IDs are fresh |
| `ObjectPoolItem.DisposeIdempotent` | PoolItems/ObjectPoolItem.cs:165-167 | disposing the same object a second time changes nothing and runs no hooks |
| `ObjectPoolItem.DisposeThenGet` | PoolItems/ObjectPoolItem.cs:133-169 | a live object not yet pooled is handed out by the next Get, which restores the idle list |
| `ObjectPoolItem.GetRunsSpawnHooks` | PoolItems/ObjectPoolItem.cs:153-159 | reusing a live pooled GameObject runs its spawn handlers |
| `ObjectPoolItem.ResizeRunsNoHooks` | PoolItems/ObjectPoolItem.cs:107 | clones made for Resize run no spawn handlers, unlike clones made for Get |
| `ObjectPoolItem.EmptyPoolDroppedAsWritten` | PoolItems/PoolItemBase.cs:6 | as written, a never-used sub-pool is dropped by the first tick once the clock passes PoolItemDeleteTime |
| `ObjectPoolItem.EmptyPoolDroppedAsWrittenExample` | PoolItems/ObjectPoolItem.cs:200-206 | at time 200 under the 120-second default, a freshly registered custom sub-pool is dropped at once as written and kept when the creation time is recorded |
| `ObjectPoolItem.EmptyPoolKeptUntilThreshold` | PoolItems/ObjectPoolItem.cs:205-206 | with the creation time recorded, a sub-pool survives every tick until PoolItemDeleteTime has elapsed |
| `ObjectPoolItem.ResizeWithoutTemplate` | PoolItems/ObjectPoolItem.cs:107-114 | growing with no live template throws as written and is a no-op when corrected |
| `LegacyPoolItem.New` | PoolItem.cs:56-79 | a new sub-pool is empty and holds what the loader answered |
| `LegacyPoolItem.Spawn` | PoolItem.cs:173-187 | a live template is cloned to a fresh ID; a GameObject clone carries DisposeSelf with this sub-pool's path and mode, and its spawn handlers run |
| `LegacyPoolItem.Get` | PoolItem.cs:96-122 | dead entries are skipped from the tail; the first live one is handed out with its handlers run, or else Spawn |
| `LegacyPoolItem.Dispose` | PoolItem.cs:124-137 | a dead or already-pooled object is ignored; otherwise it is appended and a GameObject's dispose handlers run |
| `LegacyPoolItem.Clear` | PoolItem.cs:81-94 | Clear empties the sub-pool and destroys exactly the live idle objects |
| `LegacyPoolItem.Update` | PoolItem.cs:139-171 | the tick changes only the idle list and empty-since time, and the sub-pool is dropped exactly when it has been empty long enough |
| `LegacyPoolItem.ValidPreserved` | PoolItem.cs:81-171 | every operation keeps the ID set matching the idle list |
| `LegacyPoolItem.DisposeThenGet` | PoolItem.cs:96-137 | a disposed object is handed out next, and disposing it twice pools it once |
| `CommonPool.Init` | Pools/CommonPool.cs:14-17 | a new registry is empty and holds no policy of its own, and the 30/30 default is in force for every type |
| `CommonPool.GetPoolItem` | Pools/CommonPool.cs:138-157 | an existing sub-pool is returned; otherwise a new one, bound to the type's policy or the default, is registered in both collections |
| `CommonPool.Get` | Pools/CommonPool.cs:63-66 | Get always answers an object, registers the type, and touches no other type |
| `CommonPool.Dispose` | Pools/CommonPool.cs:68-72 | a null is ignored before any sub-pool is created; otherwise the type's count grows by one |
| `CommonPool.Resize` | Pools/CommonPool.cs:111-114 | the type's sub-pool ends with exactly the requested number of entries, or none |
| `CommonPool.Clear` | Pools/CommonPool.cs:75-94 | a class type present in the registry leaves both collections; anything else is a no-op |
| `CommonPool.ClearAll` | Pools/CommonPool.cs:96-103 | every sub-pool and key is removed; policies are kept |
| `CommonPool.GetItemCount` | Pools/CommonPool.cs:106-109 | the idle count of the type's sub-pool, or 0, without creating one |
| `CommonPool.ItemCountFollowsOperations` | Pools/CommonPool.cs:68-114 | the count rises by one when an object is disposed and falls back when Get hands it out; it is the requested size after Resize (0 for size <= 0), and 0 after Clear of a class type or after ClearAll |
| `CommonPool.TryGetDeleteTime` | Pools/CommonPool.cs:50-53 | the type's own policy exactly when it has one |
| `CommonPool.Update` | Pools/CommonPool.cs:116-136 | exactly the sub-pools whose Update answered false leave both collections, the rest keep their ticked state, and validity is kept |
| `CommonPool.ValidPreserved` | Pools/CommonPool.cs:63-114 | every operation outside the tick keeps keys, bindings and non-null entries consistent |
| `CommonPool.SetterEffect` | Pools/CommonPool.cs:20-60 | a setter changes only the named type's policy, and that type's live sub-pool sees it at once |
| `CommonPool.SetDeleteTimes` | Pools/CommonPool.cs:20-60 | afterwards the type has its own policy, and no sub-pool is added, removed or changed under another type |
| `CommonPool.Step` | Pools/CommonPool.cs:116-136 | one sub-pool's Update under the policy its handle holds now; Update states what the sweep over it leaves |
| `CommonPool.DisposeThenGet` | Pools/CommonPool.cs:63-72 | an object disposed under a type is the next one Get answers for it |
| `ObjectPool.Init` | Pools/ObjectPool.cs:75-77 | a new registry is empty, and the values the two static defaults hold at construction are in force for every key |
| `ObjectPool.TypeValidate` | Pools/ObjectPool.cs:131-135 | the Type overloads act only on a type deriving from UnityEngine.Object; SetterIgnoresInvalidType states that the setters and TryGetDeleteTime then do nothing |
| `ObjectPool.DefaultCopiedAtConstruction` | Pools/ObjectPool.cs:75-77 | the default policy is copied from the statics at construction, so statics read later by a setter do not change what other keys see |
| `ObjectPool.CreatePoolItem` | Pools/ObjectPool.cs:482-490 | the new sub-pool is registered under the key, bound to the key's policy or the default, and loaded only in Resource mode |
| `ObjectPool.GetPoolItem` | Pools/ObjectPool.cs:471-480 | an existing sub-pool is returned; a missing one is created except under Custom, which answers none |
| `ObjectPool.Get` | Pools/ObjectPool.cs:283-327 | the generic overloads act on any type; the Type overloads refuse a type that fails TypeValidate. A refused type or an unregistered Custom key answers null and changes nothing. Otherwise the keyed sub-pool, existing or newly created, hands out exactly what its own Get answers, and only that key changes |
| `ObjectPool.DisposeGameObject` | Pools/ObjectPool.cs:370-391 | an unmarked GameObject, or one whose Custom key is unregistered, is destroyed; otherwise it goes to the sub-pool its marker names, which ends as that sub-pool's Dispose leaves it, with that Dispose's hook trace |
| `ObjectPool.Dispose` | Pools/ObjectPool.cs:331-368 | a dead object is ignored, and so is a type the Type overload refuses; the generic overload checks no type. A GameObject is routed by its marker. Anything else goes to the keyed sub-pool, and is destroyed under an unregistered Custom key; that sub-pool ends as its Dispose leaves it, with that Dispose's hook trace |
| `ObjectPool.RegisterCustomPoolItem` | Pools/ObjectPool.cs:224-245 | registering the same template is a no-op; a different one replaces the template; an absent key gets a new Custom sub-pool |
| `ObjectPool.Clear` | Pools/ObjectPool.cs:395-409 | a registered key's sub-pool is cleared and removed; anything else is a no-op |
| `ObjectPool.ClearAll` | Pools/ObjectPool.cs:411-417 | every sub-pool is removed; policies are kept |
| `ObjectPool.GetItemCount` | Pools/ObjectPool.cs:425-429 | the idle count of the keyed sub-pool, or 0 |
| `ObjectPool.ItemCountAfterDispose` | Pools/ObjectPool.cs:331-348 | disposing a new live plain object under a key that can hold it adds one to that key's count, and the Get that hands it back restores the count |
| `ObjectPool.ItemCountAfterResize` | Pools/ObjectPool.cs:425-434 | after Resize the count is 0 for size <= 0, `size` after shrinking or after growth with a live template, and 0 under an unregistered Custom key; unchanged after growth without a template is the corrected behaviour of Findings row 2 |
| `ObjectPool.ItemCountAfterClear` | Pools/ObjectPool.cs:395-429 | Clear and ClearAll leave a count of 0 |
| `ObjectPool.Resize` | Pools/ObjectPool.cs:431-440 | the keyed sub-pool is resized, created first if need be, except under an unregistered Custom key or a type the Type overload refuses; the generic overload checks no type. The sub-pool, the ID supply and the destroyed objects are those of the sub-pool's Resize |
| `ObjectPool.TryGetDeleteTime` | Pools/ObjectPool.cs:198-208 | the key's own policy exactly when the type is a Unity object type and the key has one |
| `ObjectPool.Update` | Pools/ObjectPool.cs:442-459 | exactly the sub-pools whose Update answered false are removed, the rest keep their ticked state, and validity is kept |
| `ObjectPool.TickedRegistry` | Pools/ObjectPool.cs:446-458 | the ticked registry holds exactly the keys whose sub-pool's Update answered true, and is valid when the registry was |
| `ObjectPool.ValidPreserved` | Pools/ObjectPool.cs:224-417 | Get, Dispose, registration, Clear and ClearAll keep keys, bindings and ID sets consistent |
| `ObjectPool.ResizeValid` | Pools/ObjectPool.cs:431-440 | Resize keeps the registry consistent when new IDs are fresh |
| `ObjectPool.SetterEffect` | Pools/ObjectPool.cs:167-215 | for a Unity object type, a setter changes only the key's policy, and the key's live sub-pool sees it at once. A new policy takes the field the setter does not name from the current static defaults |
| `ObjectPool.SetDeleteTimes` | Pools/ObjectPool.cs:167-196 | a refused type changes nothing; otherwise the key has its own policy afterwards, and no sub-pool is added, removed or changed under another key |
| `ObjectPool.Step` | Pools/ObjectPool.cs:446-458 | one sub-pool's Update under the policy its handle holds now; StepValid states that it keeps the ID invariant, the key and the binding |
| `ObjectPool.SetterIgnoresInvalidType` | Pools/ObjectPool.cs:167-208 | for a type that is not a Unity object type, the setters and TryGetDeleteTime do nothing |
| `ObjectPool.RegisterThenGetCustom` | Pools/ObjectPool.cs:224-327 | after registering a live template under a Custom path, Get for that path answers an object |
| `ObjectPool.RegisteredPoolSurvivesTick` | Pools/ObjectPool.cs:224-245 | with the corrected empty-since time (see Findings), a newly registered Custom sub-pool survives every tick until its PoolItemDeleteTime has elapsed |
| `ObjectPool.GetThenDisposeGameObject` | Pools/ObjectPool.cs:370-391 | a GameObject cloned by Get carries a marker whose key is the one it came from, and disposing it pools it there |
| `ObjectPool.DisposeThenGet` | Pools/ObjectPool.cs:283-348 | a live plain object disposed under a key that can hold it is the next object Get answers for that key; nothing is spawned or destroyed, and the key's idle list is as before |
| `LegacyObjectPool.KeyEqualsIsEquality` | ObjectPool.cs:43-46 | two keys are equal exactly when type, path and mode agree |
| `LegacyObjectPool.KeyHash` | ObjectPool.cs:63-66 | the hash is undefined exactly when the path is null |
| `LegacyObjectPool.HashAgreesWithEquals` | ObjectPool.cs:43-66 | equal keys hash alike |
| `LegacyObjectPool.Init` | ObjectPool.cs:12-13 | a new registry is empty and holds no policies |
| `LegacyObjectPool.CreatePoolItem` | ObjectPool.cs:370-382 | the new sub-pool is registered in both collections and bound to the key's policy, inserting the 30/30 default first if it had none |
| `LegacyObjectPool.GetPoolItem` | ObjectPool.cs:360-368 | an existing sub-pool is returned, otherwise one is created |
| `LegacyObjectPool.Get` | ObjectPool.cs:256-275 | the keyed sub-pool, existing or newly created, hands out exactly what its own Get answers; the key has a policy afterwards, and no other key changes |
| `LegacyObjectPool.DisposeGameObject` | ObjectPool.cs:289-301 | a GameObject without DisposeSelf is destroyed; otherwise it goes to the sub-pool its marker names, which ends as that sub-pool's Dispose leaves it, with that Dispose's hook trace |
| `LegacyObjectPool.Dispose` | ObjectPool.cs:279-287 | a dead object is ignored, a GameObject is routed by its marker, and anything else goes to the keyed sub-pool, which ends as its Dispose leaves it, with that Dispose's hook trace |
| `LegacyObjectPool.Clear` | ObjectPool.cs:305-326 | Clear(Type) refuses a type that is not a Unity object type, while the generic Clear<T> checks nothing; an admitted, registered key is removed from both collections and exactly its live idle objects are destroyed |
| `LegacyObjectPool.ClearAll` | ObjectPool.cs:328-335 | every sub-pool and key is removed; policies are kept |
| `LegacyObjectPool.TryGetDeleteTime` | ObjectPool.cs:214-218 | the key's own policy exactly when it has one |
| `LegacyObjectPool.Update` | ObjectPool.cs:338-358 | exactly the sub-pools whose Update answered false leave both collections, and validity is kept |
| `LegacyObjectPool.ValidPreserved` | ObjectPool.cs:256-335 | every operation outside the tick keeps keys, bindings and ID sets consistent |
| `LegacyObjectPool.GetThenTryGet` | ObjectPool.cs:370-382 | after any Get the key has its own policy |
| `LegacyObjectPool.SetterEffect` | ObjectPool.cs:184-212 | a setter assigns the key's policy in place, or inserts one for a new key; a live sub-pool bound to it sees the change |
| `LegacyObjectPool.SetDeleteTimes` | ObjectPool.cs:184-212 | afterwards the key has its own policy, and no sub-pool is rewired |
| `LegacyObjectPool.Step` | ObjectPool.cs:338-358 | one sub-pool's Update under the policy its handle holds now; StepValid states that it keeps the ID invariant, the key and the policy |
| `LegacyObjectPool.GetThenDisposeGameObject` | ObjectPool.cs:289-301 | a GameObject cloned by Get carries DisposeSelf naming its own key, and disposing it pools it there |
| `LegacyObjectPool.DisposeThenGet` | ObjectPool.cs:256-287 | a live plain object disposed under a key is the next object Get answers for it; nothing is spawned or destroyed, and the key's idle list is as before |

## Left out

- Time is a `float` of seconds in the library; the model uses integers. Comparisons are kept exactly as written (`<`, `>=`).
- Object activation, parenting (`SetActive`, `SetParent`) and the `Transform` parent argument of Resize and Spawn are not modelled. They change no pool state.
- `Instantiate` is a fresh ID from the counter `next`. The `GetComponentsInChildren` search is the handler list the world assigns to an ID.
- A handler that throws is not modelled. `ObjectPoolItemKey`'s try/catch around the handlers is not part of this model.
- Reentrant dispatch (a handler that spawns or disposes another GameObject) is reachable only through the `own` parameter of `Hooks.Dispatch`. The model does not nest the calls.
- The AssetBundle loader is a TODO in the library. An AssetBundle sub-pool's template is null in the model, as in the code.
- The `as T` cast of a loaded asset is folded into `resources`, which answers null for a mismatched type.
- `Path.Combine` is modelled for '/' separators only. The platform's alternative separator is not.
- Hash codes of types and strings are abstract 32-bit functions. Only the combining arithmetic is modelled.
- `LegacyObjectPool.KeyHash`: the library throws a NullReferenceException for a null path. The model answers none and does not propagate the exception into registry operations.
- `LegacyPoolItem.Spawn`: the engine throws when cloning a null template. The model answers null.
- `ObjectPool.Update`, `CommonPool.Update`, `LegacyObjectPool.Update`: the objects a sub-pool's tick destroys are not collected at registry level. The sub-pool `Update` members report them.
- `ObjectPool.ClearAll`, `LegacyObjectPool.ClearAll`: the objects destroyed by clearing every sub-pool are not reported.
- The editor play-mode quit flag, the `ObjectPoolBase` singleton, `AutoDisposeSelf`, `CollectionPools` and logging are outside the pooling core.
- The non-generic `ObjectPoolItem` is not part of this model. Its role is played by the generic sub-pool with a replaceable template.
- `ObjectPool.CreatePoolItem`: the new sub-pool's empty-since time is the creation time, not 0 as the constructor leaves it. This is the corrected behaviour of the first finding below, which the registry uses.
- `ObjectPool.RegisterCustomPoolItem`: a new Custom sub-pool is empty since registration, for the same reason.
- `ObjectPool.Resize`: growth without a live template leaves the sub-pool unchanged. As written it throws; this is the second finding below.
- `ObjectPool.RegisteredPoolSurvivesTick`: holds of the corrected registry only. As written, the sub-pool is dropped by the first tick once the clock passes PoolItemDeleteTime (`ObjectPoolItem.EmptyPoolDroppedAsWritten`).
- `ObjectPoolItem.New`: the empty-since time is the creation time, where the constructor leaves 0. This is the corrected half of the first finding; `ObjectPoolItem.NewAsWritten` models the code as written.
- `ObjectPoolItem.Resize`: growth without a live template is a no-op, where the code throws. This is the corrected half of the second finding; `ObjectPoolItem.ResizeAsWritten` models the throw.
- `CommonPoolItem` leaves its empty-since time at 0 as written, and the model keeps that. It is not a finding: a plain-object sub-pool dropped this way holds no objects, and the next Get re-creates it with the same binding.
- `ObjectPool` static defaults: `DEFAULT_POOL_ITEM_DELETE_TIME` and `DEFAULT_ASSET_DELETE_TIME` are mutable statics. The model passes their current values as a parameter to `Init` and to the single-field setters, which are the only places that read them.
- The setter wrappers (`SetDeleteTime`, `SetPoolItemDeleteTime`, `SetAssetDeleteTime` in each registry) carry no contract of their own. `SetDeleteTimes` and the `SetterEffect` lemmas state their effect.

## Findings

| source | as written | input that shows it | evidently intended | confidence | as-written member | corrected member |
|---|---|---|---|---|---|---|
| PoolItems/PoolItemBase.cs:6 | `mNullTime` is never set by the `ObjectPoolItem<T>` constructor, so a sub-pool that is created and then ticked before any Get counts as empty since time 0 | RegisterCustomPoolItem at time 200 under the 120/120 default, then a tick at time 200: the new sub-pool is dropped at once | the empty-since time starts at creation, so a sub-pool survives until PoolItemDeleteTime has passed | medium; not executed | `ObjectPoolItem.EmptyPoolDroppedAsWrittenExample` | `ObjectPoolItem.EmptyPoolKeptUntilThreshold` |
| PoolItems/ObjectPoolItem.cs:107-114 | Resize growth calls `GetInstanceID` on the result of Spawn, which is null when there is no live template | an AssetBundle-mode sub-pool (template null) resized from 0 to 1 | growth without a template leaves the sub-pool unchanged, as Get already tolerates a null Spawn | high; not executed | `ObjectPoolItem.ResizeAsWritten` | `ObjectPoolItem.ResizeWithoutTemplate` |

=== FILE: common_pool.dfy ===
/**
 * CommonPool (Pools/CommonPool.cs): the registry of plain-object sub-pools,
 * one per type, created on first use, with per-type DeleteTime policies and
 * a shared default of 30 seconds for both thresholds.
 */
module CommonPool {
  import opened Engine
  import opened DeleteTimes
  import opened Sweep
  import Sub = CommonPoolItem

  const DefaultPoolItemDeleteTime: int := 30
  const DefaultAssetDeleteTime: int := 30

  datatype Registry = Registry(
    items: map<TypeTag, Sub.SubPool>,   // mPoolItems
    keys: set<TypeTag>,                 // mPoolKeys, the set the tick walks
    pending: seq<TypeTag>,              // mToDeletePoolKeys
    table: PolicyTable<TypeTag>)        // mDeleteTimes and mDefaultDeleteTime

  /** A registry as constructed. */
  function Init(): (r: Registry)
    ensures r.items == map[] && r.keys == {} && r.pending == [] && r.table.deleteTimes == map[]
    ensures forall t: TypeTag :: Effective(r.table, t) == DeleteTime(DefaultPoolItemDeleteTime, DefaultAssetDeleteTime)
  {
    Registry(map[], {}, [], WithDefault(DeleteTime(DefaultPoolItemDeleteTime, DefaultAssetDeleteTime)))
  }

  /** Outside the tick: the key set is exactly the map's key set, nothing is
      pending, every sub-pool is bound to the policy its key resolves to, and
      no sub-pool holds null. */
  ghost predicate Valid(r: Registry) {
    && r.keys == r.items.Keys
    && r.pending == []
    && WellFormed(r.table)
    && (forall t | t in r.items :: r.items[t].policy == Binding(r.table, t))
    && (forall t | t in r.items :: Sub.NoNullEntries(r.items[t]))
  }

  lemma InitValid()
    ensures Valid(Init())
  {
  }

  /** GetPoolItem: the existing sub-pool, or a new one registered in both
      collections and bound to the type's own policy or else the default. */
  function GetPoolItem(r: Registry, t: TypeTag): (res: (Registry, Sub.SubPool))
    ensures t in r.items ==> res == (r, r.items[t])
    ensures t !in r.items ==>
      && res.1 == Sub.New(Binding(r.table, t))
      && res.0 == r.(items := r.items[t := res.1], keys := r.keys + {t})
  {
    if t in r.items then (r, r.items[t])
    else
      var p := Sub.New(Binding(r.table, t));
      (r.(items := r.items[t := p], keys := r.keys + {t}), p)
  }

  /** The result of Get: the registry, the object and the instance supply. */
  datatype Got = Got(reg: Registry, obj: Ref, next: ObjId)

  /** Get<T>(): the type's sub-pool (created if need be) hands out an object. */
  function Get(r: Registry, t: TypeTag, now: int, next: ObjId): (g: Got)
    ensures g.obj.Obj?
    ensures t in g.reg.items && g.reg.keys == r.keys + (if t in r.items then {} else {t})
    ensures g.reg.table == r.table && g.reg.pending == r.pending
    ensures forall u | u != t :: (u in g.reg.items <==> u in r.items) && (u in r.items ==> g.reg.items[u] == r.items[u])
  {
    var (r1, p) := GetPoolItem(r, t);
    var got := Sub.Get(p, now, next);
    Got(r1.(items := r1.items[t := got.pool]), got.obj, got.next)
  }

  /** Dispose<T>(obj): null is ignored before any sub-pool is created;
      anything else goes to the type's sub-pool. */
  function Dispose(r: Registry, t: TypeTag, obj: Ref, now: int): (r': Registry)
    ensures obj.Null? ==> r' == r
    ensures obj.Obj? ==> t in r'.items && Sub.Count(r'.items[t]) == (if t in r.items then Sub.Count(r.items[t]) else 0) + 1
    ensures r'.table == r.table
  {
    if obj.Null? then r
    else
      var (r1, p) := GetPoolItem(r, t);
      r1.(items := r1.items[t := Sub.Dispose(p, obj, now)])
  }

  /** The result of Resize: the registry and the instance supply. */
  datatype Resized = Resized(reg: Registry, next: ObjId)

  /** Resize<T>(size) on the type's sub-pool, created if need be. */
  function Resize(r: Registry, t: TypeTag, size: int, now: int, next: ObjId): (res: Resized)
    ensures t in res.reg.items
    ensures Sub.Count(res.reg.items[t]) == (if size <= 0 then 0 else size)
    ensures res.reg.table == r.table
  {
    var (r1, p) := GetPoolItem(r, t);
    var rs := Sub.Resize(p, size, now, next);
    Resized(r1.(items := r1.items[t := rs.pool]), rs.next)
  }

  /** Clear(Type) ignores a type that is not a class; Clear<T>() always passes
      one. A present type leaves both collections; an absent one is a no-op. */
  function Clear(r: Registry, t: TypeTag): (r': Registry)
    ensures !t.isClass || t !in r.items ==> r' == r
    ensures t.isClass && t in r.items ==>
      r' == r.(items := r.items - {t}, keys := r.keys - {t})
  {
    if !t.isClass then r
    else if t in r.items then r.(items := r.items - {t}, keys := r.keys - {t})
    else r
  }

  /** ClearAll: no sub-pool, no key, nothing pending; policies are kept. */
  function ClearAll(r: Registry): (r': Registry)
    ensures r'.items == map[] && r'.keys == {} && r'.pending == [] && r'.table == r.table
  {
    Registry(map[], {}, [], r.table)
  }

  /** GetItemCount<T>(): the idle count of the type's sub-pool, 0 when there
      is none; nothing is created. */
  function GetItemCount(r: Registry, t: TypeTag): (n: nat)
    ensures t !in r.items ==> n == 0
    ensures t in r.items ==> n == Sub.Count(r.items[t])
  {
    if t in r.items then Sub.Count(r.items[t]) else 0
  }

  /** The SetDeleteTime family. An existing policy object of the type is
      assigned in place, which every holder of it sees; otherwise
      AddDeleteTime inserts a new one, completed with the 30-second default
      for a field the setter does not name, and wires it into the type's
      live sub-pool. */
  function SetDeleteTimes(r: Registry, t: TypeTag, poolItem: Option<int>, asset: Option<int>): (r': Registry)
    ensures t in r'.table.deleteTimes
    ensures r'.items.Keys == r.items.Keys && r'.keys == r.keys && r'.pending == r.pending
    ensures forall u | u in r.items && u != t :: r'.items[u] == r.items[u]
  {
    var table := SetPolicy(r.table, t, poolItem, asset, DeleteTime(DefaultPoolItemDeleteTime, DefaultAssetDeleteTime));
    if t !in r.table.deleteTimes && t in r.items then
      r.(table := table, items := r.items[t := r.items[t].(policy := r.table.nextPolicy)])
    else r.(table := table)
  }

  function SetDeleteTime(r: Registry, t: TypeTag, poolItemDeleteTime: int, assetDeleteTime: int): Registry {
    SetDeleteTimes(r, t, Some(poolItemDeleteTime), Some(assetDeleteTime))
  }

  function SetPoolItemDeleteTime(r: Registry, t: TypeTag, poolItemDeleteTime: int): Registry {
    SetDeleteTimes(r, t, Some(poolItemDeleteTime), None)
  }

  function SetAssetDeleteTime(r: Registry, t: TypeTag, assetDeleteTime: int): Registry {
    SetDeleteTimes(r, t, None, Some(assetDeleteTime))
  }

  /** TryGetDeleteTime<T>: the type's own policy, never the default. */
  function TryGetDeleteTime(r: Registry, t: TypeTag): (res: Option<DeleteTime>)
    ensures res.Some? <==> t in r.table.deleteTimes
    ensures res.Some? ==> res.value == Effective(r.table, t)
  {
    TryGet(r.table, t)
  }

  /** What one sub-pool's Update does under the policies in force. */
  function Step(table: PolicyTable<TypeTag>, now: int): Sub.SubPool -> Tick<Sub.SubPool> {
    (p: Sub.SubPool) => Sub.Update(p, PolicyOf(table.policies, p.policy), now)
  }

  /** The per-frame tick, walking the key set in the enumeration order
      `order`: exactly the sub-pools whose Update answered false leave both
      collections, the rest keep their ticked state, and nothing stays
      pending. */
  method Update(r: Registry, now: int, order: seq<TypeTag>) returns (r': Registry)
    requires r.keys <= r.items.Keys
    requires Enumerates(order, r.keys)
    ensures r'.items == Ticked(r.items, r.keys, Step(r.table, now))
    ensures r'.keys == set t | t in r.keys && Step(r.table, now)(r.items[t]).keep
    ensures r'.pending == [] && r'.table == r.table
    ensures Valid(r) ==> Valid(r')
  {
    var items, keys, pending := SweepLiveKeys(r.items, r.keys, order, Step(r.table, now));
    r' := Registry(items, keys, pending, r.table);
    if Valid(r) {
      forall t | t in items ensures Sub.NoNullEntries(items[t]) {
        Sub.NoNullEntriesPreserved(r.items[t], Null, 0, PolicyOf(r.table.policies, r.items[t].policy), now, 0);
      }
    }
  }

  /** Every operation outside the tick keeps the registry valid. */
  lemma ValidPreserved(r: Registry, t: TypeTag, obj: Ref, size: int, now: int, next: ObjId)
    requires Valid(r)
    ensures Valid(Get(r, t, now, next).reg)
    ensures Valid(Dispose(r, t, obj, now))
    ensures Valid(Resize(r, t, size, now, next).reg)
    ensures Valid(Clear(r, t))
    ensures Valid(ClearAll(r))
  {
    var (r1, p) := GetPoolItem(r, t);
    assert Valid(r1);
    Sub.NoNullEntriesPreserved(p, obj, size, DeleteTime(-1, -1), now, next);
    StoreValid(r1, t, Sub.Get(p, now, next).pool);
    StoreValid(r1, t, Sub.Dispose(p, obj, now));
    StoreValid(r1, t, Sub.Resize(p, size, now, next).pool);
  }

  /** Writing back a sub-pool that kept its binding and holds no null keeps
      the registry valid. */
  lemma StoreValid(r: Registry, t: TypeTag, q: Sub.SubPool)
    requires Valid(r) && t in r.items
    requires q.policy == r.items[t].policy && Sub.NoNullEntries(q)
    ensures Valid(r.(items := r.items[t := q]))
  {
  }

  /** A setter keeps the registry valid and takes effect live: the type's
      policy becomes what the setter names (a new one completed with the
      30-second default), its sub-pool, if any, sees exactly that policy, and
      no other type and not the default sees any change. */
  lemma SetterEffect(r: Registry, t: TypeTag, poolItem: Option<int>, asset: Option<int>)
    requires Valid(r)
    ensures var r' := SetDeleteTimes(r, t, poolItem, asset);
      && Valid(r')
      && Effective(r'.table, t) == Assign(if t in r.table.deleteTimes then Effective(r.table, t)
                                          else DeleteTime(DefaultPoolItemDeleteTime, DefaultAssetDeleteTime), poolItem, asset)
      && (t in r'.items ==> PolicyOf(r'.table.policies, r'.items[t].policy) == Effective(r'.table, t))
      && (forall u | u != t :: Effective(r'.table, u) == Effective(r.table, u))
      && PolicyOf(r'.table.policies, DefaultPolicy) == PolicyOf(r.table.policies, DefaultPolicy)
      && r'.items.Keys == r.items.Keys
  {
    SetPolicyEffect(r.table, t, poolItem, asset, DeleteTime(DefaultPoolItemDeleteTime, DefaultAssetDeleteTime));
  }

  /** Stack order through the registry: an object disposed under a type
      comes back from the next Get of that type. */
  lemma DisposeThenGet(r: Registry, t: TypeTag, obj: Ref, t1: int, now: int, next: ObjId)
    requires obj.Obj?
    ensures Get(Dispose(r, t, obj, t1), t, now, next).obj == obj
    ensures Get(Dispose(r, t, obj, t1), t, now, next).next == next
  {
    var r1 := Dispose(r, t, obj, t1);
    var (r0, p) := GetPoolItem(r, t);
    Sub.DisposeThenGet(p, obj, t1, now, next);
  }

  /** The idle count follows the operations: Dispose of an object adds one,
      Resize leaves exactly the requested number (none for a non-positive
      size), Clear of a class type and ClearAll leave none, and a Get right
      after a Dispose restores the count. */
  lemma ItemCountFollowsOperations(r: Registry, t: TypeTag, obj: Ref, size: int, t1: int, now: int, next: ObjId)
    ensures obj.Obj? ==> GetItemCount(Dispose(r, t, obj, t1), t) == GetItemCount(r, t) + 1
    ensures obj.Null? ==> GetItemCount(Dispose(r, t, obj, t1), t) == GetItemCount(r, t)
    ensures GetItemCount(Resize(r, t, size, now, next).reg, t) == (if size <= 0 then 0 else size)
    ensures t.isClass ==> GetItemCount(Clear(r, t), t) == 0
    ensures GetItemCount(ClearAll(r), t) == 0
    ensures obj.Obj? ==> GetItemCount(Get(Dispose(r, t, obj, t1), t, now, next).reg, t) == GetItemCount(r, t)
  {
    if obj.Obj? {
      var (r0, p) := GetPoolItem(r, t);
      Sub.DisposeThenGet(p, obj, t1, now, next);
    }
  }
}

=== FILE: common_pool_item.dfy ===
/**
 * CommonPoolItem<T> (PoolItems/CommonPoolItem.cs): the sub-pool of plain C#
 * objects made with `new T()`. It has no liveness test and no guard against
 * disposing an object twice; a null reference is the only thing it refuses.
 */
module CommonPoolItem {
  import opened Engine
  import opened DeleteTimes
  import opened FreeList
  import opened Sweep

  /** The idle list, the time the sub-pool was last seen empty (mNullTime),
      and the handle of the policy it was bound to. */
  datatype SubPool = SubPool(items: seq<Item<Ref>>, nullTime: int, policy: PolicyId)

  /** The constructor: an empty sub-pool bound to `policy`. mNullTime is
      never assigned, so it keeps the C# default 0 until the first Get or
      the first tick that empties the list. */
  function New(policy: PolicyId): (p: SubPool)
    ensures p.items == [] && p.nullTime == 0 && p.policy == policy
  {
    SubPool([], 0, policy)
  }

  /** ItemCount. */
  function Count(p: SubPool): nat {
    |p.items|
  }

  /** No idle entry holds null. */
  ghost predicate NoNullEntries(p: SubPool) {
    forall i | 0 <= i < |p.items| :: p.items[i].obj.Obj?
  }

  /** The result of Get: the sub-pool afterwards, the object handed out and
      the instance supply afterwards. */
  datatype Got = Got(pool: SubPool, obj: Ref, next: ObjId)

  /** Get: record `now` as the empty-since time, then pop from the tail until
      a non-null entry has been popped; with nothing found, `new T()`. */
  function Get(p: SubPool, now: int, next: ObjId): (g: Got)
    ensures g.obj.Obj?
    ensures g.pool.nullTime == now && g.pool.policy == p.policy
    ensures |g.pool.items| <= |p.items| && g.pool.items == p.items[..|g.pool.items|]
    ensures |p.items| > 0 ==> |g.pool.items| < |p.items|
    ensures g.next == next ==> |p.items| > 0 && g.obj == p.items[|g.pool.items|].obj
    ensures g.next != next ==> g.obj == Obj(next) && g.next == next + 1 && g.pool.items == []
  {
    if |p.items| == 0 then Got(p.(nullTime := now), Obj(next), next + 1)
    else
      var popped := PopUntil(p.items, (r: Ref) => r.Obj?);
      if popped.found.Some? then Got(SubPool(popped.rest, now, p.policy), popped.found.value, next)
      else Got(SubPool(popped.rest, now, p.policy), Obj(next), next + 1)
  }

  /** Dispose: a null reference is ignored; anything else is appended with
      the current time, even an object that is already pooled. */
  function Dispose(p: SubPool, obj: Ref, now: int): (q: SubPool)
    ensures obj.Null? ==> q == p
    ensures obj.Obj? ==> q.items == p.items + [Item(obj, now)]
    ensures q.nullTime == p.nullTime && q.policy == p.policy
  {
    if obj.Null? then p else p.(items := Push(p.items, obj, now))
  }

  /** Clear: the idle list is emptied; the empty-since time is left alone. */
  function Clear(p: SubPool): (q: SubPool)
    ensures Count(q) == 0 && q.nullTime == p.nullTime && q.policy == p.policy
  {
    p.(items := [])
  }

  /** The result of Resize: the sub-pool and the instance supply afterwards. */
  datatype Resized = Resized(pool: SubPool, next: ObjId)

  /** `n` entries holding the new objects Obj(next) .. Obj(next + n - 1). */
  function SpawnedRefs(next: ObjId, n: nat, now: int): (r: seq<Item<Ref>>)
    ensures |r| == n
    ensures forall i | 0 <= i < n :: r[i] == Item(Obj(next + i), now)
  {
    seq(n, i requires 0 <= i < n => Item(Obj(next + i), now))
  }

  /** Resize(size): a non-positive size clears; otherwise new objects are
      appended at the tail, or the oldest entries removed from the front,
      until exactly `size` remain. */
  function Resize(p: SubPool, size: int, now: int, next: ObjId): (r: Resized)
    ensures r.pool.nullTime == p.nullTime && r.pool.policy == p.policy
    ensures size <= 0 ==> Count(r.pool) == 0 && r.next == next
    ensures size > 0 ==> Count(r.pool) == size
    ensures size > 0 && size <= |p.items| ==>
      r.pool.items == p.items[|p.items| - size..] && r.next == next
    ensures size > |p.items| ==>
      && r.pool.items[..|p.items|] == p.items
      && r.next == next + (size - |p.items|)
      && forall i | |p.items| <= i < size :: r.pool.items[i] == Item(Obj(next + i - |p.items|), now)
  {
    if size <= 0 then Resized(Clear(p), next)
    else
      var difference := size - |p.items|;
      if difference == 0 then Resized(p, next)
      else if difference > 0 then
        Resized(p.(items := p.items + SpawnedRefs(next, difference, now)), next + difference)
      else Resized(p.(items := KeepNewest(p.items, size)), next)
  }

  /** Update: when the item threshold is enabled and the list is not empty,
      drop the front entries that have reached it, stopping at the first
      younger one, and record `now` if that emptied the list; then give the
      pool-level verdict. */
  function Update(p: SubPool, dt: DeleteTime, now: int): (t: Tick<SubPool>)
    ensures t.pool.policy == p.policy
    ensures dt.assetDeleteTime < 0 ==> t.pool == p
    ensures exists k | 0 <= k <= |p.items| ::
      && t.pool.items == p.items[k..]
      && (forall i | 0 <= i < k :: Expired(now, p.items[i].time, dt.assetDeleteTime))
    ensures dt.assetDeleteTime >= 0 && |t.pool.items| > 0 ==>
      !Expired(now, t.pool.items[0].time, dt.assetDeleteTime)
    ensures t.pool.nullTime == (if dt.assetDeleteTime >= 0 && |p.items| > 0 && |t.pool.items| == 0 then now else p.nullTime)
    ensures !t.keep <==> dt.poolItemDeleteTime >= 0 && Count(t.pool) == 0
                         && now - t.pool.nullTime >= dt.poolItemDeleteTime
  {
    if dt.assetDeleteTime >= 0 && |p.items| > 0 then
      var k := ExpiredPrefix(p.items, now, dt.assetDeleteTime);
      var rest := p.items[k..];
      var q := SubPool(rest, if |rest| == 0 then now else p.nullTime, p.policy);
      Tick(q, KeepPool(dt, now, q.nullTime, |rest|))
    else
      assert p.items == p.items[0..];
      Tick(p, KeepPool(dt, now, p.nullTime, |p.items|))
  }

  /** Stack order: what was disposed last comes back first, and the rest of
      the list is as it was before the Dispose. */
  lemma DisposeThenGet(p: SubPool, obj: Ref, t: int, now: int, next: ObjId)
    requires obj.Obj?
    ensures Get(Dispose(p, obj, t), now, next).obj == obj
    ensures Get(Dispose(p, obj, t), now, next).pool.items == p.items
    ensures Get(Dispose(p, obj, t), now, next).next == next
  {
    var q := Dispose(p, obj, t);
    assert q.items[|q.items| - 1].obj == obj;
    assert q.items[..|q.items| - 1] == p.items;
  }

  /** With no null entry, Get on a non-empty list removes exactly the tail
      entry and returns its object, and spawns nothing. */
  lemma GetPopsTail(p: SubPool, now: int, next: ObjId)
    requires NoNullEntries(p) && |p.items| > 0
    ensures Get(p, now, next).obj == p.items[|p.items| - 1].obj
    ensures Get(p, now, next).pool.items == p.items[..|p.items| - 1]
    ensures Get(p, now, next).next == next
  {
  }

  /** There is no duplicate guard: disposing the same object twice pools it
      twice. */
  lemma DisposeTwiceKeepsBoth(p: SubPool, obj: Ref, now: int)
    requires obj.Obj?
    ensures Count(Dispose(Dispose(p, obj, now), obj, now)) == Count(p) + 2
  {
  }

  /** Every operation keeps null out of the idle list. */
  lemma NoNullEntriesPreserved(p: SubPool, obj: Ref, size: int, dt: DeleteTime, now: int, next: ObjId)
    requires NoNullEntries(p)
    ensures NoNullEntries(Get(p, now, next).pool)
    ensures NoNullEntries(Dispose(p, obj, now))
    ensures NoNullEntries(Resize(p, size, now, next).pool)
    ensures NoNullEntries(Update(p, dt, now).pool)
    ensures NoNullEntries(Clear(p))
  {
    var r := Resize(p, size, now, next).pool;
    if size > |p.items| {
      forall i | 0 <= i < |r.items| ensures r.items[i].obj.Obj? {
        if i < |p.items| {
          assert r.items[i] == r.items[..|p.items|][i];
        }
      }
    }
  }

  /** When entries were put back in time order, the sweep removes exactly the
      entries that have reached the threshold, wherever they sit. */
  lemma UpdateRemovesExactlyExpired(p: SubPool, dt: DeleteTime, now: int)
    requires Chronological(p.items) && dt.assetDeleteTime >= 0
    ensures var kept := Update(p, dt, now).pool.items;
      forall i | 0 <= i < |p.items| ::
        (i < |p.items| - |kept| <==> Expired(now, p.items[i].time, dt.assetDeleteTime))
  {
    ExpiredPrefixIsExactlyExpired(p.items, now, dt.assetDeleteTime);
  }

  /** Popping from the tail and sweeping the front keep a list in time
      order. */
  lemma GetUpdateChronological(p: SubPool, dt: DeleteTime, now: int, next: ObjId)
    requires Chronological(p.items)
    ensures Chronological(Get(p, now, next).pool.items)
    ensures Chronological(Update(p, dt, now).pool.items)
  {
    var g := Get(p, now, next).pool.items;
    ChronologicalSlice(p.items, 0, |g|);
    assert g == p.items[0..|g|];
    var u := Update(p, dt, now).pool.items;
    ChronologicalSlice(p.items, |p.items| - |u|, |p.items|);
    assert u == p.items[|p.items| - |u|..|p.items|];
  }

  /** Resize keeps a list in time order as long as the clock has not gone
      back since the last entry was stamped. */
  lemma ResizeChronological(p: SubPool, size: int, now: int, next: ObjId)
    requires Chronological(p.items)
    requires forall i | 0 <= i < |p.items| :: p.items[i].time <= now
    ensures Chronological(Resize(p, size, now, next).pool.items)
  {
    if 0 < size <= |p.items| {
      ChronologicalSlice(p.items, |p.items| - size, |p.items|);
      assert p.items[|p.items| - size..] == p.items[|p.items| - size..|p.items|];
    } else if size > |p.items| {
      AppendStampedChronological(p.items, SpawnedRefs(next, size - |p.items|, now), now);
    }
  }

  /** A negative item threshold never gives up the sub-pool, and a non-empty
      sub-pool is never given up either. */
  lemma UpdateKeepsWhenDisabledOrNonEmpty(p: SubPool, dt: DeleteTime, now: int)
    requires dt.poolItemDeleteTime < 0 || Count(Update(p, dt, now).pool) > 0
    ensures Update(p, dt, now).keep
  {
  }

  /** As written, a sub-pool that is created and never used is kept by a
      tick exactly when pool deletion is disabled or the clock has not yet
      reached PoolItemDeleteTime: its empty-since time is 0, not its
      creation time. */
  lemma NewPoolKeptIff(policy: PolicyId, dt: DeleteTime, now: int)
    ensures Update(New(policy), dt, now).keep <==> dt.poolItemDeleteTime < 0 || now < dt.poolItemDeleteTime
  {
  }
}

=== FILE: delete_time.dfy ===
/**
 * DeleteTime (DeleteTime.cs and the nested class of the older ObjectPool.cs):
 * the pair of idle thresholds that drives eviction, the pool-level verdict
 * every sub-pool's Update ends with, and the registries' table of per-key
 * policy objects.
 *
 * A DeleteTime is a mutable class shared by reference between a registry and
 * the sub-pools created under it. Here a sub-pool holds a `PolicyId` handle
 * and the registry owns `map<PolicyId, DeleteTime>`, so a setter that mutates
 * the object in place is seen by every holder of the handle.
 */
module DeleteTimes {
  import opened Engine

  /** Thresholds in seconds; a negative value disables that dimension. */
  datatype DeleteTime = DeleteTime(poolItemDeleteTime: int, assetDeleteTime: int)

  type PolicyId = nat

  /** Handle of a registry's default policy object. */
  const DefaultPolicy: PolicyId := 0

  /** Resolves a handle; a dangling handle reads as "never evict". */
  function PolicyOf(policies: map<PolicyId, DeleteTime>, id: PolicyId): DeleteTime {
    if id in policies then policies[id] else DeleteTime(-1, -1)
  }

  /** An idle entry inserted at `time` has reached the item threshold. */
  predicate Expired(now: int, time: int, threshold: int) {
    now - time >= threshold
  }

  /** The value every sub-pool's Update returns once its item sweep is done:
      false asks the registry to drop the sub-pool. */
  function KeepPool(dt: DeleteTime, now: int, nullTime: int, count: nat): bool {
    if dt.poolItemDeleteTime >= 0 && count == 0 then now - nullTime < dt.poolItemDeleteTime
    else true
  }

  /** The per-key policies of a registry (mDeleteTimes) with the objects they
      point to. `nextPolicy` hands out the handle of the next `new DeleteTime`. */
  datatype PolicyTable<K> = PolicyTable(
    deleteTimes: map<K, PolicyId>,
    policies: map<PolicyId, DeleteTime>,
    nextPolicy: PolicyId)

  /** A table holding only the default policy object. */
  function WithDefault<K>(default: DeleteTime): PolicyTable<K> {
    PolicyTable(map[], map[DefaultPolicy := default], DefaultPolicy + 1)
  }

  /** Every key owns its own live policy object, distinct from the default. */
  ghost predicate WellFormed<K>(pt: PolicyTable<K>) {
    && pt.nextPolicy > DefaultPolicy
    && (forall id | id in pt.policies :: id < pt.nextPolicy)
    && (forall k | k in pt.deleteTimes :: pt.deleteTimes[k] in pt.policies && pt.deleteTimes[k] != DefaultPolicy)
    && (forall k1, k2 | k1 in pt.deleteTimes && k2 in pt.deleteTimes && k1 != k2 ::
          pt.deleteTimes[k1] != pt.deleteTimes[k2])
  }

  /** The handle a sub-pool created now for `k` is bound to: the key's own
      policy if it has one, otherwise the default. */
  function Binding<K>(pt: PolicyTable<K>, k: K): PolicyId {
    if k in pt.deleteTimes then pt.deleteTimes[k] else DefaultPolicy
  }

  /** The thresholds currently in force for `k`. */
  function Effective<K>(pt: PolicyTable<K>, k: K): DeleteTime {
    PolicyOf(pt.policies, Binding(pt, k))
  }

  /** TryGetDeleteTime: the key's own policy object, if any. */
  function TryGet<K>(pt: PolicyTable<K>, k: K): (r: Option<DeleteTime>)
    ensures r.Some? <==> k in pt.deleteTimes
    ensures r.Some? ==> r.value == Effective(pt, k)
  {
    if k in pt.deleteTimes then Some(PolicyOf(pt.policies, pt.deleteTimes[k])) else None
  }

  /** mDeleteTimes.Add(k, new DeleteTime(...)): a fresh policy object for `k`. */
  function Insert<K>(pt: PolicyTable<K>, k: K, dt: DeleteTime): PolicyTable<K> {
    PolicyTable(pt.deleteTimes[k := pt.nextPolicy], pt.policies[pt.nextPolicy := dt], pt.nextPolicy + 1)
  }

  /** Assigns the fields a setter names; `None` leaves a field as it is. */
  function Assign(d: DeleteTime, poolItem: Option<int>, asset: Option<int>): (r: DeleteTime)
    ensures r.poolItemDeleteTime == (if poolItem.Some? then poolItem.value else d.poolItemDeleteTime)
    ensures r.assetDeleteTime == (if asset.Some? then asset.value else d.assetDeleteTime)
  {
    DeleteTime(if poolItem.Some? then poolItem.value else d.poolItemDeleteTime,
               if asset.Some? then asset.value else d.assetDeleteTime)
  }

  /** Assigns fields of the key's existing policy object in place. */
  function Mutate<K>(pt: PolicyTable<K>, k: K, poolItem: Option<int>, asset: Option<int>): PolicyTable<K>
    requires k in pt.deleteTimes
  {
    var h := pt.deleteTimes[k];
    pt.(policies := pt.policies[h := Assign(PolicyOf(pt.policies, h), poolItem, asset)])
  }

  /** The SetDeleteTime family: assign the named fields of the key's policy
      object if it has one, otherwise insert a new object whose other field
      takes its value from `defaults`. */
  function SetPolicy<K>(pt: PolicyTable<K>, k: K, poolItem: Option<int>, asset: Option<int>, defaults: DeleteTime): PolicyTable<K> {
    if k in pt.deleteTimes then Mutate(pt, k, poolItem, asset)
    else Insert(pt, k, Assign(defaults, poolItem, asset))
  }

  /** Inserting a policy for a new key gives it exactly `dt` under a handle no
      one held before, and leaves every existing policy object untouched. */
  lemma InsertEffect<K>(pt: PolicyTable<K>, k: K, dt: DeleteTime)
    requires WellFormed(pt) && k !in pt.deleteTimes
    ensures WellFormed(Insert(pt, k, dt))
    ensures Effective(Insert(pt, k, dt), k) == dt
    ensures Binding(Insert(pt, k, dt), k) == pt.nextPolicy && pt.nextPolicy !in pt.policies
    ensures forall h | h in pt.policies :: PolicyOf(Insert(pt, k, dt).policies, h) == pt.policies[h]
    ensures forall k' | k' != k :: Binding(Insert(pt, k, dt), k') == Binding(pt, k')
  {
    var r := Insert(pt, k, dt);
    forall k1, k2 | k1 in r.deleteTimes && k2 in r.deleteTimes && k1 != k2
      ensures r.deleteTimes[k1] != r.deleteTimes[k2]
    {
      if k1 != k && k2 != k {
        assert r.deleteTimes[k1] == pt.deleteTimes[k1] && r.deleteTimes[k2] == pt.deleteTimes[k2];
      } else if k1 == k {
        assert pt.deleteTimes[k2] in pt.policies;
      } else {
        assert pt.deleteTimes[k1] in pt.policies;
      }
    }
  }

  /** Mutating a key's policy object changes what that key sees, and nothing
      that any other key or the default sees. */
  lemma MutateEffect<K>(pt: PolicyTable<K>, k: K, poolItem: Option<int>, asset: Option<int>)
    requires WellFormed(pt) && k in pt.deleteTimes
    ensures WellFormed(Mutate(pt, k, poolItem, asset))
    ensures Mutate(pt, k, poolItem, asset).deleteTimes == pt.deleteTimes
    ensures Effective(Mutate(pt, k, poolItem, asset), k) == Assign(Effective(pt, k), poolItem, asset)
    ensures forall h | h != pt.deleteTimes[k] ::
      PolicyOf(Mutate(pt, k, poolItem, asset).policies, h) == PolicyOf(pt.policies, h)
    ensures forall k' | k' != k :: Effective(Mutate(pt, k, poolItem, asset), k') == Effective(pt, k')
  {
    var r := Mutate(pt, k, poolItem, asset);
    forall k' | k' != k
      ensures Effective(r, k') == Effective(pt, k')
    {
      if k' in pt.deleteTimes {
        assert pt.deleteTimes[k'] != pt.deleteTimes[k];
      }
    }
  }

  /** A setter leaves the key with the policy it names (an existing policy
      object updated in place, or a new one completed from `defaults`), keeps
      the key's handle if it had one, and changes what no other key and not
      the default sees. */
  lemma SetPolicyEffect<K>(pt: PolicyTable<K>, k: K, poolItem: Option<int>, asset: Option<int>, defaults: DeleteTime)
    requires WellFormed(pt)
    ensures var r := SetPolicy(pt, k, poolItem, asset, defaults);
      && WellFormed(r)
      && k in r.deleteTimes
      && Effective(r, k) == Assign(if k in pt.deleteTimes then Effective(pt, k) else defaults, poolItem, asset)
      && (k in pt.deleteTimes ==> r.deleteTimes == pt.deleteTimes)
      && (k !in pt.deleteTimes ==> r.deleteTimes[k] == pt.nextPolicy)
      && (forall k' | k' != k :: Binding(r, k') == Binding(pt, k') && Effective(r, k') == Effective(pt, k'))
      && PolicyOf(r.policies, DefaultPolicy) == PolicyOf(pt.policies, DefaultPolicy)
  {
    if k in pt.deleteTimes {
      MutateEffect(pt, k, poolItem, asset);
    } else {
      InsertEffect(pt, k, Assign(defaults, poolItem, asset));
      var r := SetPolicy(pt, k, poolItem, asset, defaults);
      forall k' | k' != k
        ensures Effective(r, k') == Effective(pt, k')
      {
        if k' in pt.deleteTimes {
          assert pt.deleteTimes[k'] in pt.policies;
        }
      }
    }
  }
}

=== FILE: engine.dfy ===
/**
 * The engine collaborators the pools talk to, reduced to data: object
 * identity, Unity's overloaded null test, component discovery and the two
 * reflection facts the registries test. Instantiation is a fresh-ID supply
 * (`next`) threaded through the operations that spawn.
 */
module Engine {

  datatype Option<+T> = None | Some(value: T)

  /** A Unity instance ID; a pooled object is identified by its instance ID. */
  type ObjId = int

  /** A C# reference: null, or an object with a stable identity. */
  datatype Ref = Null | Obj(id: ObjId)

  /** An ISpawnHandler / IDisposeHandler component attached to a GameObject. */
  type HandlerId = int

  /** A System.Type, as far as the pools care: its name and the two
      reflection facts they test, Type.IsClass and
      IsSubclassOf(UnityEngine.Object). */
  datatype TypeTag = TypeTag(name: string, isClass: bool, isUnityObject: bool)

  const GameObjectType: TypeTag := TypeTag("GameObject", true, true)

  /** What the engine knows about the objects the pools handle. */
  datatype World = World(
    dead: set<ObjId>,                          // objects destroyed so far
    spawnHandlers: ObjId -> seq<HandlerId>,    // ISpawnHandler components in discovery order
    disposeHandlers: ObjId -> seq<HandlerId>,  // IDisposeHandler components in discovery order
    isGameObject: ObjId -> bool)               // the runtime test `obj is GameObject`

  /** Unity's `if (obj)`: the reference is not null and not destroyed. */
  predicate IsAlive(r: Ref, w: World) {
    r.Obj? && r.id !in w.dead
  }
}

=== FILE: free_list.dfy ===
/**
 * The timestamped idle list every sub-pool keeps (the LinkedList<Item> of
 * PoolItems/CommonPoolItem.cs, PoolItems/ObjectPoolItem.cs and PoolItem.cs).
 * The front holds the oldest entry and the tail the newest: Dispose appends at
 * the tail, Get pops from the tail, and the Update sweep and Resize trimming
 * both remove from the front.
 */
module FreeList {
  import opened Engine
  import opened DeleteTimes

  /** One idle entry: the pooled object and the time it was put back. */
  datatype Item<T> = Item(obj: T, time: int)

  /** Insertion times never decrease from front to tail. */
  ghost predicate Chronological<T>(items: seq<Item<T>>) {
    forall i, j | 0 <= i < j < |items| :: items[i].time <= items[j].time
  }

  /** AddLast(new Item(obj, now)). */
  function Push<T>(items: seq<Item<T>>, obj: T, now: int): seq<Item<T>> {
    items + [Item(obj, now)]
  }

  /** `n` entries spawned at `now` with the consecutive fresh IDs starting at `next`. */
  function Spawned(next: ObjId, n: nat, now: int): (r: seq<Item<ObjId>>)
    ensures |r| == n
    ensures forall i | 0 <= i < n :: r[i] == Item(next + i, now)
  {
    seq(n, i requires 0 <= i < n => Item(next + i, now))
  }

  /** How many entries the sweep's front-to-tail scan removes: it stops at the
      first entry younger than the threshold. */
  function ExpiredPrefix<T>(items: seq<Item<T>>, now: int, threshold: int): (k: nat)
    ensures k <= |items|
    ensures forall i | 0 <= i < k :: Expired(now, items[i].time, threshold)
    ensures k < |items| ==> !Expired(now, items[k].time, threshold)
  {
    if |items| == 0 || !Expired(now, items[0].time, threshold) then 0
    else 1 + ExpiredPrefix(items[1..], now, threshold)
  }

  /** The result of popping from the tail: what is left, and the accepted
      object the scan stopped at, if any. */
  datatype Popped<T> = Popped(rest: seq<Item<T>>, found: Option<T>)

  /** Get's backwards scan: pop the tail entry until one whose object is
      accepted has been popped, or the list is exhausted. */
  function PopUntil<T>(items: seq<Item<T>>, accept: T -> bool): (r: Popped<T>)
    ensures |r.rest| <= |items| && r.rest == items[..|r.rest|]
    ensures |items| > 0 ==> |r.rest| < |items|
    ensures forall i | |r.rest| < i < |items| :: !accept(items[i].obj)
    ensures r.found.Some? ==> |r.rest| < |items| && accept(r.found.value) && r.found.value == items[|r.rest|].obj
    ensures r.found.None? ==> r.rest == [] && forall i | 0 <= i < |items| :: !accept(items[i].obj)
    decreases |items|
  {
    if |items| == 0 then Popped([], None)
    else
      var last := items[|items| - 1];
      if accept(last.obj) then Popped(items[..|items| - 1], Some(last.obj))
      else PopUntil(items[..|items| - 1], accept)
  }

  /** The newest `n` entries, in order (Resize's RemoveFirst loop). */
  function KeepNewest<T>(items: seq<Item<T>>, n: nat): seq<Item<T>>
    requires n <= |items|
  {
    items[|items| - n..]
  }

  /** When insertion times are chronological the front-to-tail scan removes
      exactly the entries that have reached the threshold, even though it
      stops at the first young one. */
  lemma ExpiredPrefixIsExactlyExpired<T>(items: seq<Item<T>>, now: int, threshold: int)
    requires Chronological(items)
    ensures forall i | 0 <= i < |items| ::
      (i < ExpiredPrefix(items, now, threshold) <==> Expired(now, items[i].time, threshold))
  {
    var k := ExpiredPrefix(items, now, threshold);
    forall i | k <= i < |items|
      ensures !Expired(now, items[i].time, threshold)
    {
      assert items[k].time <= items[i].time;
    }
  }

  /** Appending an entry stamped no earlier than the current tail keeps the
      list chronological. */
  lemma PushChronological<T>(items: seq<Item<T>>, obj: T, now: int)
    requires Chronological(items)
    requires |items| > 0 ==> items[|items| - 1].time <= now
    ensures Chronological(Push(items, obj, now))
  {
    var r := Push(items, obj, now);
    forall i, j | 0 <= i < j < |r|
      ensures r[i].time <= r[j].time
    {
      if j == |items| && i < |items| - 1 {
        assert items[i].time <= items[|items| - 1].time;
      }
    }
  }

  /** Any slice of a list in time order is in time order. */
  lemma ChronologicalSlice<T>(items: seq<Item<T>>, a: nat, b: nat)
    requires Chronological(items) && a <= b <= |items|
    ensures Chronological(items[a..b])
  {
    forall i, j | 0 <= i < j < b - a
      ensures items[a..b][i].time <= items[a..b][j].time
    {
      assert items[a..b][i] == items[a + i] && items[a..b][j] == items[a + j];
    }
  }

  /** Appending entries all stamped `now`, no earlier than anything already
      listed, keeps the list in time order. */
  lemma AppendStampedChronological<T>(items: seq<Item<T>>, extra: seq<Item<T>>, now: int)
    requires Chronological(items)
    requires forall i | 0 <= i < |items| :: items[i].time <= now
    requires forall i | 0 <= i < |extra| :: extra[i].time == now
    ensures Chronological(items + extra)
  {
    var r := items + extra;
    forall i, j | 0 <= i < j < |r|
      ensures r[i].time <= r[j].time
    {
      if j >= |items| {
        assert r[j] == extra[j - |items|];
        if i >= |items| {
          assert r[i] == extra[i - |items|];
        }
      }
    }
  }
}

=== FILE: hooks.dfy ===
/**
 * Lifecycle-hook dispatch on GameObjects: OnGameObjectSpawn /
 * OnGameObjectDispose of PoolItems/ObjectPoolItem.cs and of the older
 * PoolItem.cs. The handlers are discovered by the engine
 * (GetComponentsInChildren); what the pool decides is the order in which it
 * invokes them and what it does with the scratch buffer that holds them.
 * A dispatch is modelled as its trace of events.
 */
module Hooks {
  import opened Engine

  datatype Event =
    | Borrow                       // CommonPool.Instance.Get<List<...>>(), then Clear()
    | Invoke(handler: HandlerId)   // handler.OnSpawn() or handler.OnDispose()
    | ClearBuffer                  // handlers.Clear()
    | Return                       // CommonPool.Instance.Dispose(handlers)

  /** The handlers a trace invokes, in order. */
  function Invoked(trace: seq<Event>): seq<HandlerId> {
    if |trace| == 0 then []
    else (if trace[0].Invoke? then [trace[0].handler] else []) + Invoked(trace[1..])
  }

  /** One Invoke per handler, in discovery order. */
  function Invocations(hs: seq<HandlerId>): (trace: seq<Event>)
    ensures |trace| == |hs|
    ensures forall i | 0 <= i < |hs| :: trace[i] == Invoke(hs[i])
  {
    seq(|hs|, i requires 0 <= i < |hs| => Invoke(hs[i]))
  }

  lemma {:induction false} InvokedAppend(a: seq<Event>, b: seq<Event>)
    ensures Invoked(a + b) == Invoked(a) + Invoked(b)
    decreases |a|
  {
    if |a| == 0 {
      assert a + b == b;
    } else {
      assert (a + b)[0] == a[0];
      assert (a + b)[1..] == a[1..] + b;
      InvokedAppend(a[1..], b);
    }
  }

  lemma {:induction false} InvokedInvocations(hs: seq<HandlerId>)
    ensures Invoked(Invocations(hs)) == hs
    decreases |hs|
  {
    if |hs| > 0 {
      assert Invocations(hs)[1..] == Invocations(hs[1..]);
      InvokedInvocations(hs[1..]);
      assert hs == [hs[0]] + hs[1..];
    }
  }

  /** Dispatch runs in the sub-pool's own buffer only when that buffer exists
      and is empty; otherwise it borrows one from CommonPool. `own` is the
      own buffer's length, None when the sub-pool has none. */
  predicate Borrows(own: Option<nat>) {
    own != Some(0)
  }

  /** The newer dispatch: handlers 0..k-2 are invoked in discovery order, then
      the buffer is cleared and, if borrowed, given back, and only then is the
      last handler invoked, so that it may itself use the pool. Borrow, Return
      and ClearBuffer each occur at most once, at the positions stated. */
  function Dispatch(own: Option<nat>, handlers: seq<HandlerId>): (trace: seq<Event>)
    ensures Invoked(trace) == handlers
    ensures forall i | 0 <= i < |trace| :: (trace[i] == Borrow <==> Borrows(own) && i == 0)
    ensures forall i | 0 <= i < |trace| ::
      (trace[i] == Return <==> Borrows(own) && i == |trace| - (if |handlers| > 0 then 2 else 1))
    ensures forall i | 0 <= i < |trace| ::
      (trace[i] == ClearBuffer <==> |handlers| > 0 && i == |trace| - (if Borrows(own) then 3 else 2))
    ensures Borrows(own) ==> |trace| >= 2
    ensures |handlers| > 0 ==> |trace| >= 2 && trace[|trace| - 1] == Invoke(handlers[|handlers| - 1])
  {
    if |handlers| == 0 then
      if Borrows(own) then
        assert Invoked([Borrow, Return]) == Invoked([Return]) == [];
        [Borrow, Return]
      else []
    else
      var k := |handlers| - 1;
      var body := Invocations(handlers[..k]);
      if Borrows(own) then
        DispatchInvokes([Borrow], body, [Return], handlers);
        [Borrow] + body + [ClearBuffer] + [Return] + [Invoke(handlers[k])]
      else
        DispatchInvokes([], body, [], handlers);
        assert [] + body + [ClearBuffer] + [] + [Invoke(handlers[k])] == body + [ClearBuffer] + [Invoke(handlers[k])];
        body + [ClearBuffer] + [Invoke(handlers[k])]
  }

  lemma DispatchInvokes(open: seq<Event>, body: seq<Event>, close: seq<Event>, handlers: seq<HandlerId>)
    requires |handlers| > 0 && body == Invocations(handlers[..|handlers| - 1])
    requires Invoked(open) == [] && Invoked(close) == []
    ensures Invoked(open + body + [ClearBuffer] + close + [Invoke(handlers[|handlers| - 1])]) == handlers
  {
    var k := |handlers| - 1;
    InvokedInvocations(handlers[..k]);
    InvokedAppend(open, body);
    InvokedAppend(open + body, [ClearBuffer]);
    InvokedAppend(open + body + [ClearBuffer], close);
    InvokedAppend(open + body + [ClearBuffer] + close, [Invoke(handlers[k])]);
    assert handlers == handlers[..k] + [handlers[k]];
  }

  /** The older dispatch: every handler in discovery order, then the buffer is
      cleared; nothing is borrowed. */
  function LegacyDispatch(handlers: seq<HandlerId>): (trace: seq<Event>)
    ensures Invoked(trace) == handlers
    ensures Borrow !in trace && Return !in trace
    ensures |handlers| == 0 ==> trace == []
    ensures |handlers| > 0 ==> trace[|trace| - 1] == ClearBuffer && ClearBuffer !in trace[..|trace| - 1]
  {
    if |handlers| == 0 then []
    else
      InvokedInvocations(handlers);
      InvokedAppend(Invocations(handlers), [ClearBuffer]);
      assert (Invocations(handlers) + [ClearBuffer])[..|handlers|] == Invocations(handlers);
      Invocations(handlers) + [ClearBuffer]
  }
}

=== FILE: legacy_object_pool.dfy ===
/**
 * The older ObjectPool (ObjectPool.cs at the repository root): a registry of
 * PoolItem<T> sub-pools keyed by (type, asset path, load mode), with its own
 * nested DeleteTime class and a default of 30 seconds for both thresholds.
 * Every lookup creates a missing sub-pool, and creating one also stores a
 * default policy object for its key, so a live sub-pool always holds the
 * very object its key's setters assign.
 */
module LegacyObjectPool {
  import opened Engine
  import opened DeleteTimes
  import opened FreeList
  import opened TrackedList
  import opened Hooks
  import opened Sweep
  import Sub = LegacyPoolItem

  const DefaultPoolItemDeleteTime: int := 30
  const DefaultAssetDeleteTime: int := 30

  /** The nested PoolKey struct. */
  datatype PoolKey = PoolKey(poolType: TypeTag, assetPath: Option<string>, loadMode: Sub.LoadMode)

  /** PoolKey.Equals: type and asset path; the load mode is not compared. */
  predicate KeyEquals(a: PoolKey, b: PoolKey) {
    a.poolType == b.poolType && a.assetPath == b.assetPath
  }

  /** Ignoring the load mode loses nothing while LoadMode has one member:
      PoolKey.Equals is exactly structural equality, so a Dafny map keyed by
      PoolKey is the C# dictionary. */
  lemma KeyEqualsIsEquality(a: PoolKey, b: PoolKey)
    ensures KeyEquals(a, b) <==> a == b
  {
  }

  /** PoolKey.GetHashCode: the type's hash, xor the path's hash shifted
      left by two, xor the mode's hash shifted right by two (the shifts
      bind tighter than xor); the enum's hash is its value, 0 for Resource.
      A null path has no hash: the C# call throws. */
  function KeyHash(k: PoolKey, typeHash: TypeTag -> bv32, stringHash: string -> bv32): (h: Option<bv32>)
    ensures h.None? <==> k.assetPath.None?
  {
    if k.assetPath.None? then None
    else
      var modeHash: bv32 := 0;
      Some(typeHash(k.poolType) ^ (stringHash(k.assetPath.value) << 2) ^ (modeHash >> 2))
  }

  /** The hash agrees with PoolKey.Equals, although it mixes in the load
      mode that Equals ignores. */
  lemma HashAgreesWithEquals(a: PoolKey, b: PoolKey, typeHash: TypeTag -> bv32, stringHash: string -> bv32)
    requires KeyEquals(a, b)
    ensures KeyHash(a, typeHash, stringHash) == KeyHash(b, typeHash, stringHash)
  {
  }

  /** The engine as the registry sees it: liveness and hooks, what
      Resources.Load answers, and the DisposeSelf component a GameObject
      carries, if any. */
  datatype Env = Env(
    world: World,
    resources: (TypeTag, Option<string>) -> Ref,
    markers: ObjId -> Option<Sub.DisposeSelf>)

  datatype Registry = Registry(
    items: map<PoolKey, Sub.SubPool>,   // mPoolItems
    keys: set<PoolKey>,                 // mPoolKeys, the set the tick walks
    pending: seq<PoolKey>,              // mToDeletePoolKeys
    table: PolicyTable<PoolKey>)        // mDeleteTimes

  const DefaultDeleteTime: DeleteTime := DeleteTime(DefaultPoolItemDeleteTime, DefaultAssetDeleteTime)

  /** A registry as constructed: nothing at all. The table's default handle
      is never bound to a sub-pool in this generation. */
  function Init(): (r: Registry)
    ensures r.items == map[] && r.keys == {} && r.pending == [] && r.table.deleteTimes == map[]
  {
    Registry(map[], {}, [], WithDefault(DefaultDeleteTime))
  }

  /** The sub-pool stored under `k` was built for `k`. */
  predicate Belongs(k: PoolKey, p: Sub.SubPool) {
    p.assetPath == k.assetPath && p.loadMode == k.loadMode && p.isGameObject == (k.poolType == GameObjectType)
  }

  /** Outside the tick: the key set is the map's key set, nothing is pending,
      and every live sub-pool sits under its own key, keeps its ID invariant
      and holds its key's own policy object. */
  ghost predicate Valid(r: Registry) {
    && r.keys == r.items.Keys
    && r.pending == []
    && WellFormed(r.table)
    && (forall k | k in r.items :: k in r.table.deleteTimes && r.items[k].policy == r.table.deleteTimes[k])
    && (forall k | k in r.items :: Sub.Valid(r.items[k]) && Belongs(k, r.items[k]))
  }

  /** The instance supply has not yet handed out `next` to any pooled ID. */
  ghost predicate FreshIds(r: Registry, next: ObjId) {
    forall k | k in r.items :: FreshFrom(r.items[k].idle, next)
  }

  lemma InitValid()
    ensures Valid(Init())
  {
  }

  /** CreatePoolItem: store a default DeleteTime(30, 30) for a key without a
      policy, then register a new sub-pool holding the key's policy in both
      collections. */
  function CreatePoolItem(r: Registry, t: TypeTag, assetPath: Option<string>, mode: Sub.LoadMode, env: Env): (res: (Registry, Sub.SubPool))
    ensures var k := PoolKey(t, assetPath, mode);
      && k in res.0.table.deleteTimes
      && (k in r.table.deleteTimes ==> res.0.table == r.table)
      && (k !in r.table.deleteTimes ==>
            && Effective(res.0.table, k) == DefaultDeleteTime
            && res.0.table.deleteTimes == r.table.deleteTimes[k := r.table.nextPolicy])
      && res.1.policy == res.0.table.deleteTimes[k]
      && res.1.idle == Empty && res.1.template == env.resources(t, assetPath) && Belongs(k, res.1)
      && res.0.items == r.items[k := res.1] && res.0.keys == r.keys + {k} && res.0.pending == r.pending
  {
    var k := PoolKey(t, assetPath, mode);
    var table := if k in r.table.deleteTimes then r.table else Insert(r.table, k, DefaultDeleteTime);
    var p := Sub.New(assetPath, mode, t == GameObjectType, env.resources(t, assetPath), table.deleteTimes[k]);
    (Registry(r.items[k := p], r.keys + {k}, r.pending, table), p)
  }

  /** GetPoolItem: the existing sub-pool, or a new one; it never fails. */
  function GetPoolItem(r: Registry, t: TypeTag, assetPath: Option<string>, mode: Sub.LoadMode, env: Env): (res: (Registry, Sub.SubPool))
    ensures var k := PoolKey(t, assetPath, mode);
      && (k in r.items ==> res == (r, r.items[k]))
      && (k !in r.items ==> res == CreatePoolItem(r, t, assetPath, mode, env))
      && k in res.0.items && res.0.items[k] == res.1
  {
    var k := PoolKey(t, assetPath, mode);
    if k in r.items then (r, r.items[k]) else CreatePoolItem(r, t, assetPath, mode, env)
  }

  /** The result of Get. */
  datatype Got = Got(reg: Registry, obj: Ref, next: ObjId, events: seq<Event>, marker: Option<Sub.DisposeSelf>)

  /** Get and GetResources: the key's sub-pool, created if need be, hands
      out an object; afterwards the key always has a policy. */
  function Get(r: Registry, t: TypeTag, assetPath: Option<string>, mode: Sub.LoadMode, env: Env, now: int, next: ObjId): (g: Got)
    ensures var k := PoolKey(t, assetPath, mode);
      && k in g.reg.items && g.reg.items.Keys == r.items.Keys + {k}
      && g.reg.keys == r.keys + (if k in r.items then {} else {k})
      && (k in r.table.deleteTimes || k !in r.items ==> TryGetDeleteTime(g.reg, t, assetPath, mode).Some?)
      && (k in r.table.deleteTimes ==> g.reg.table == r.table)
      && (forall u | u in r.items && u != k :: g.reg.items[u] == r.items[u])
    ensures var k := PoolKey(t, assetPath, mode);
      var p := if k in r.items then r.items[k] else CreatePoolItem(r, t, assetPath, mode, env).1;
      var sg := Sub.Get(p, env.world, now, next);
      && g.obj == sg.obj && g.next == sg.next && g.events == sg.events && g.marker == sg.marker
      && g.reg.items[k] == sg.pool
  {
    var k := PoolKey(t, assetPath, mode);
    var (r1, p) := GetPoolItem(r, t, assetPath, mode, env);
    var sg := Sub.Get(p, env.world, now, next);
    Got(r1.(items := r1.items[k := sg.pool]), sg.obj, sg.next, sg.events, sg.marker)
  }

  /** The result of Dispose and Clear. */
  datatype Outcome = Outcome(reg: Registry, events: seq<Event>, destroyed: seq<ObjId>)

  /** DisposeGameObject: a GameObject without a DisposeSelf is destroyed;
      otherwise it goes to the GameObject sub-pool of the marker's path and
      mode, created if need be. */
  function DisposeGameObject(r: Registry, obj: Ref, env: Env, now: int): (o: Outcome)
    ensures !IsAlive(obj, env.world) ==> o == Outcome(r, [], [])
    ensures IsAlive(obj, env.world) && env.markers(obj.id).None? ==> o == Outcome(r, [], [obj.id])
    ensures IsAlive(obj, env.world) && env.markers(obj.id).Some? ==>
      var m := env.markers(obj.id).value;
      var k := PoolKey(GameObjectType, m.assetPath, m.loadMode);
      && o.destroyed == [] && k in o.reg.items && obj.id in o.reg.items[k].idle.ids
      && o.reg.items.Keys == r.items.Keys + {k}
      && (forall u | u in r.items && u != k :: o.reg.items[u] == r.items[u])
    ensures IsAlive(obj, env.world) && env.markers(obj.id).Some? ==>
      var m := env.markers(obj.id).value;
      var k := PoolKey(GameObjectType, m.assetPath, m.loadMode);
      var p := if k in r.items then r.items[k] else CreatePoolItem(r, GameObjectType, m.assetPath, m.loadMode, env).1;
      var d := Sub.Dispose(p, env.world, obj, now);
      o.reg.items[k] == d.pool && o.events == d.events
  {
    if !IsAlive(obj, env.world) then Outcome(r, [], [])
    else if env.markers(obj.id).None? then Outcome(r, [], [obj.id])
    else
      var m := env.markers(obj.id).value;
      var k := PoolKey(GameObjectType, m.assetPath, m.loadMode);
      var (r1, p) := GetPoolItem(r, GameObjectType, m.assetPath, m.loadMode, env);
      var d := Sub.Dispose(p, env.world, obj, now);
      Outcome(r1.(items := r1.items[k := d.pool]), d.events, [])
  }

  /** Dispose: a dead object is ignored, a GameObject is routed by its
      marker whatever key the caller names, and anything else goes to the
      named key's sub-pool, created if need be. */
  function Dispose(r: Registry, t: TypeTag, obj: Ref, assetPath: Option<string>, mode: Sub.LoadMode, env: Env, now: int): (o: Outcome)
    ensures !IsAlive(obj, env.world) ==> o == Outcome(r, [], [])
    ensures IsAlive(obj, env.world) && env.world.isGameObject(obj.id) ==> o == DisposeGameObject(r, obj, env, now)
    ensures var k := PoolKey(t, assetPath, mode);
      IsAlive(obj, env.world) && !env.world.isGameObject(obj.id) ==>
        && o.destroyed == [] && k in o.reg.items && obj.id in o.reg.items[k].idle.ids
        && o.reg.items.Keys == r.items.Keys + {k}
        && (forall u | u in r.items && u != k :: o.reg.items[u] == r.items[u])
    ensures var k := PoolKey(t, assetPath, mode);
      IsAlive(obj, env.world) && !env.world.isGameObject(obj.id) ==>
        var p := if k in r.items then r.items[k] else CreatePoolItem(r, t, assetPath, mode, env).1;
        var d := Sub.Dispose(p, env.world, obj, now);
        o.reg.items[k] == d.pool && o.events == d.events
  {
    if !IsAlive(obj, env.world) then Outcome(r, [], [])
    else if env.world.isGameObject(obj.id) then DisposeGameObject(r, obj, env, now)
    else
      var k := PoolKey(t, assetPath, mode);
      var (r1, p) := GetPoolItem(r, t, assetPath, mode, env);
      var d := Sub.Dispose(p, env.world, obj, now);
      Outcome(r1.(items := r1.items[k := d.pool]), d.events, [])
  }

  /** Whether Clear acts on type `t`: Clear(Type) ignores a type that is not
      a proper subclass of UnityEngine.Object, while the generic Clear<T>
      relies on the compile-time constraint `T : Object` and checks nothing,
      so it also acts on UnityEngine.Object itself. */
  predicate Admits(generic: bool, t: TypeTag) {
    generic || t.isUnityObject
  }

  /** Clear<T> and Clear(Type): ClearInternal removes a present key from
      both collections and clears its sub-pool. */
  function Clear(r: Registry, t: TypeTag, generic: bool, assetPath: Option<string>, mode: Sub.LoadMode, w: World): (o: Outcome)
    ensures var k := PoolKey(t, assetPath, mode);
      !Admits(generic, t) || k !in r.items ==> o == Outcome(r, [], [])
    ensures var k := PoolKey(t, assetPath, mode);
      Admits(generic, t) && k in r.items ==>
        && o.reg == r.(items := r.items - {k}, keys := r.keys - {k})
        && (forall i | 0 <= i < |r.items[k].idle.items| && r.items[k].idle.items[i].obj !in w.dead ::
              r.items[k].idle.items[i].obj in o.destroyed)
        && (forall x | x in o.destroyed :: x !in w.dead && x in IdsOf(r.items[k].idle.items))
  {
    var k := PoolKey(t, assetPath, mode);
    if !Admits(generic, t) || k !in r.items then Outcome(r, [], [])
    else Outcome(r.(items := r.items - {k}, keys := r.keys - {k}), [], Sub.Clear(r.items[k], w).1)
  }

  /** ClearAll: no sub-pool, no key, nothing pending; policies are kept. */
  function ClearAll(r: Registry): (r': Registry)
    ensures r'.items == map[] && r'.keys == {} && r'.pending == [] && r'.table == r.table
  {
    Registry(map[], {}, [], r.table)
  }

  /** The SetDeleteTime family: the key's policy object is assigned in place
      if it exists, otherwise a new one is stored, completed with the
      30-second default for a field the setter does not name. No sub-pool is
      rewired: a live one already holds its key's object. */
  function SetDeleteTimes(r: Registry, t: TypeTag, assetPath: Option<string>, mode: Sub.LoadMode,
                          poolItem: Option<int>, asset: Option<int>): (r': Registry)
    ensures PoolKey(t, assetPath, mode) in r'.table.deleteTimes
    ensures r'.items == r.items && r'.keys == r.keys && r'.pending == r.pending
  {
    r.(table := SetPolicy(r.table, PoolKey(t, assetPath, mode), poolItem, asset, DefaultDeleteTime))
  }

  function SetDeleteTime(r: Registry, t: TypeTag, assetPath: Option<string>, mode: Sub.LoadMode,
                         poolItemDeleteTime: int, assetDeleteTime: int): Registry {
    SetDeleteTimes(r, t, assetPath, mode, Some(poolItemDeleteTime), Some(assetDeleteTime))
  }

  function SetPoolItemDeleteTime(r: Registry, t: TypeTag, assetPath: Option<string>, mode: Sub.LoadMode,
                                 poolItemDeleteTime: int): Registry {
    SetDeleteTimes(r, t, assetPath, mode, Some(poolItemDeleteTime), None)
  }

  function SetAssetDeleteTime(r: Registry, t: TypeTag, assetPath: Option<string>, mode: Sub.LoadMode,
                              assetDeleteTime: int): Registry {
    SetDeleteTimes(r, t, assetPath, mode, None, Some(assetDeleteTime))
  }

  /** TryGetDeleteTime: the key's policy object, if one has been stored. */
  function TryGetDeleteTime(r: Registry, t: TypeTag, assetPath: Option<string>, mode: Sub.LoadMode): (res: Option<DeleteTime>)
    ensures res.Some? <==> PoolKey(t, assetPath, mode) in r.table.deleteTimes
    ensures res.Some? ==> res.value == Effective(r.table, PoolKey(t, assetPath, mode))
  {
    TryGet(r.table, PoolKey(t, assetPath, mode))
  }

  /** What one sub-pool's Update does under the policies in force. */
  function Step(table: PolicyTable<PoolKey>, w: World, now: int): Sub.SubPool -> Tick<Sub.SubPool> {
    (p: Sub.SubPool) =>
      var u := Sub.Update(p, PolicyOf(table.policies, p.policy), w, now);
      Tick(u.0, u.1.keep)
  }

  /** The per-frame tick, walking the key set in the enumeration order
      `order`: exactly the sub-pools whose Update answered false leave both
      collections, the rest keep their ticked state, and nothing stays
      pending. */
  method Update(r: Registry, w: World, now: int, order: seq<PoolKey>) returns (r': Registry)
    requires r.keys <= r.items.Keys
    requires Enumerates(order, r.keys)
    ensures r'.items == Ticked(r.items, r.keys, Step(r.table, w, now))
    ensures r'.keys == set k | k in r.keys && Step(r.table, w, now)(r.items[k]).keep
    ensures r'.pending == [] && r'.table == r.table
    ensures Valid(r) ==> Valid(r')
  {
    var items, keys, pending := SweepLiveKeys(r.items, r.keys, order, Step(r.table, w, now));
    r' := Registry(items, keys, pending, r.table);
    if Valid(r) {
      TickedKeys(r.items, Step(r.table, w, now));
      TickedValid(r, w, now);
    }
  }

  /** One sub-pool's tick keeps its ID invariant, its key and its policy. */
  lemma StepValid(table: PolicyTable<PoolKey>, w: World, now: int, k: PoolKey, p: Sub.SubPool)
    requires Sub.Valid(p) && Belongs(k, p)
    ensures var q := Step(table, w, now)(p).pool;
      Sub.Valid(q) && Belongs(k, q) && q.policy == p.policy
  {
    TickIdleInv(p.idle, p.nullTime, PolicyOf(table.policies, p.policy), now, w.dead);
  }

  /** The sweep's result, with the key set it leaves, is a valid registry. */
  lemma TickedValid(r: Registry, w: World, now: int)
    requires Valid(r)
    ensures var items := Ticked(r.items, r.keys, Step(r.table, w, now));
      Valid(Registry(items, items.Keys, [], r.table))
  {
    var items := Ticked(r.items, r.keys, Step(r.table, w, now));
    forall k | k in items ensures Sub.Valid(items[k]) && Belongs(k, items[k]) && items[k].policy == r.items[k].policy {
      StepValid(r.table, w, now, k, r.items[k]);
    }
  }

  /** Writing back a sub-pool that is valid, belongs to a live key and holds
      that key's policy keeps the registry valid. */
  lemma StoreValid(r: Registry, k: PoolKey, q: Sub.SubPool)
    requires Valid(r) && k in r.items
    requires q.policy == r.items[k].policy && Sub.Valid(q) && Belongs(k, q)
    ensures Valid(r.(items := r.items[k := q]))
  {
  }

  /** A lookup keeps the registry valid, and the sub-pool it answers is the
      one stored under the key. */
  lemma LookupValid(r: Registry, t: TypeTag, assetPath: Option<string>, mode: Sub.LoadMode, env: Env)
    requires Valid(r)
    ensures var (r1, p) := GetPoolItem(r, t, assetPath, mode, env);
      Valid(r1) && PoolKey(t, assetPath, mode) in r1.items
  {
    var k := PoolKey(t, assetPath, mode);
    if k !in r.items && k !in r.table.deleteTimes {
      InsertEffect(r.table, k, DefaultDeleteTime);
    }
  }

  /** Get, Dispose, Clear and ClearAll keep the registry valid. */
  lemma ValidPreserved(r: Registry, t: TypeTag, generic: bool, obj: Ref, assetPath: Option<string>, mode: Sub.LoadMode,
                       env: Env, now: int, next: ObjId)
    requires Valid(r)
    ensures Valid(Get(r, t, assetPath, mode, env, now, next).reg)
    ensures Valid(Dispose(r, t, obj, assetPath, mode, env, now).reg)
    ensures Valid(Clear(r, t, generic, assetPath, mode, env.world).reg)
    ensures Valid(ClearAll(r))
  {
    GetValid(r, t, assetPath, mode, env, now, next);
    DisposeValid(r, t, obj, assetPath, mode, env, now);
  }

  lemma GetValid(r: Registry, t: TypeTag, assetPath: Option<string>, mode: Sub.LoadMode, env: Env, now: int, next: ObjId)
    requires Valid(r)
    ensures Valid(Get(r, t, assetPath, mode, env, now, next).reg)
  {
    var k := PoolKey(t, assetPath, mode);
    var (r1, p) := GetPoolItem(r, t, assetPath, mode, env);
    LookupValid(r, t, assetPath, mode, env);
    PopLiveInv(p.idle, env.world.dead);
    var sg := Sub.Get(p, env.world, now, next);
    StoreValid(r1, k, sg.pool);
    assert Get(r, t, assetPath, mode, env, now, next).reg == r1.(items := r1.items[k := sg.pool]);
  }

  lemma DisposeGameObjectValid(r: Registry, obj: Ref, env: Env, now: int)
    requires Valid(r)
    ensures Valid(DisposeGameObject(r, obj, env, now).reg)
  {
    if IsAlive(obj, env.world) && env.markers(obj.id).Some? {
      var m := env.markers(obj.id).value;
      var k := PoolKey(GameObjectType, m.assetPath, m.loadMode);
      var (r1, p) := GetPoolItem(r, GameObjectType, m.assetPath, m.loadMode, env);
      LookupValid(r, GameObjectType, m.assetPath, m.loadMode, env);
      AddInv(p.idle, obj.id, now);
      StoreValid(r1, k, Sub.Dispose(p, env.world, obj, now).pool);
    }
  }

  lemma DisposeValid(r: Registry, t: TypeTag, obj: Ref, assetPath: Option<string>, mode: Sub.LoadMode, env: Env, now: int)
    requires Valid(r)
    ensures Valid(Dispose(r, t, obj, assetPath, mode, env, now).reg)
  {
    if IsAlive(obj, env.world) {
      if env.world.isGameObject(obj.id) {
        DisposeGameObjectValid(r, obj, env, now);
      } else {
        var k := PoolKey(t, assetPath, mode);
        var (r1, p) := GetPoolItem(r, t, assetPath, mode, env);
        LookupValid(r, t, assetPath, mode, env);
        AddInv(p.idle, obj.id, now);
        var d := Sub.Dispose(p, env.world, obj, now);
        StoreValid(r1, k, d.pool);
        assert Dispose(r, t, obj, assetPath, mode, env, now).reg == r1.(items := r1.items[k := d.pool]);
      }
    }
  }

  /** After any Get of a key, TryGetDeleteTime for that key succeeds. */
  lemma GetThenTryGet(r: Registry, t: TypeTag, assetPath: Option<string>, mode: Sub.LoadMode, env: Env, now: int, next: ObjId)
    requires Valid(r)
    ensures TryGetDeleteTime(Get(r, t, assetPath, mode, env, now, next).reg, t, assetPath, mode).Some?
  {
  }

  /** A setter keeps the registry valid; on a key with a live sub-pool it
      assigns the very policy object that sub-pool holds, so the new
      thresholds are in force at its next tick; no other key sees a
      change. */
  lemma SetterEffect(r: Registry, t: TypeTag, assetPath: Option<string>, mode: Sub.LoadMode,
                     poolItem: Option<int>, asset: Option<int>)
    requires Valid(r)
    ensures var k := PoolKey(t, assetPath, mode);
      var r' := SetDeleteTimes(r, t, assetPath, mode, poolItem, asset);
      && Valid(r') && r'.items == r.items
      && Effective(r'.table, k) == Assign(if k in r.table.deleteTimes then Effective(r.table, k) else DefaultDeleteTime, poolItem, asset)
      && (k in r.items ==> PolicyOf(r'.table.policies, r'.items[k].policy) == Assign(PolicyOf(r.table.policies, r.items[k].policy), poolItem, asset))
      && (forall u | u != k :: Effective(r'.table, u) == Effective(r.table, u))
  {
    SetPolicyEffect(r.table, PoolKey(t, assetPath, mode), poolItem, asset, DefaultDeleteTime);
  }

  /** A GameObject cloned by Get carries a DisposeSelf that leads
      DisposeGameObject back to the very sub-pool it came from. */
  lemma GetThenDisposeGameObject(r: Registry, assetPath: Option<string>, mode: Sub.LoadMode,
                                 env: Env, now: int, next: ObjId, later: int)
    requires Valid(r) && FreshIds(r, next)
    requires var g := Get(r, GameObjectType, assetPath, mode, env, now, next);
      && g.marker.Some? && env.markers(next) == g.marker
      && next !in env.world.dead && env.world.isGameObject(next)
    ensures var k := PoolKey(GameObjectType, assetPath, mode);
      var g := Get(r, GameObjectType, assetPath, mode, env, now, next);
      var o := DisposeGameObject(g.reg, g.obj, env, later);
      && g.obj == Obj(next)
      && o.destroyed == []
      && o.reg.items[k].idle.items == g.reg.items[k].idle.items + [Item(next, later)]
  {
    var k := PoolKey(GameObjectType, assetPath, mode);
    var (r1, p) := GetPoolItem(r, GameObjectType, assetPath, mode, env);
    LookupValid(r, GameObjectType, assetPath, mode, env);
    var sg := Sub.Get(p, env.world, now, next);
    assert FreshFrom(p.idle, next);
    assert sg.next != next;
    assert next !in sg.pool.idle.ids;
  }

  /** Stack order across the registry: a live plain object disposed under a
      key comes back from the next Get with that key, nothing is spawned or
      destroyed, and the key's idle list is as before the Dispose (empty
      when the Dispose created the sub-pool). */
  lemma DisposeThenGet(r: Registry, t: TypeTag, obj: Ref, assetPath: Option<string>, mode: Sub.LoadMode,
                       env: Env, t1: int, now: int, next: ObjId)
    requires IsAlive(obj, env.world) && !env.world.isGameObject(obj.id)
    requires PoolKey(t, assetPath, mode) in r.items ==> obj.id !in r.items[PoolKey(t, assetPath, mode)].idle.ids
    ensures var k := PoolKey(t, assetPath, mode);
      var o := Dispose(r, t, obj, assetPath, mode, env, t1);
      var g := Get(o.reg, t, assetPath, mode, env, now, next);
      && o.destroyed == [] && g.obj == obj && g.next == next
      && g.reg.items.Keys == r.items.Keys + {k}
      && g.reg.items[k].idle == (if k in r.items then r.items[k].idle else Empty)
  {
    var k := PoolKey(t, assetPath, mode);
    var (r1, p) := GetPoolItem(r, t, assetPath, mode, env);
    var o := Dispose(r, t, obj, assetPath, mode, env, t1);
    assert o.reg.items[k] == Sub.Dispose(p, env.world, obj, t1).pool;
    Sub.DisposeThenGet(p, env.world, obj, t1, now, next);
  }
}

=== FILE: object_pool.dfy ===
/**
 * ObjectPool (Pools/ObjectPool.cs): the registry of UnityEngine.Object
 * sub-pools keyed by PoolKey (type, load mode, bundle, asset), with per-key
 * DeleteTime policies and a shared default of 120 seconds for both
 * thresholds. Resource and AssetBundle sub-pools are created on first use;
 * Custom sub-pools exist only once their template has been registered.
 * Pooled GameObjects carry an ObjectPoolItemKey marker that routes them back
 * to their sub-pool on Dispose.
 */
module ObjectPool {
  import opened Engine
  import opened DeleteTimes
  import opened FreeList
  import opened TrackedList
  import opened Hooks
  import opened Sweep
  import opened PoolKeys
  import Sub = ObjectPoolItem

  /** DEFAULT_POOL_ITEM_DELETE_TIME and DEFAULT_ASSET_DELETE_TIME are public
      static fields that any caller may reassign. They are read when a
      registry is constructed and again by the single-field setters, so the
      model takes their current values as a parameter; these are their
      initial values. */
  const DefaultPoolItemDeleteTime: int := 120
  const DefaultAssetDeleteTime: int := 120
  const InitialStatics: DeleteTime := DeleteTime(DefaultPoolItemDeleteTime, DefaultAssetDeleteTime)

  /** The engine as the registry sees it: object liveness and hooks, what
      Resources.Load answers for a type and asset name, and the
      ObjectPoolItemKey component a GameObject carries, if any. */
  datatype Env = Env(
    world: World,
    resources: (TypeTag, Option<string>) -> Ref,
    markers: ObjId -> Option<ItemKey>)

  datatype Registry = Registry(
    items: map<PoolKey, Sub.SubPool>,   // mPoolItems
    pending: seq<PoolKey>,              // mToDeletePoolKeys
    table: PolicyTable<PoolKey>)        // mDeleteTimes and mDefaultDeleteTime

  /** A registry as constructed while the static defaults hold `statics`:
      its default policy is a copy of them, so later reassignments of the
      statics do not reach it. */
  function Init(statics: DeleteTime): (r: Registry)
    ensures r.items == map[] && r.pending == [] && r.table.deleteTimes == map[]
    ensures forall k: PoolKey :: Effective(r.table, k) == statics
  {
    Registry(map[], [], WithDefault(statics))
  }

  /** TypeValidate: the type derives from UnityEngine.Object. */
  predicate TypeValidate(t: TypeTag) {
    t.isUnityObject
  }

  /** Whether an entry point acts on type `t`. The overloads taking a Type
      call TypeValidate; the generic overloads Get<T>, Dispose<T> and
      Resize<T> rely on the compile-time constraint `T : Object` and check
      nothing at run time, so they also act on UnityEngine.Object itself,
      which TypeValidate refuses. */
  predicate Admits(generic: bool, t: TypeTag) {
    generic || TypeValidate(t)
  }

  /** The sub-pool stored under `k` was built for `k`: its own mode, bundle
      and asset rebuild the key, and it is a GameObject pool exactly for the
      GameObject type. */
  predicate Belongs(k: PoolKey, p: Sub.SubPool) {
    && MakeKey(k.poolType, p.loadMode, p.bundleName, p.assetName) == k
    && p.isGameObject == (k.poolType == GameObjectType)
  }

  /** Outside the tick: nothing is pending, every sub-pool sits under its own
      key, keeps its ID invariant and is bound to the policy its key
      resolves to. */
  ghost predicate Valid(r: Registry) {
    && r.pending == []
    && WellFormed(r.table)
    && (forall k | k in r.items :: r.items[k].policy == Binding(r.table, k))
    && (forall k | k in r.items :: Sub.Valid(r.items[k]) && Belongs(k, r.items[k]))
  }

  /** The instance supply has not yet handed out `next` to any pooled ID. */
  ghost predicate FreshIds(r: Registry, next: ObjId) {
    forall k | k in r.items :: FreshFrom(r.items[k].idle, next)
  }

  lemma InitValid(statics: DeleteTime)
    ensures Valid(Init(statics))
  {
  }

  /** CreatePoolItem: a new empty sub-pool under the key, bound to the key's
      own policy or else the shared default, with the template Resource mode
      loads. */
  function CreatePoolItem(r: Registry, t: TypeTag, mode: LoadMode, bundle: Option<string>, asset: Option<string>,
                          env: Env, now: int): (res: (Registry, Sub.SubPool))
    ensures var k := MakeKey(t, mode, bundle, asset);
      && res.0 == r.(items := r.items[k := res.1])
      && res.1.idle == Empty && res.1.nullTime == now
      && PolicyOf(r.table.policies, res.1.policy) == Effective(r.table, k)
      && (k in r.table.deleteTimes ==> res.1.policy == r.table.deleteTimes[k])
      && (k !in r.table.deleteTimes ==> res.1.policy == DefaultPolicy)
      && res.1.template == (if mode == Resource then env.resources(t, asset) else Null)
      && Belongs(k, res.1)
  {
    var k := MakeKey(t, mode, bundle, asset);
    var p := Sub.New(mode, bundle, asset, t == GameObjectType, env.resources(t, asset), Binding(r.table, k), now);
    (r.(items := r.items[k := p]), p)
  }

  /** The registry after a lookup, and the sub-pool found or made. */
  datatype Lookup = Lookup(reg: Registry, pool: Option<Sub.SubPool>)

  /** GetPoolItem: the existing sub-pool; otherwise a new one, except that a
      Custom sub-pool is never created here. */
  function GetPoolItem(r: Registry, t: TypeTag, mode: LoadMode, bundle: Option<string>, asset: Option<string>,
                       env: Env, now: int): (l: Lookup)
    ensures var k := MakeKey(t, mode, bundle, asset);
      && (k in r.items ==> l == Lookup(r, Some(r.items[k])))
      && (k !in r.items && mode == Custom ==> l == Lookup(r, None))
      && (k !in r.items && mode != Custom ==>
            l.pool.Some? && l == Lookup(CreatePoolItem(r, t, mode, bundle, asset, env, now).0, Some(CreatePoolItem(r, t, mode, bundle, asset, env, now).1)))
      && (l.pool.Some? ==> l.reg == r.(items := r.items[k := l.pool.value]))
  {
    var k := MakeKey(t, mode, bundle, asset);
    if k in r.items then Lookup(r, Some(r.items[k]))
    else if mode != Custom then
      var c := CreatePoolItem(r, t, mode, bundle, asset, env, now);
      Lookup(c.0, Some(c.1))
    else Lookup(r, None)
  }

  /** The result of Get: the registry, the object (null when there is none),
      the instance supply, the hook trace and the marker a new clone carries. */
  datatype Got = Got(reg: Registry, obj: Ref, next: ObjId, events: seq<Event>, marker: Option<ItemKey>)

  /** Get and its wrappers: an invalid type or an unregistered Custom key
      answer null and change nothing; otherwise the key's sub-pool, created
      if need be, hands out an object. */
  function Get(r: Registry, t: TypeTag, generic: bool, mode: LoadMode, bundle: Option<string>, asset: Option<string>,
               env: Env, now: int, next: ObjId): (g: Got)
    ensures var k := MakeKey(t, mode, bundle, asset);
      !Admits(generic, t) || (k !in r.items && mode == Custom) ==> g == Got(r, Null, next, [], None)
    ensures g.reg.table == r.table && g.reg.pending == r.pending
    ensures var k := MakeKey(t, mode, bundle, asset);
      Admits(generic, t) && (k in r.items || mode != Custom) ==>
        && k in g.reg.items && g.reg.items.Keys == r.items.Keys + {k}
        && (forall u | u in r.items && u != k :: g.reg.items[u] == r.items[u])
        && (g.obj.Obj? ==> IsAlive(g.obj, env.world) || g.next == next + 1)
    ensures var k := MakeKey(t, mode, bundle, asset);
      Admits(generic, t) && (k in r.items || mode != Custom) ==>
        var p := if k in r.items then r.items[k] else CreatePoolItem(r, t, mode, bundle, asset, env, now).1;
        var sg := Sub.Get(p, env.world, now, next);
        && g.obj == sg.obj && g.next == sg.next && g.events == sg.events && g.marker == sg.marker
        && g.reg.items[k] == sg.pool
  {
    if !Admits(generic, t) then Got(r, Null, next, [], None)
    else
      var l := GetPoolItem(r, t, mode, bundle, asset, env, now);
      if l.pool.None? then Got(r, Null, next, [], None)
      else
        var g := Sub.Get(l.pool.value, env.world, now, next);
        Got(l.reg.(items := l.reg.items[MakeKey(t, mode, bundle, asset) := g.pool]), g.obj, g.next, g.events, g.marker)
  }

  /** The result of Dispose, Clear and registration: the registry, the hook
      trace and the objects destroyed in order. */
  datatype Outcome = Outcome(reg: Registry, events: seq<Event>, destroyed: seq<ObjId>)

  /** DisposeGameObject: a GameObject without an ObjectPoolItemKey, or whose
      marker names an unregistered Custom key, is destroyed; otherwise it
      goes to the sub-pool its marker names. */
  function DisposeGameObject(r: Registry, obj: Ref, env: Env, now: int): (o: Outcome)
    ensures !IsAlive(obj, env.world) ==> o == Outcome(r, [], [])
    ensures IsAlive(obj, env.world) && env.markers(obj.id).None? ==> o == Outcome(r, [], [obj.id])
    ensures IsAlive(obj, env.world) && env.markers(obj.id).Some? ==>
      var m := env.markers(obj.id).value;
      && (MarkerKey(m) !in r.items && m.loadMode == Custom ==> o == Outcome(r, [], [obj.id]))
      && (MarkerKey(m) in r.items || m.loadMode != Custom ==>
            && o.destroyed == [] && o.reg.table == r.table
            && MarkerKey(m) in o.reg.items && obj.id in o.reg.items[MarkerKey(m)].idle.ids
            && o.reg.items.Keys == r.items.Keys + {MarkerKey(m)}
            && (forall u | u in r.items && u != MarkerKey(m) :: o.reg.items[u] == r.items[u]))
    ensures IsAlive(obj, env.world) && env.markers(obj.id).Some? ==>
      var m := env.markers(obj.id).value;
      MarkerKey(m) in r.items || m.loadMode != Custom ==>
        var p := if MarkerKey(m) in r.items then r.items[MarkerKey(m)]
                 else CreatePoolItem(r, GameObjectType, m.loadMode, m.bundleName, m.assetName, env, now).1;
        var d := Sub.Dispose(p, env.world, obj, now);
        o.reg.items[MarkerKey(m)] == d.pool && o.events == d.events
  {
    if !IsAlive(obj, env.world) then Outcome(r, [], [])
    else if env.markers(obj.id).None? then Outcome(r, [], [obj.id])
    else
      var m := env.markers(obj.id).value;
      var l := GetPoolItem(r, GameObjectType, m.loadMode, m.bundleName, m.assetName, env, now);
      if l.pool.None? then Outcome(r, [], [obj.id])
      else
        var d := Sub.Dispose(l.pool.value, env.world, obj, now);
        Outcome(l.reg.(items := l.reg.items[MarkerKey(m) := d.pool]), d.events, [])
  }

  /** Dispose: a dead object or an invalid type is ignored; a GameObject is
      routed by its marker, whatever key the caller names; anything else goes
      to the named key's sub-pool, and is destroyed when that is an
      unregistered Custom key. */
  function Dispose(r: Registry, t: TypeTag, generic: bool, obj: Ref, mode: LoadMode, bundle: Option<string>, asset: Option<string>,
                   env: Env, now: int): (o: Outcome)
    ensures !IsAlive(obj, env.world) || !Admits(generic, t) ==> o == Outcome(r, [], [])
    ensures IsAlive(obj, env.world) && Admits(generic, t) && env.world.isGameObject(obj.id) ==>
      o == DisposeGameObject(r, obj, env, now)
    ensures var k := MakeKey(t, mode, bundle, asset);
      IsAlive(obj, env.world) && Admits(generic, t) && !env.world.isGameObject(obj.id) ==>
        && (k !in r.items && mode == Custom ==> o == Outcome(r, [], [obj.id]))
        && (k in r.items || mode != Custom ==>
              && o.destroyed == [] && o.reg.table == r.table
              && k in o.reg.items && obj.id in o.reg.items[k].idle.ids
              && o.reg.items.Keys == r.items.Keys + {k}
              && (forall u | u in r.items && u != k :: o.reg.items[u] == r.items[u]))
    ensures var k := MakeKey(t, mode, bundle, asset);
      IsAlive(obj, env.world) && Admits(generic, t) && !env.world.isGameObject(obj.id) && (k in r.items || mode != Custom) ==>
        var p := if k in r.items then r.items[k] else CreatePoolItem(r, t, mode, bundle, asset, env, now).1;
        var d := Sub.Dispose(p, env.world, obj, now);
        o.reg.items[k] == d.pool && o.events == d.events
  {
    if !IsAlive(obj, env.world) || !Admits(generic, t) then Outcome(r, [], [])
    else if env.world.isGameObject(obj.id) then DisposeGameObject(r, obj, env, now)
    else
      var l := GetPoolItem(r, t, mode, bundle, asset, env, now);
      if l.pool.None? then Outcome(r, [], [obj.id])
      else
        var d := Sub.Dispose(l.pool.value, env.world, obj, now);
        Outcome(l.reg.(items := l.reg.items[MakeKey(t, mode, bundle, asset) := d.pool]), d.events, [])
  }

  /** RegisterCustomPoolItem: a dead or null asset is ignored. Under an
      existing Custom key the same asset changes nothing and a different one
      clears the sub-pool and becomes its template; an absent key gets a new
      empty Custom sub-pool with the asset as template. */
  function RegisterCustomPoolItem(r: Registry, t: TypeTag, assetPath: Option<string>, asset: Ref,
                                  env: Env, now: int): (o: Outcome)
    ensures !IsAlive(asset, env.world) ==> o == Outcome(r, [], [])
    ensures var k := MakeKey(t, Custom, None, assetPath);
      IsAlive(asset, env.world) ==>
        && k in o.reg.items && o.reg.items[k].template == asset
        && o.reg.items.Keys == r.items.Keys + {k} && o.reg.table == r.table && o.events == []
        && (forall u | u in r.items && u != k :: o.reg.items[u] == r.items[u])
        && (k in r.items && r.items[k].template == asset ==> o.reg == r && o.destroyed == [])
        && (k in r.items && r.items[k].template != asset ==>
              && o.reg.items[k] == r.items[k].(idle := Empty, template := asset)
              && o.destroyed == Sub.Clear(r.items[k], env.world).destroyed)
        && (k !in r.items ==>
              && o.reg.items[k].idle == Empty && o.reg.items[k].nullTime == now
              && o.reg.items[k].policy == Binding(r.table, k) && o.destroyed == []
              && Belongs(k, o.reg.items[k]))
  {
    if !IsAlive(asset, env.world) then Outcome(r, [], [])
    else
      var k := MakeKey(t, Custom, None, assetPath);
      if k in r.items then
        var p := r.items[k];
        if p.template == asset then Outcome(r, [], [])
        else
          var c := Sub.Clear(p, env.world);
          Outcome(r.(items := r.items[k := c.pool.(template := asset)]), [], c.destroyed)
      else
        var c := CreatePoolItem(r, t, Custom, None, assetPath, env, now);
        Outcome(c.0.(items := c.0.items[k := c.1.(template := asset)]), [], [])
  }

  /** Clear: an invalid type is ignored; a present key's sub-pool is cleared
      (its live idle objects destroyed) and leaves the registry; an absent
      key is a no-op. */
  function Clear(r: Registry, t: TypeTag, mode: LoadMode, bundle: Option<string>, asset: Option<string>, w: World): (o: Outcome)
    ensures var k := MakeKey(t, mode, bundle, asset);
      !TypeValidate(t) || k !in r.items ==> o == Outcome(r, [], [])
    ensures var k := MakeKey(t, mode, bundle, asset);
      TypeValidate(t) && k in r.items ==>
        && o.reg == r.(items := r.items - {k})
        && (forall i | 0 <= i < |r.items[k].idle.items| && r.items[k].idle.items[i].obj !in w.dead ::
              r.items[k].idle.items[i].obj in o.destroyed)
        && (forall x | x in o.destroyed :: x !in w.dead && x in IdsOf(r.items[k].idle.items))
  {
    var k := MakeKey(t, mode, bundle, asset);
    if !TypeValidate(t) || k !in r.items then Outcome(r, [], [])
    else Outcome(r.(items := r.items - {k}), [], Sub.Clear(r.items[k], w).destroyed)
  }

  /** ClearAll: no sub-pool and nothing pending; policies are kept. */
  function ClearAll(r: Registry): (r': Registry)
    ensures r'.items == map[] && r'.pending == [] && r'.table == r.table
  {
    Registry(map[], [], r.table)
  }

  /** GetItemCount: the idle count of the key's sub-pool, 0 for an invalid
      type or an absent key; nothing is created. */
  function GetItemCount(r: Registry, t: TypeTag, mode: LoadMode, bundle: Option<string>, asset: Option<string>): (n: nat)
    ensures var k := MakeKey(t, mode, bundle, asset);
      !TypeValidate(t) || k !in r.items ==> n == 0
    ensures var k := MakeKey(t, mode, bundle, asset);
      TypeValidate(t) && k in r.items ==> n == Sub.Count(r.items[k])
  {
    var k := MakeKey(t, mode, bundle, asset);
    if TypeValidate(t) && k in r.items then Sub.Count(r.items[k]) else 0
  }

  /** The result of Resize. */
  datatype Resized = Resized(reg: Registry, next: ObjId, destroyed: seq<ObjId>)

  /** Resize on the key's sub-pool, created if need be (never for Custom);
      an invalid type or an unregistered Custom key changes nothing. */
  function Resize(r: Registry, t: TypeTag, generic: bool, mode: LoadMode, bundle: Option<string>, asset: Option<string>,
                  size: int, env: Env, now: int, next: ObjId): (res: Resized)
    ensures var k := MakeKey(t, mode, bundle, asset);
      !Admits(generic, t) || (k !in r.items && mode == Custom) ==> res == Resized(r, next, [])
    ensures var k := MakeKey(t, mode, bundle, asset);
      Admits(generic, t) && (k in r.items || mode != Custom) ==>
        && k in res.reg.items && res.reg.items.Keys == r.items.Keys + {k}
        && res.reg.table == r.table
        && (forall u | u in r.items && u != k :: res.reg.items[u] == r.items[u])
        && (size <= 0 ==> Sub.Count(res.reg.items[k]) == 0)
        && (size > 0 && IsAlive(res.reg.items[k].template, env.world) ==> Sub.Count(res.reg.items[k]) == size)
    ensures var k := MakeKey(t, mode, bundle, asset);
      Admits(generic, t) && (k in r.items || mode != Custom) ==>
        var p := if k in r.items then r.items[k] else CreatePoolItem(r, t, mode, bundle, asset, env, now).1;
        var s := Sub.Resize(p, env.world, size, now, next);
        res.reg.items[k] == s.pool && res.next == s.next && res.destroyed == s.destroyed
  {
    var l := if Admits(generic, t) then GetPoolItem(r, t, mode, bundle, asset, env, now) else Lookup(r, None);
    if l.pool.None? then Resized(r, next, [])
    else
      var s := Sub.Resize(l.pool.value, env.world, size, now, next);
      Resized(l.reg.(items := l.reg.items[MakeKey(t, mode, bundle, asset) := s.pool]), s.next, s.destroyed)
  }

  /** The SetDeleteTime family: an invalid type is ignored; an existing
      policy object of the key is assigned in place, which every holder of it
      sees; otherwise AddDeleteTime inserts a new one, completed from the
      current static defaults `statics` for a field the setter does not
      name, and wires it into the key's live sub-pool. */
  function SetDeleteTimes(r: Registry, t: TypeTag, mode: LoadMode, bundle: Option<string>, asset: Option<string>,
                          poolItem: Option<int>, assetTime: Option<int>, statics: DeleteTime): (r': Registry)
    ensures !TypeValidate(t) ==> r' == r
    ensures TypeValidate(t) ==> MakeKey(t, mode, bundle, asset) in r'.table.deleteTimes
    ensures r'.items.Keys == r.items.Keys && r'.pending == r.pending
    ensures forall u | u in r.items && u != MakeKey(t, mode, bundle, asset) :: r'.items[u] == r.items[u]
  {
    if !TypeValidate(t) then r
    else
      var k := MakeKey(t, mode, bundle, asset);
      var table := SetPolicy(r.table, k, poolItem, assetTime, statics);
      if k !in r.table.deleteTimes && k in r.items then
        r.(table := table, items := r.items[k := r.items[k].(policy := r.table.nextPolicy)])
      else r.(table := table)
  }

  function SetDeleteTime(r: Registry, t: TypeTag, mode: LoadMode, bundle: Option<string>, asset: Option<string>,
                         poolItemDeleteTime: int, assetDeleteTime: int): Registry {
    // Both fields are named, so the statics are not read.
    SetDeleteTimes(r, t, mode, bundle, asset, Some(poolItemDeleteTime), Some(assetDeleteTime),
                   DeleteTime(poolItemDeleteTime, assetDeleteTime))
  }

  function SetPoolItemDeleteTime(r: Registry, t: TypeTag, mode: LoadMode, bundle: Option<string>, asset: Option<string>,
                                 poolItemDeleteTime: int, statics: DeleteTime): Registry {
    SetDeleteTimes(r, t, mode, bundle, asset, Some(poolItemDeleteTime), None, statics)
  }

  function SetAssetDeleteTime(r: Registry, t: TypeTag, mode: LoadMode, bundle: Option<string>, asset: Option<string>,
                              assetDeleteTime: int, statics: DeleteTime): Registry {
    SetDeleteTimes(r, t, mode, bundle, asset, None, Some(assetDeleteTime), statics)
  }

  /** TryGetDeleteTime: the key's own policy, never the default, and nothing
      for an invalid type. */
  function TryGetDeleteTime(r: Registry, t: TypeTag, mode: LoadMode, bundle: Option<string>, asset: Option<string>): (res: Option<DeleteTime>)
    ensures res.Some? <==> TypeValidate(t) && MakeKey(t, mode, bundle, asset) in r.table.deleteTimes
    ensures res.Some? ==> res.value == Effective(r.table, MakeKey(t, mode, bundle, asset))
  {
    if !TypeValidate(t) then None else TryGet(r.table, MakeKey(t, mode, bundle, asset))
  }

  /** What one sub-pool's Update does under the policies in force. */
  function Step(table: PolicyTable<PoolKey>, w: World, now: int): Sub.SubPool -> Tick<Sub.SubPool> {
    (p: Sub.SubPool) =>
      var u := Sub.Update(p, PolicyOf(table.policies, p.policy), w, now);
      Tick(u.pool, u.keep)
  }

  /** The per-frame tick, walking the map in the enumeration order `order`:
      exactly the sub-pools whose Update answered false are removed once the
      walk is over, the rest keep their ticked state, and nothing stays
      pending. */
  method Update(r: Registry, w: World, now: int, order: seq<PoolKey>) returns (r': Registry)
    requires Enumerates(order, r.items.Keys)
    ensures r'.items == Ticked(r.items, r.items.Keys, Step(r.table, w, now))
    ensures r'.items.Keys == set k | k in r.items && Step(r.table, w, now)(r.items[k]).keep
    ensures r'.pending == [] && r'.table == r.table
    ensures Valid(r) ==> Valid(r')
  {
    var items, pending := SweepEntries(r.items, order, Step(r.table, w, now));
    r' := Registry(items, pending, r.table);
    TickedRegistry(r, w, now);
  }

  /** The sweep's result keeps exactly the sub-pools whose Update answered
      true and is valid when the registry was. */
  lemma TickedRegistry(r: Registry, w: World, now: int)
    ensures var items := Ticked(r.items, r.items.Keys, Step(r.table, w, now));
      && items.Keys == set k | k in r.items && Step(r.table, w, now)(r.items[k]).keep
      && (Valid(r) ==> Valid(Registry(items, [], r.table)))
  {
    TickedKeys(r.items, Step(r.table, w, now));
    if Valid(r) {
      TickedValid(r, w, now);
    }
  }

  lemma TickedValid(r: Registry, w: World, now: int)
    requires Valid(r)
    ensures Valid(Registry(Ticked(r.items, r.items.Keys, Step(r.table, w, now)), [], r.table))
  {
    var items := Ticked(r.items, r.items.Keys, Step(r.table, w, now));
    forall k | k in items ensures Sub.Valid(items[k]) && Belongs(k, items[k]) && items[k].policy == Binding(r.table, k) {
      StepValid(r.table, w, now, k, r.items[k]);
    }
  }

  /** One sub-pool's tick keeps its ID invariant, its key and its binding. */
  lemma StepValid(table: PolicyTable<PoolKey>, w: World, now: int, k: PoolKey, p: Sub.SubPool)
    requires Sub.Valid(p) && Belongs(k, p)
    ensures var q := Step(table, w, now)(p).pool;
      Sub.Valid(q) && Belongs(k, q) && q.policy == p.policy
  {
    TickIdleInv(p.idle, p.nullTime, PolicyOf(table.policies, p.policy), now, w.dead);
  }

  /** Writing back a sub-pool that is valid, belongs to the key and kept
      its binding keeps the registry valid. */
  lemma StoreValid(r: Registry, k: PoolKey, q: Sub.SubPool)
    requires Valid(r)
    requires q.policy == Binding(r.table, k) && Sub.Valid(q) && Belongs(k, q)
    ensures Valid(r.(items := r.items[k := q]))
  {
  }

  /** Get, Dispose, registration, Clear and ClearAll keep the registry
      valid. */
  lemma ValidPreserved(r: Registry, t: TypeTag, generic: bool, mode: LoadMode, bundle: Option<string>, asset: Option<string>,
                       obj: Ref, template: Ref, env: Env, now: int, next: ObjId)
    requires Valid(r)
    ensures Valid(Get(r, t, generic, mode, bundle, asset, env, now, next).reg)
    ensures Valid(Dispose(r, t, generic, obj, mode, bundle, asset, env, now).reg)
    ensures Valid(RegisterCustomPoolItem(r, t, asset, template, env, now).reg)
    ensures Valid(Clear(r, t, mode, bundle, asset, env.world).reg)
    ensures Valid(ClearAll(r))
  {
    GetValid(r, t, generic, mode, bundle, asset, env, now, next);
    DisposeValid(r, t, generic, obj, mode, bundle, asset, env, now);
    RegisterValid(r, t, asset, template, env, now);
  }

  lemma LookupValid(r: Registry, t: TypeTag, mode: LoadMode, bundle: Option<string>, asset: Option<string>, env: Env, now: int)
    requires Valid(r)
    ensures var l := GetPoolItem(r, t, mode, bundle, asset, env, now);
      && Valid(l.reg) && l.reg.table == r.table
      && (l.pool.Some? ==> var k := MakeKey(t, mode, bundle, asset);
            k in l.reg.items && l.pool.value == l.reg.items[k])
  {
  }

  lemma GetValid(r: Registry, t: TypeTag, generic: bool, mode: LoadMode, bundle: Option<string>, asset: Option<string>,
                 env: Env, now: int, next: ObjId)
    requires Valid(r)
    ensures Valid(Get(r, t, generic, mode, bundle, asset, env, now, next).reg)
  {
    if Admits(generic, t) {
      var l := GetPoolItem(r, t, mode, bundle, asset, env, now);
      LookupValid(r, t, mode, bundle, asset, env, now);
      if l.pool.Some? {
        var k := MakeKey(t, mode, bundle, asset);
        var q := Sub.Get(l.pool.value, env.world, now, next).pool;
        SubGetValid(k, l.pool.value, env.world, now, next);
        StoreValid(l.reg, k, q);
        GetStores(r, t, generic, mode, bundle, asset, env, now, next);
      }
    }
  }

  /** Get writes back exactly the sub-pool the lookup found, after its Get. */
  lemma GetStores(r: Registry, t: TypeTag, generic: bool, mode: LoadMode, bundle: Option<string>, asset: Option<string>,
                  env: Env, now: int, next: ObjId)
    requires Admits(generic, t) && GetPoolItem(r, t, mode, bundle, asset, env, now).pool.Some?
    ensures var l := GetPoolItem(r, t, mode, bundle, asset, env, now);
      var sg := Sub.Get(l.pool.value, env.world, now, next);
      Get(r, t, generic, mode, bundle, asset, env, now, next)
        == Got(l.reg.(items := l.reg.items[MakeKey(t, mode, bundle, asset) := sg.pool]), sg.obj, sg.next, sg.events, sg.marker)
  {
  }

  /** DisposeGameObject on a live marked object whose key is registered
      writes back that sub-pool after its Dispose and destroys nothing. */
  lemma DisposeGameObjectStores(r: Registry, obj: Ref, env: Env, now: int)
    requires IsAlive(obj, env.world) && env.markers(obj.id).Some?
    requires MarkerKey(env.markers(obj.id).value) in r.items
    ensures var k := MarkerKey(env.markers(obj.id).value);
      var o := DisposeGameObject(r, obj, env, now);
      o.destroyed == [] && o.reg.items[k] == Sub.Dispose(r.items[k], env.world, obj, now).pool
  {
  }

  /** A sub-pool's Get keeps its ID invariant, its key and its binding. */
  lemma SubGetValid(k: PoolKey, p: Sub.SubPool, w: World, now: int, next: ObjId)
    requires Sub.Valid(p) && Belongs(k, p)
    ensures var q := Sub.Get(p, w, now, next).pool;
      Sub.Valid(q) && Belongs(k, q) && q.policy == p.policy
  {
    PopLiveInv(p.idle, w.dead);
  }

  lemma DisposeGameObjectValid(r: Registry, obj: Ref, env: Env, now: int)
    requires Valid(r)
    ensures Valid(DisposeGameObject(r, obj, env, now).reg)
  {
    if IsAlive(obj, env.world) && env.markers(obj.id).Some? {
      var m := env.markers(obj.id).value;
      var l := GetPoolItem(r, GameObjectType, m.loadMode, m.bundleName, m.assetName, env, now);
      LookupValid(r, GameObjectType, m.loadMode, m.bundleName, m.assetName, env, now);
      if l.pool.Some? {
        var d := Sub.Dispose(l.pool.value, env.world, obj, now);
        AddInv(l.pool.value.idle, obj.id, now);
        StoreValid(l.reg, MarkerKey(m), d.pool);
      }
    }
  }

  lemma DisposeValid(r: Registry, t: TypeTag, generic: bool, obj: Ref, mode: LoadMode, bundle: Option<string>, asset: Option<string>,
                     env: Env, now: int)
    requires Valid(r)
    ensures Valid(Dispose(r, t, generic, obj, mode, bundle, asset, env, now).reg)
  {
    if IsAlive(obj, env.world) && Admits(generic, t) {
      if env.world.isGameObject(obj.id) {
        DisposeGameObjectValid(r, obj, env, now);
      } else {
        var l := GetPoolItem(r, t, mode, bundle, asset, env, now);
        LookupValid(r, t, mode, bundle, asset, env, now);
        if l.pool.Some? {
          var k := MakeKey(t, mode, bundle, asset);
          var d := Sub.Dispose(l.pool.value, env.world, obj, now);
          AddInv(l.pool.value.idle, obj.id, now);
          StoreValid(l.reg, k, d.pool);
          assert Dispose(r, t, generic, obj, mode, bundle, asset, env, now).reg == l.reg.(items := l.reg.items[k := d.pool]);
        }
      }
    }
  }

  lemma RegisterValid(r: Registry, t: TypeTag, assetPath: Option<string>, asset: Ref, env: Env, now: int)
    requires Valid(r)
    ensures Valid(RegisterCustomPoolItem(r, t, assetPath, asset, env, now).reg)
  {
    var k := MakeKey(t, Custom, None, assetPath);
    if IsAlive(asset, env.world) && k in r.items && r.items[k].template != asset {
      Sub.ValidPreserved(r.items[k], env.world, Null, DeleteTime(-1, -1), now, 0);
      StoreValid(r, k, Sub.Clear(r.items[k], env.world).pool.(template := asset));
    }
  }

  /** Resize keeps the registry valid when the instance supply is fresh. */
  lemma ResizeValid(r: Registry, t: TypeTag, generic: bool, mode: LoadMode, bundle: Option<string>, asset: Option<string>,
                    size: int, env: Env, now: int, next: ObjId)
    requires Valid(r) && FreshIds(r, next)
    ensures Valid(Resize(r, t, generic, mode, bundle, asset, size, env, now, next).reg)
  {
    if Admits(generic, t) {
      var l := GetPoolItem(r, t, mode, bundle, asset, env, now);
      LookupValid(r, t, mode, bundle, asset, env, now);
      if l.pool.Some? {
        var k := MakeKey(t, mode, bundle, asset);
        assert FreshFrom(l.pool.value.idle, next);
        Sub.ResizeValid(l.pool.value, env.world, size, now, next);
        StoreValid(l.reg, k, Sub.Resize(l.pool.value, env.world, size, now, next).pool);
      }
    }
  }

  /** A setter keeps the registry valid and takes effect live: the key's
      policy becomes what the setter names (a new one completed from the
      current static defaults), its sub-pool, if any, sees exactly that policy,
      and no other key and not the shared default sees any change. */
  lemma SetterEffect(r: Registry, t: TypeTag, mode: LoadMode, bundle: Option<string>, asset: Option<string>,
                     poolItem: Option<int>, assetTime: Option<int>, statics: DeleteTime)
    requires Valid(r) && TypeValidate(t)
    ensures var r' := SetDeleteTimes(r, t, mode, bundle, asset, poolItem, assetTime, statics);
      var k := MakeKey(t, mode, bundle, asset);
      && Valid(r')
      && Effective(r'.table, k) == Assign(if k in r.table.deleteTimes then Effective(r.table, k)
                                          else statics, poolItem, assetTime)
      && (k in r'.items ==> PolicyOf(r'.table.policies, r'.items[k].policy) == Effective(r'.table, k))
      && (forall u | u != k :: Effective(r'.table, u) == Effective(r.table, u))
      && PolicyOf(r'.table.policies, DefaultPolicy) == PolicyOf(r.table.policies, DefaultPolicy)
      && r'.items.Keys == r.items.Keys
  {
    var k := MakeKey(t, mode, bundle, asset);
    SetPolicyEffect(r.table, k, poolItem, assetTime, statics);
  }

  /** An invalid type is never acted on by a setter. */
  lemma SetterIgnoresInvalidType(r: Registry, t: TypeTag, mode: LoadMode, bundle: Option<string>, asset: Option<string>,
                                 poolItem: Option<int>, assetTime: Option<int>, statics: DeleteTime)
    requires !TypeValidate(t)
    ensures SetDeleteTimes(r, t, mode, bundle, asset, poolItem, assetTime, statics) == r
    ensures TryGetDeleteTime(r, t, mode, bundle, asset) == None
  {
  }

  /** After a live asset has been registered under a path, GetCustom for
      that path always answers an object: a pooled live one or a new clone
      of the asset. */
  lemma RegisterThenGetCustom(r: Registry, t: TypeTag, generic: bool, assetPath: Option<string>, asset: Ref,
                              env: Env, t1: int, now: int, next: ObjId)
    requires Admits(generic, t) && IsAlive(asset, env.world)
    ensures var r1 := RegisterCustomPoolItem(r, t, assetPath, asset, env, t1).reg;
      Get(r1, t, generic, Custom, None, assetPath, env, now, next).obj.Obj?
  {
    var k := MakeKey(t, Custom, None, assetPath);
    var r1 := RegisterCustomPoolItem(r, t, assetPath, asset, env, t1).reg;
    assert k in r1.items && r1.items[k].template == asset;
    var g := Sub.Get(r1.items[k], env.world, now, next);
    assert g.obj.Obj?;
  }

  /** With the creation time recorded as the empty-since time, a Custom
      sub-pool registered empty survives every tick within its item
      threshold (compare ObjectPoolItem.EmptyPoolDroppedAsWritten). */
  lemma RegisteredPoolSurvivesTick(r: Registry, t: TypeTag, assetPath: Option<string>, asset: Ref,
                                   env: Env, created: int, now: int)
    requires Valid(r) && IsAlive(asset, env.world)
    requires MakeKey(t, Custom, None, assetPath) !in r.items
    requires now - created < Effective(r.table, MakeKey(t, Custom, None, assetPath)).poolItemDeleteTime
    ensures var r1 := RegisterCustomPoolItem(r, t, assetPath, asset, env, created).reg;
      MakeKey(t, Custom, None, assetPath) in Ticked(r1.items, r1.items.Keys, Step(r1.table, env.world, now))
  {
    var k := MakeKey(t, Custom, None, assetPath);
    var r1 := RegisterCustomPoolItem(r, t, assetPath, asset, env, created).reg;
    var p := r1.items[k];
    var u := Sub.Update(p, PolicyOf(r1.table.policies, p.policy), env.world, now);
    assert u.keep;
  }

  /** A GameObject cloned by Get carries a marker that leads DisposeGameObject
      back to the very sub-pool it came from, where it is pooled again. */
  lemma GetThenDisposeGameObject(r: Registry, generic: bool, mode: LoadMode, bundle: Option<string>, asset: Option<string>,
                                 env: Env, now: int, next: ObjId, later: int)
    requires Valid(r) && FreshIds(r, next)
    requires var g := Get(r, GameObjectType, generic, mode, bundle, asset, env, now, next);
      && g.marker.Some? && env.markers(next) == g.marker
      && next !in env.world.dead && env.world.isGameObject(next)
    ensures var k := MakeKey(GameObjectType, mode, bundle, asset);
      var g := Get(r, GameObjectType, generic, mode, bundle, asset, env, now, next);
      var o := DisposeGameObject(g.reg, g.obj, env, later);
      && g.obj == Obj(next)
      && MarkerKey(g.marker.value) == k
      && o.destroyed == []
      && o.reg.items[k].idle.items == g.reg.items[k].idle.items + [Item(next, later)]
  {
    var k := MakeKey(GameObjectType, mode, bundle, asset);
    var g := Get(r, GameObjectType, generic, mode, bundle, asset, env, now, next);
    var l := GetPoolItem(r, GameObjectType, mode, bundle, asset, env, now);
    LookupValid(r, GameObjectType, mode, bundle, asset, env, now);
    var p := l.pool.value;
    var sg := Sub.Get(p, env.world, now, next);
    GetStores(r, GameObjectType, generic, mode, bundle, asset, env, now, next);
    assert FreshFrom(p.idle, next);
    assert sg.next != next;
    assert g.marker.value == Sub.MarkerOf(p);
    assert Belongs(k, p);
    assert MarkerKey(g.marker.value) == k;
    assert g.reg.items[k] == sg.pool;
    assert next !in sg.pool.idle.ids;
    DisposeGameObjectStores(g.reg, g.obj, env, later);
  }

  /** Stack order across the registry: a live plain object disposed under a
      key that can hold it (registered, or not Custom) comes back from the
      next Get with the same key, nothing is spawned or destroyed, and that
      key's idle list is as before the Dispose. */
  lemma DisposeThenGet(r: Registry, t: TypeTag, generic: bool, obj: Ref, mode: LoadMode, bundle: Option<string>,
                       asset: Option<string>, env: Env, t1: int, now: int, next: ObjId)
    requires Admits(generic, t) && IsAlive(obj, env.world) && !env.world.isGameObject(obj.id)
    requires var k := MakeKey(t, mode, bundle, asset);
      && (k in r.items || mode != Custom)
      && (k in r.items ==> obj.id !in r.items[k].idle.ids)
    ensures var k := MakeKey(t, mode, bundle, asset);
      var o := Dispose(r, t, generic, obj, mode, bundle, asset, env, t1);
      var g := Get(o.reg, t, generic, mode, bundle, asset, env, now, next);
      && o.destroyed == [] && g.obj == obj && g.next == next
      && g.reg.items.Keys == r.items.Keys + {k}
      && (k in r.items ==> g.reg.items[k].idle == r.items[k].idle)
      && (k !in r.items ==> g.reg.items[k].idle == Empty)
  {
    var k := MakeKey(t, mode, bundle, asset);
    var l := GetPoolItem(r, t, mode, bundle, asset, env, t1);
    var p := l.pool.value;
    var o := Dispose(r, t, generic, obj, mode, bundle, asset, env, t1);
    assert o.reg.items[k] == Sub.Dispose(p, env.world, obj, t1).pool;
    Sub.DisposeThenGet(p, env.world, obj, t1, now, next);
  }

  /** GetItemCount follows Dispose and Get: disposing a new live plain
      object under a key that can hold it adds one to the count, and the Get
      that hands it back restores the count. */
  lemma ItemCountAfterDispose(r: Registry, t: TypeTag, mode: LoadMode, bundle: Option<string>, asset: Option<string>,
                              obj: Ref, env: Env, t1: int, now: int, next: ObjId)
    requires TypeValidate(t) && IsAlive(obj, env.world) && !env.world.isGameObject(obj.id)
    requires var k := MakeKey(t, mode, bundle, asset);
      && (k in r.items || mode != Custom)
      && (k in r.items ==> obj.id !in r.items[k].idle.ids)
    ensures var d := Dispose(r, t, false, obj, mode, bundle, asset, env, t1).reg;
      && GetItemCount(d, t, mode, bundle, asset) == GetItemCount(r, t, mode, bundle, asset) + 1
      && GetItemCount(Get(d, t, false, mode, bundle, asset, env, now, next).reg, t, mode, bundle, asset)
         == GetItemCount(r, t, mode, bundle, asset)
  {
    DisposeThenGet(r, t, false, obj, mode, bundle, asset, env, t1, now, next);
  }

  /** GetItemCount after Resize: zero for a non-positive size, `size` after
      shrinking or after growth with a live template, the old count after
      growth without one, and zero for an unregistered Custom key. */
  lemma ItemCountAfterResize(r: Registry, t: TypeTag, mode: LoadMode, bundle: Option<string>, asset: Option<string>,
                             size: int, env: Env, now: int, next: ObjId)
    requires TypeValidate(t)
    ensures var k := MakeKey(t, mode, bundle, asset);
      var before := GetItemCount(r, t, mode, bundle, asset);
      var n := GetItemCount(Resize(r, t, false, mode, bundle, asset, size, env, now, next).reg, t, mode, bundle, asset);
      && ((k in r.items || mode != Custom) && size <= 0 ==> n == 0)
      && (k in r.items && 0 < size <= before ==> n == size)
      && (k in r.items && size > before ==> n == (if IsAlive(r.items[k].template, env.world) then size else before))
      && (k !in r.items && mode == Custom ==> n == 0)
  {
  }

  /** Clear and ClearAll leave a count of zero. */
  lemma ItemCountAfterClear(r: Registry, t: TypeTag, mode: LoadMode, bundle: Option<string>, asset: Option<string>, w: World)
    ensures GetItemCount(Clear(r, t, mode, bundle, asset, w).reg, t, mode, bundle, asset) == 0
    ensures GetItemCount(ClearAll(r), t, mode, bundle, asset) == 0
  {
  }

  /** The default policy is a copy of the statics taken at construction: a
      registry built under the initial 120/120 keeps them in force for every
      other key whatever statics a later single-field setter reads. */
  lemma DefaultCopiedAtConstruction(t: TypeTag, mode: LoadMode, bundle: Option<string>, asset: Option<string>,
                                    u: PoolKey, poolItem: int, statics: DeleteTime)
    requires u != MakeKey(t, mode, bundle, asset)
    ensures var r := SetPoolItemDeleteTime(Init(InitialStatics), t, mode, bundle, asset, poolItem, statics);
      Effective(r.table, u) == InitialStatics
  {
    if TypeValidate(t) {
      InitValid(InitialStatics);
      SetterEffect(Init(InitialStatics), t, mode, bundle, asset, Some(poolItem), None, statics);
    }
  }
}

=== FILE: object_pool_item.dfy ===
/**
 * ObjectPoolItem<T> (PoolItems/ObjectPoolItem.cs): the sub-pool of
 * UnityEngine.Object instances cloned from one template asset. Unlike the
 * plain pool it skips destroyed objects, refuses an object whose instance ID
 * is already pooled, destroys what it evicts, and runs the GameObject
 * lifecycle hooks.
 */
module ObjectPoolItem {
  import opened Engine
  import opened DeleteTimes
  import opened FreeList
  import opened TrackedList
  import opened Hooks
  import opened PoolKeys
  import opened Sweep

  datatype SubPool = SubPool(
    loadMode: LoadMode,
    bundleName: Option<string>,
    assetName: Option<string>,
    template: Ref,          // m_ObjRes, the asset every instance is cloned from
    isGameObject: bool,     // typeof(T) == typeof(GameObject)
    idle: Tracked,          // mItems and mItemIDs
    nullTime: int,          // mNullTime
    policy: PolicyId)       // mDeleteTime

  /** The constructor. Only Resource mode loads a template (`loaded` is what
      Resources.Load answered); the AssetBundle loader is left to the user of
      the library and Custom sub-pools get theirs from registration, so both
      start without one. The empty-since time is the creation time. */
  function New(mode: LoadMode, bundle: Option<string>, asset: Option<string>, isGameObject: bool,
               loaded: Ref, policy: PolicyId, now: int): (p: SubPool)
    ensures p.idle == Empty && p.nullTime == now && p.policy == policy
    ensures p.template == (if mode == Resource then loaded else Null)
    ensures p.loadMode == mode && p.bundleName == bundle && p.assetName == asset
  {
    SubPool(mode, bundle, asset, if mode == Resource then loaded else Null, isGameObject, Empty, now, policy)
  }

  /** The constructor as written: mNullTime is never assigned, so it is the
      C# default 0 whatever the creation time. */
  function NewAsWritten(mode: LoadMode, bundle: Option<string>, asset: Option<string>, isGameObject: bool,
                        loaded: Ref, policy: PolicyId): (p: SubPool)
    ensures p.idle == Empty && p.nullTime == 0 && p.policy == policy
    ensures p.template == (if mode == Resource then loaded else Null)
  {
    SubPool(mode, bundle, asset, if mode == Resource then loaded else Null, isGameObject, Empty, 0, policy)
  }

  /** ItemCount. */
  function Count(p: SubPool): nat {
    |p.idle.items|
  }

  /** The marker a GameObject cloned by this sub-pool carries. */
  function MarkerOf(p: SubPool): ItemKey {
    ItemKey(p.loadMode, p.bundleName, p.assetName)
  }

  /** The result of Spawn: the new object (null without a live template), the
      instance supply afterwards, the hook trace, and the ObjectPoolItemKey
      the new GameObject carries. */
  datatype Made = Made(obj: Ref, next: ObjId, events: seq<Event>, marker: Option<ItemKey>)

  /** Spawn(parent, callInterface): clone the template; a GameObject clone is
      marked with this sub-pool's key and, when `callInterface`, its spawn
      handlers run through the sub-pool's own (empty) buffer. */
  function Spawn(p: SubPool, w: World, next: ObjId, callInterface: bool): (m: Made)
    ensures !IsAlive(p.template, w) ==> m == Made(Null, next, [], None)
    ensures IsAlive(p.template, w) ==> m.obj == Obj(next) && m.next == next + 1
    ensures m.marker.Some? <==> IsAlive(p.template, w) && p.isGameObject
    ensures m.marker.Some? ==> m.marker.value == MarkerOf(p)
    ensures Invoked(m.events) == (if m.marker.Some? && callInterface then w.spawnHandlers(next) else [])
    ensures Borrow !in m.events
  {
    if !IsAlive(p.template, w) then Made(Null, next, [], None)
    else if !p.isGameObject then Made(Obj(next), next + 1, [], None)
    else
      var events := if callInterface then Dispatch(Some(0), w.spawnHandlers(next)) else [];
      assert Borrow !in events by {
        if callInterface {
          forall i | 0 <= i < |events| ensures events[i] != Borrow {
          }
        }
      }
      Made(Obj(next), next + 1, events, Some(MarkerOf(p)))
  }

  /** The result of Get. */
  datatype Got = Got(pool: SubPool, obj: Ref, next: ObjId, events: seq<Event>, marker: Option<ItemKey>)

  /** Get: record `now` as the empty-since time, pop from the tail (forgetting
      each popped ID) until a live object has been popped, and hand it out
      with its spawn hooks run; with nothing live left, Spawn. */
  function Get(p: SubPool, w: World, now: int, next: ObjId): (g: Got)
    ensures g.pool.nullTime == now
    ensures g.pool == p.(idle := g.pool.idle, nullTime := now)
    ensures |g.pool.idle.items| <= |p.idle.items|
    ensures g.pool.idle.items == p.idle.items[..|g.pool.idle.items|]
    ensures g.pool.idle.ids == p.idle.ids - IdsOf(p.idle.items[|g.pool.idle.items|..])
    ensures g.next == next ==>
      && g.marker == None
      && ((!IsAlive(p.template, w) && g.obj == Null && g.pool.idle.items == [])
          || (|g.pool.idle.items| < |p.idle.items| && g.obj == Obj(p.idle.items[|g.pool.idle.items|].obj) && IsAlive(g.obj, w)))
    ensures g.next != next ==> g.obj == Obj(next) && g.next == next + 1 && g.pool.idle.items == []
    ensures forall i | |g.pool.idle.items| < i < |p.idle.items| :: p.idle.items[i].obj in w.dead
    ensures g.next != next || g.obj.Null? ==> forall i | 0 <= i < |p.idle.items| :: p.idle.items[i].obj in w.dead
    ensures g.next == next && g.obj.Obj? ==>
      Invoked(g.events) == (if p.isGameObject then w.spawnHandlers(g.obj.id) else [])
    ensures g.next == next && g.obj.Null? ==> g.events == []
    ensures g.next != next ==>
      && (g.marker.Some? <==> p.isGameObject)
      && (g.marker.Some? ==> g.marker.value == MarkerOf(p))
      && Invoked(g.events) == (if p.isGameObject then w.spawnHandlers(next) else [])
  {
    var p1 := p.(nullTime := now);
    var pop := PopLive(p.idle, w.dead);
    var p2 := p1.(idle := pop.rest);
    if |p.idle.items| == 0 || pop.found.None? then
      var m := Spawn(p2, w, next, true);
      Got(p2, m.obj, m.next, m.events, m.marker)
    else
      var id := pop.found.value;
      Got(p2, Obj(id), next, if p.isGameObject then Dispatch(Some(0), w.spawnHandlers(id)) else [], None)
  }

  /** The result of Dispose: the sub-pool and the hook trace. */
  datatype Disposed = Disposed(pool: SubPool, events: seq<Event>)

  /** Dispose: a dead object, or one whose ID is already pooled, is ignored;
      otherwise it goes to the tail with its ID, and a GameObject's dispose
      handlers run. */
  function Dispose(p: SubPool, w: World, obj: Ref, now: int): (d: Disposed)
    ensures !IsAlive(obj, w) || obj.id in p.idle.ids ==> d == Disposed(p, [])
    ensures IsAlive(obj, w) && obj.id !in p.idle.ids ==>
      && d.pool == p.(idle := Tracked(p.idle.items + [Item(obj.id, now)], p.idle.ids + {obj.id}))
      && Invoked(d.events) == (if p.isGameObject then w.disposeHandlers(obj.id) else [])
  {
    if !IsAlive(obj, w) || obj.id in p.idle.ids then Disposed(p, [])
    else
      Disposed(p.(idle := Add(p.idle, obj.id, now)),
               if p.isGameObject then Dispatch(Some(0), w.disposeHandlers(obj.id)) else [])
  }

  /** What Clear, Resize and Update leave, and the objects they destroyed in
      order. */
  datatype Cleared = Cleared(pool: SubPool, destroyed: seq<ObjId>)

  /** Clear: destroy every live idle object and forget every entry and ID.
      The empty-since time is left alone. */
  function Clear(p: SubPool, w: World): (c: Cleared)
    ensures c.pool == p.(idle := Empty)
    ensures forall x | x in c.destroyed :: x !in w.dead && x in IdsOf(p.idle.items)
    ensures forall i | 0 <= i < |p.idle.items| && p.idle.items[i].obj !in w.dead ::
      p.idle.items[i].obj in c.destroyed
  {
    var s := ClearAll(p.idle, w.dead);
    Cleared(p.(idle := s.rest), s.destroyed)
  }

  /** The result of Resize. */
  datatype Resized = Resized(pool: SubPool, next: ObjId, destroyed: seq<ObjId>)

  /** Resize(size), with growth that does nothing when there is no live
      template to clone (see the README's findings for the code as written).
      Growth appends new clones with their IDs and runs no hooks; shrinking
      drops the oldest entries without destroying them. */
  function Resize(p: SubPool, w: World, size: int, now: int, next: ObjId): (r: Resized)
    ensures r.pool.nullTime == p.nullTime && r.pool.template == p.template && r.pool.policy == p.policy
    ensures size <= 0 ==> Count(r.pool) == 0 && r.pool.idle == Empty && r.next == next
    ensures size > |p.idle.items| && !IsAlive(p.template, w) ==> r == Resized(p, next, [])
    ensures size > |p.idle.items| && IsAlive(p.template, w) ==>
      && Count(r.pool) == size && r.destroyed == []
      && r.pool.idle.items == p.idle.items + Spawned(next, size - |p.idle.items|, now)
      && r.next == next + (size - |p.idle.items|)
    ensures 0 < size <= |p.idle.items| ==>
      && Count(r.pool) == size && r.destroyed == [] && r.next == next
      && r.pool.idle.items == p.idle.items[|p.idle.items| - size..]
    ensures size <= 0 ==> r.destroyed == Clear(p, w).destroyed
    ensures size > |p.idle.items| && IsAlive(p.template, w) ==>
      r.pool.idle.ids == p.idle.ids + IdsOf(Spawned(next, size - |p.idle.items|, now))
    ensures 0 < size <= |p.idle.items| ==>
      r.pool.idle.ids == p.idle.ids - set i | 0 <= i < |p.idle.items| - size && p.idle.items[i].obj !in w.dead :: p.idle.items[i].obj
  {
    if size <= 0 then
      var c := Clear(p, w);
      Resized(c.pool, next, c.destroyed)
    else
      var difference := size - |p.idle.items|;
      if difference == 0 then Resized(p, next, [])
      else if difference > 0 then
        if !IsAlive(p.template, w) then Resized(p, next, [])
        else Resized(p.(idle := Grow(p.idle, next, difference, now)), next + difference, [])
      else Resized(p.(idle := ShrinkTo(p.idle, size, w.dead)), next, [])
  }

  /** Resize as written can fail with a NullReferenceException. */
  datatype ResizeOutcome = Completed(resized: Resized) | NullReference

  /** Resize as written: growth calls Spawn, which answers null without a
      live template, and then asks the null reference for its instance ID. */
  function ResizeAsWritten(p: SubPool, w: World, size: int, now: int, next: ObjId): (o: ResizeOutcome)
    ensures o.NullReference? <==> size > |p.idle.items| && !IsAlive(p.template, w)
    ensures o.Completed? ==> o.resized == Resize(p, w, size, now, next)
  {
    if size > |p.idle.items| && !IsAlive(p.template, w) then NullReference
    else Completed(Resize(p, w, size, now, next))
  }

  /** The result of Update. */
  datatype Updated = Updated(pool: SubPool, keep: bool, destroyed: seq<ObjId>)

  /** Update: the shared idle-list tick (TrackedList.TickIdle) applied to
      this sub-pool's list and empty-since time; nothing else changes. */
  function Update(p: SubPool, dt: DeleteTime, w: World, now: int): (u: Updated)
    ensures u.pool == p.(idle := u.pool.idle, nullTime := u.pool.nullTime)
    ensures dt.assetDeleteTime < 0 ==> u.pool == p && u.destroyed == []
    ensures !u.keep <==> dt.poolItemDeleteTime >= 0 && Count(u.pool) == 0
                         && now - u.pool.nullTime >= dt.poolItemDeleteTime
  {
    var r := TickIdle(p.idle, p.nullTime, dt, now, w.dead);
    Updated(p.(idle := r.idle, nullTime := r.nullTime), r.keep, r.destroyed)
  }

  /** The invariant that ties the idle list to its ID set. */
  ghost predicate Valid(p: SubPool) {
    Inv(p.idle)
  }

  /** Get, Dispose, Update and Clear keep the invariant. */
  lemma ValidPreserved(p: SubPool, w: World, obj: Ref, dt: DeleteTime, now: int, next: ObjId)
    requires Valid(p)
    ensures Valid(Get(p, w, now, next).pool)
    ensures Valid(Dispose(p, w, obj, now).pool)
    ensures Valid(Update(p, dt, w, now).pool)
    ensures Valid(Clear(p, w).pool)
  {
    GetValid(p, w, now, next);
    DisposeValid(p, w, obj, now);
    UpdateValid(p, dt, w, now);
  }

  lemma UpdateValid(p: SubPool, dt: DeleteTime, w: World, now: int)
    requires Valid(p)
    ensures Valid(Update(p, dt, w, now).pool)
  {
    TickIdleInv(p.idle, p.nullTime, dt, now, w.dead);
  }

  lemma GetValid(p: SubPool, w: World, now: int, next: ObjId)
    requires Valid(p)
    ensures Valid(Get(p, w, now, next).pool)
  {
    PopLiveInv(p.idle, w.dead);
  }

  lemma DisposeValid(p: SubPool, w: World, obj: Ref, now: int)
    requires Valid(p)
    ensures Valid(Dispose(p, w, obj, now).pool)
  {
    if IsAlive(obj, w) {
      AddInv(p.idle, obj.id, now);
    }
  }

  /** Resize keeps the invariant, provided the instance supply hands out IDs
      the sub-pool has never seen. */
  lemma ResizeValid(p: SubPool, w: World, size: int, now: int, next: ObjId)
    requires Valid(p) && FreshFrom(p.idle, next)
    ensures Valid(Resize(p, w, size, now, next).pool)
  {
    var difference := size - |p.idle.items|;
    if size > 0 && difference > 0 && IsAlive(p.template, w) {
      GrowInv(p.idle, next, difference, now);
    } else if size > 0 && difference < 0 {
      ShrinkToInv(p.idle, size, w.dead);
    }
  }

  /** Disposing an object a second time changes nothing and runs no hook. */
  lemma DisposeIdempotent(p: SubPool, w: World, obj: Ref, t1: int, t2: int)
    ensures Dispose(Dispose(p, w, obj, t1).pool, w, obj, t2) == Disposed(Dispose(p, w, obj, t1).pool, [])
  {
  }

  /** Stack order: a live object disposed into a sub-pool comes back from the
      very next Get, the sub-pool's list and ID set are as before the
      Dispose, and nothing is spawned. */
  lemma DisposeThenGet(p: SubPool, w: World, obj: Ref, t: int, now: int, next: ObjId)
    requires IsAlive(obj, w) && obj.id !in p.idle.ids
    ensures Get(Dispose(p, w, obj, t).pool, w, now, next).obj == obj
    ensures Get(Dispose(p, w, obj, t).pool, w, now, next).pool.idle == p.idle
    ensures Get(Dispose(p, w, obj, t).pool, w, now, next).next == next
  {
    var q := Dispose(p, w, obj, t).pool;
    var g := Get(q, w, now, next);
    assert q.idle.items[|q.idle.items| - 1].obj == obj.id;
    assert q.idle.items[..|q.idle.items| - 1] == p.idle.items;
    assert q.idle.items[|p.idle.items|..] == [Item(obj.id, t)];
    assert IdsOf([Item(obj.id, t)]) == {obj.id};
  }

  /** Reusing a pooled GameObject runs each of its spawn handlers exactly
      once, in discovery order, in the sub-pool's own buffer, and the last
      handler runs after the buffer has been cleared. */
  lemma GetRunsSpawnHooks(p: SubPool, w: World, now: int, next: ObjId)
    requires p.isGameObject
    requires |p.idle.items| > 0 && p.idle.items[|p.idle.items| - 1].obj !in w.dead
    ensures var g := Get(p, w, now, next);
      var hs := w.spawnHandlers(p.idle.items[|p.idle.items| - 1].obj);
      && g.obj == Obj(p.idle.items[|p.idle.items| - 1].obj)
      && Invoked(g.events) == hs
      && Borrow !in g.events && Return !in g.events
      && (|hs| > 0 ==> g.events[|g.events| - 1] == Invoke(hs[|hs| - 1]) && g.events[|g.events| - 2] == ClearBuffer)
  {
    var g := Get(p, w, now, next);
    var hs := w.spawnHandlers(p.idle.items[|p.idle.items| - 1].obj);
    assert g.events == Dispatch(Some(0), hs);
    if |hs| > 0 {
      assert g.events[|g.events| - 2] == ClearBuffer;
    }
    forall i | 0 <= i < |g.events| ensures g.events[i] != Borrow && g.events[i] != Return {
    }
  }

  /** Growth by Resize never runs spawn hooks, unlike Get's Spawn. */
  lemma ResizeRunsNoHooks(p: SubPool, w: World, next: ObjId)
    requires IsAlive(p.template, w) && p.isGameObject
    ensures Spawn(p, w, next, false).events == []
    ensures Invoked(Spawn(p, w, next, true).events) == w.spawnHandlers(next)
  {
  }

  /** With the empty-since time as written, a sub-pool created empty at any
      time is dropped by the first tick once the clock has passed the item
      threshold: a registration at now = 200 under the 120-second default is
      lost on the next frame. */
  lemma EmptyPoolDroppedAsWritten(mode: LoadMode, asset: Option<string>, isGameObject: bool,
                                  loaded: Ref, policy: PolicyId, dt: DeleteTime, w: World, now: int)
    requires 0 <= dt.poolItemDeleteTime <= now
    ensures !Update(NewAsWritten(mode, None, asset, isGameObject, loaded, policy), dt, w, now).keep
  {
  }

  /** Concretely: created at 200 and ticked at 200 under (120, 120). */
  lemma EmptyPoolDroppedAsWrittenExample(loaded: Ref, w: World)
    ensures !Update(NewAsWritten(Custom, None, Some("Bullet"), true, loaded, 0), DeleteTime(120, 120), w, 200).keep
    ensures Update(New(Custom, None, Some("Bullet"), true, loaded, 0, 200), DeleteTime(120, 120), w, 200).keep
  {
  }

  /** With the creation time recorded, a sub-pool created empty survives
      every tick within the item threshold of its creation. */
  lemma EmptyPoolKeptUntilThreshold(mode: LoadMode, bundle: Option<string>, asset: Option<string>, isGameObject: bool,
                                    loaded: Ref, policy: PolicyId, dt: DeleteTime, w: World, created: int, now: int)
    requires now - created < dt.poolItemDeleteTime
    ensures Update(New(mode, bundle, asset, isGameObject, loaded, policy, created), dt, w, now).keep
  {
  }

  /** Without a live template, Resize as written throws as soon as it must
      grow; the corrected Resize leaves the sub-pool unchanged. */
  lemma ResizeWithoutTemplate(p: SubPool, w: World, size: int, now: int, next: ObjId)
    requires !IsAlive(p.template, w) && size > Count(p)
    ensures ResizeAsWritten(p, w, size, now, next) == NullReference
    ensures Resize(p, w, size, now, next) == Resized(p, next, [])
  {
  }
}

=== FILE: paths.dfy ===
/**
 * GetFullPath and its wrappers (GetViewPath, GetGamePath, GetParticlePath,
 * GetMaterialPath), defined identically in Pools/ObjectPool.cs and in the
 * older ObjectPool.cs. A C# string that may be null is `Option<string>`.
 *
 * System.IO.Path.Combine is the platform's; it is modelled with '/' as the
 * only separator: an empty side yields the other side, a rooted right side
 * replaces the left, otherwise one '/' is inserted unless the left side
 * already ends with one.
 */
module Paths {
  import opened Engine

  const DefaultPrefabRootPath: string := "Prefabs/View/"
  const DefaultGamePath: string := "Prefabs/Game/"
  const DefaultParticlePath: string := "Prefabs/ParticleSystem/"
  const DefaultMaterialPath: string := "Materials/"

  predicate IsRooted(s: string) {
    |s| > 0 && s[0] == '/'
  }

  /** A path that starts with '/' loses that one character; at most one
      leading '/' goes. */
  function StripRoot(s: string): (r: string)
    ensures IsRooted(s) ==> s == "/" + r
    ensures !IsRooted(s) ==> r == s
  {
    if IsRooted(s) then s[1..] else s
  }

  /** The separator Path.Combine inserts after a non-empty left side. */
  function Sep(left: string): string
    requires |left| > 0
  {
    if left[|left| - 1] == '/' then "" else "/"
  }

  /** Path.Combine(a, b). */
  function Combine(a: string, b: string): string {
    if |b| == 0 then a
    else if |a| == 0 then b
    else if IsRooted(b) then b
    else a + Sep(a) + b
  }

  /** One step of GetFullPath: a null component leaves the path as it is; a
      present one is stripped and either starts the path or is combined onto
      it. */
  function Append(acc: Option<string>, part: Option<string>): Option<string> {
    match part
    case None => acc
    case Some(p) =>
      if acc.None? then Some(StripRoot(p)) else Some(Combine(acc.value, StripRoot(p)))
  }

  /** GetFullPath(name, path, root): root, then path, then name. */
  function GetFullPath(name: Option<string>, path: Option<string>, root: Option<string>): (r: Option<string>)
    ensures r.None? <==> name.None? && path.None? && root.None?
  {
    Append(Append(Append(None, root), path), name)
  }

  /** The four wrappers: the given default root, or none when the caller
      opts out of it. */
  function GetPathUnder(defaultRoot: string, name: Option<string>, path: Option<string>, needDefaultPath: bool): Option<string> {
    GetFullPath(name, path, if needDefaultPath then Some(defaultRoot) else None)
  }

  /** The result is null exactly when all three components are null. */
  lemma FullPathNullIff(name: Option<string>, path: Option<string>, root: Option<string>)
    ensures GetFullPath(name, path, root).None? <==> name.None? && path.None? && root.None?
  {
  }

  /** A single present component comes back with at most one leading '/'
      removed and otherwise unchanged. */
  lemma FullPathSingle(s: string)
    ensures GetFullPath(Some(s), None, None) == Some(StripRoot(s))
    ensures GetFullPath(None, Some(s), None) == Some(StripRoot(s))
    ensures GetFullPath(None, None, Some(s)) == Some(StripRoot(s))
    ensures IsRooted(s) ==> GetFullPath(Some(s), None, None) == Some(s[1..])
  {
  }

  /** With three ordinary components (non-empty, and not rooted once one
      '/' is stripped), the result is root, path and name in that order, each
      joined by a '/' unless the left part already ends with one. */
  lemma FullPathJoinsInOrder(name: string, path: string, root: string)
    requires |StripRoot(root)| > 0
    requires |StripRoot(path)| > 0 && !IsRooted(StripRoot(path))
    requires |StripRoot(name)| > 0 && !IsRooted(StripRoot(name))
    ensures var r, p, n := StripRoot(root), StripRoot(path), StripRoot(name);
      GetFullPath(Some(name), Some(path), Some(root)) == Some(r + Sep(r) + p + Sep(p) + n)
  {
    var r, p, n := StripRoot(root), StripRoot(path), StripRoot(name);
    var rp := r + Sep(r) + p;
    assert rp[|rp| - 1] == p[|p| - 1];
    assert Sep(rp) == Sep(p);
    assert rp + Sep(p) + n == r + Sep(r) + p + Sep(p) + n;
  }

  /** A component that is still rooted after its one '/' is stripped
      (for example "//x") discards everything joined before it. */
  lemma FullPathRootedNameWins(name: string, path: Option<string>, root: Option<string>)
    requires IsRooted(StripRoot(name))
    ensures GetFullPath(Some(name), path, root) == Some(StripRoot(name))
  {
  }

  /** A wrapper whose root is relative and ends with '/' places a relative
      name directly under that root, or returns it stripped when the caller
      opts out of the default root. */
  lemma PathUnderRoot(root: string, name: string)
    requires |root| > 0 && root[|root| - 1] == '/' && !IsRooted(root)
    requires |StripRoot(name)| > 0 && !IsRooted(StripRoot(name))
    ensures GetPathUnder(root, Some(name), None, true) == Some(root + StripRoot(name))
    ensures GetPathUnder(root, Some(name), None, false) == Some(StripRoot(name))
  {
    assert StripRoot(root) == root;
    assert Sep(root) == "";
    var n := StripRoot(name);
    assert Combine(root, n) == root + "" + n;
    assert root + "" + n == root + n;
  }

  /** GetViewPath("Panel") is "Prefabs/View/Panel", and likewise GetGamePath,
      GetParticlePath and GetMaterialPath under their own roots. */
  lemma ViewPathUnderDefaultRoot(name: string)
    requires |StripRoot(name)| > 0 && !IsRooted(StripRoot(name))
    ensures GetPathUnder(DefaultPrefabRootPath, Some(name), None, true) == Some(DefaultPrefabRootPath + StripRoot(name))
    ensures GetPathUnder(DefaultGamePath, Some(name), None, true) == Some(DefaultGamePath + StripRoot(name))
    ensures GetPathUnder(DefaultParticlePath, Some(name), None, true) == Some(DefaultParticlePath + StripRoot(name))
    ensures GetPathUnder(DefaultMaterialPath, Some(name), None, true) == Some(DefaultMaterialPath + StripRoot(name))
    ensures GetPathUnder(DefaultPrefabRootPath, Some(name), None, false) == Some(StripRoot(name))
  {
    PathUnderRoot(DefaultPrefabRootPath, name);
    PathUnderRoot(DefaultGamePath, name);
    PathUnderRoot(DefaultParticlePath, name);
    PathUnderRoot(DefaultMaterialPath, name);
  }
}

=== FILE: pool_item.dfy ===
/**
 * PoolItem<T> (PoolItem.cs): the older generation of the object sub-pool,
 * used by the older registry in ObjectPool.cs. It shares the idle-list
 * algorithms of the newer one but has no Resize, marks its GameObjects with
 * DisposeSelf (asset path and load mode), always parents new GameObjects
 * under the registry, and runs hooks with the simpler dispatch.
 */
module LegacyPoolItem {
  import opened Engine
  import opened DeleteTimes
  import opened FreeList
  import opened TrackedList
  import opened Hooks

  /** ObjectPool.LoadMode of the older registry: a single member. */
  datatype LoadMode = Resource

  /** The DisposeSelf component a GameObject cloned by this generation
      carries. */
  datatype DisposeSelf = DisposeSelf(assetPath: Option<string>, loadMode: LoadMode)

  datatype SubPool = SubPool(
    assetPath: Option<string>,
    loadMode: LoadMode,
    template: Ref,          // m_ObjRes
    isGameObject: bool,     // typeof(T) == typeof(GameObject)
    idle: Tracked,          // mItems and mItemIDs
    nullTime: int,          // mNullTime
    policy: PolicyId)       // mDeleteTime, the registry's own object for this key

  /** The constructor: Resources.Load answered `loaded`. mNullTime keeps the
      C# default 0; in this generation every creation is followed at once by
      a Get, which sets it, or by a Dispose, which pools an entry. */
  function New(assetPath: Option<string>, loadMode: LoadMode, isGameObject: bool, loaded: Ref, policy: PolicyId): (p: SubPool)
    ensures p.idle == Empty && p.template == loaded && p.policy == policy && p.assetPath == assetPath
  {
    SubPool(assetPath, loadMode, loaded, isGameObject, Empty, 0, policy)
  }

  function Count(p: SubPool): nat {
    |p.idle.items|
  }

  /** The result of Get: the sub-pool, the object, the instance supply, the
      hook trace and the DisposeSelf a newly cloned GameObject carries. */
  datatype Got = Got(pool: SubPool, obj: Ref, next: ObjId, events: seq<Event>, marker: Option<DisposeSelf>)

  /** Spawn: clone the template; a GameObject clone is marked with this
      sub-pool's asset path and load mode and its spawn handlers run.
      Without a live template the engine refuses to clone; the model answers
      null. */
  function Spawn(p: SubPool, w: World, next: ObjId): (g: Got)
    ensures g.pool == p
    ensures !IsAlive(p.template, w) ==> g.obj == Null && g.next == next && g.events == [] && g.marker == None
    ensures IsAlive(p.template, w) ==> g.obj == Obj(next) && g.next == next + 1
    ensures g.marker.Some? <==> IsAlive(p.template, w) && p.isGameObject
    ensures g.marker.Some? ==> g.marker.value == DisposeSelf(p.assetPath, p.loadMode)
    ensures Invoked(g.events) == (if g.marker.Some? then w.spawnHandlers(next) else [])
  {
    if !IsAlive(p.template, w) then Got(p, Null, next, [], None)
    else if !p.isGameObject then Got(p, Obj(next), next + 1, [], None)
    else Got(p, Obj(next), next + 1, LegacyDispatch(w.spawnHandlers(next)), Some(DisposeSelf(p.assetPath, p.loadMode)))
  }

  /** Get: record `now` as the empty-since time, pop from the tail until a
      live object has been popped, and hand it out with its spawn handlers
      run; with nothing live left, Spawn. */
  function Get(p: SubPool, w: World, now: int, next: ObjId): (g: Got)
    ensures g.pool == p.(idle := g.pool.idle, nullTime := now)
    ensures |g.pool.idle.items| <= |p.idle.items| && g.pool.idle.items == p.idle.items[..|g.pool.idle.items|]
    ensures g.pool.idle.ids == p.idle.ids - IdsOf(p.idle.items[|g.pool.idle.items|..])
    ensures forall i | |g.pool.idle.items| < i < |p.idle.items| :: p.idle.items[i].obj in w.dead
    ensures g.next == next && g.obj.Obj? ==>
      && |g.pool.idle.items| < |p.idle.items|
      && g.obj.id == p.idle.items[|g.pool.idle.items|].obj && IsAlive(g.obj, w)
      && Invoked(g.events) == (if p.isGameObject then w.spawnHandlers(g.obj.id) else [])
    ensures g.next == next && g.obj.Obj? ==> g.marker == None
    ensures g.next != next || g.obj.Null? ==>
      && g.pool.idle.items == []
      && forall i | 0 <= i < |p.idle.items| :: p.idle.items[i].obj in w.dead
    ensures g.next != next ==>
      && g.obj == Obj(next) && g.next == next + 1
      && (g.marker.Some? <==> p.isGameObject)
      && (g.marker.Some? ==> g.marker.value == DisposeSelf(p.assetPath, p.loadMode))
      && Invoked(g.events) == (if p.isGameObject then w.spawnHandlers(next) else [])
    ensures g.next == next && g.obj.Null? ==> g.events == [] && g.marker == None && !IsAlive(p.template, w)
  {
    var pop := PopLive(p.idle, w.dead);
    var p2 := p.(idle := pop.rest, nullTime := now);
    if |p.idle.items| == 0 || pop.found.None? then Spawn(p2, w, next)
    else
      var id := pop.found.value;
      Got(p2, Obj(id), next, if p.isGameObject then LegacyDispatch(w.spawnHandlers(id)) else [], None)
  }

  /** The result of Dispose: the sub-pool and the hook trace. */
  datatype Disposed = Disposed(pool: SubPool, events: seq<Event>)

  /** Dispose: a dead object, or one whose ID is already pooled, is ignored;
      otherwise it goes to the tail with its ID and a GameObject's dispose
      handlers run, all of them before the buffer is cleared. */
  function Dispose(p: SubPool, w: World, obj: Ref, now: int): (d: Disposed)
    ensures !IsAlive(obj, w) || obj.id in p.idle.ids ==> d == Disposed(p, [])
    ensures IsAlive(obj, w) && obj.id !in p.idle.ids ==>
      && d.pool == p.(idle := Tracked(p.idle.items + [Item(obj.id, now)], p.idle.ids + {obj.id}))
      && Invoked(d.events) == (if p.isGameObject then w.disposeHandlers(obj.id) else [])
      && Borrow !in d.events
  {
    if !IsAlive(obj, w) || obj.id in p.idle.ids then Disposed(p, [])
    else
      Disposed(p.(idle := Add(p.idle, obj.id, now)),
               if p.isGameObject then LegacyDispatch(w.disposeHandlers(obj.id)) else [])
  }

  /** Clear: destroy every live idle object, forget every entry and ID. */
  function Clear(p: SubPool, w: World): (r: (SubPool, seq<ObjId>))
    ensures r.0 == p.(idle := Empty)
    ensures forall i | 0 <= i < |p.idle.items| && p.idle.items[i].obj !in w.dead ::
      p.idle.items[i].obj in r.1
    ensures forall x | x in r.1 :: x !in w.dead && x in IdsOf(p.idle.items)
  {
    var s := ClearAll(p.idle, w.dead);
    (p.(idle := s.rest), s.destroyed)
  }

  /** Update: the shared idle-list tick under the policy in force. */
  function Update(p: SubPool, dt: DeleteTime, w: World, now: int): (r: (SubPool, IdleTick))
    ensures r.0 == p.(idle := r.1.idle, nullTime := r.1.nullTime)
    ensures !r.1.keep <==> dt.poolItemDeleteTime >= 0 && Count(r.0) == 0
                           && now - r.0.nullTime >= dt.poolItemDeleteTime
  {
    var t := TickIdle(p.idle, p.nullTime, dt, now, w.dead);
    (p.(idle := t.idle, nullTime := t.nullTime), t)
  }

  /** The invariant that ties the idle list to its ID set. */
  ghost predicate Valid(p: SubPool) {
    Inv(p.idle)
  }

  /** Every operation keeps the invariant. */
  lemma ValidPreserved(p: SubPool, w: World, obj: Ref, dt: DeleteTime, now: int, next: ObjId)
    requires Valid(p)
    ensures Valid(Get(p, w, now, next).pool)
    ensures Valid(Dispose(p, w, obj, now).pool)
    ensures Valid(Update(p, dt, w, now).0)
    ensures Valid(Clear(p, w).0)
  {
    PopLiveInv(p.idle, w.dead);
    if IsAlive(obj, w) {
      AddInv(p.idle, obj.id, now);
    }
    TickIdleInv(p.idle, p.nullTime, dt, now, w.dead);
  }

  /** Stack order with a duplicate guard: a live object not yet pooled comes
      back from the next Get, and disposing it twice pools it once. */
  lemma DisposeThenGet(p: SubPool, w: World, obj: Ref, t: int, now: int, next: ObjId)
    requires IsAlive(obj, w) && obj.id !in p.idle.ids
    ensures Get(Dispose(p, w, obj, t).pool, w, now, next).obj == obj
    ensures Get(Dispose(p, w, obj, t).pool, w, now, next).pool.idle == p.idle
    ensures Get(Dispose(p, w, obj, t).pool, w, now, next).next == next
    ensures Dispose(Dispose(p, w, obj, t).pool, w, obj, now).pool == Dispose(p, w, obj, t).pool
  {
    var q := Dispose(p, w, obj, t).pool;
    assert q.idle.items[|q.idle.items| - 1].obj == obj.id;
    assert q.idle.items[..|q.idle.items| - 1] == p.idle.items;
    assert q.idle.items[|p.idle.items|..] == [Item(obj.id, t)];
    assert IdsOf([Item(obj.id, t)]) == {obj.id};
  }
}

=== FILE: pool_keys.dfy ===
/**
 * The registry key of the newer ObjectPool (the nested PoolKey struct of
 * Pools/ObjectPool.cs) and the marker component a pooled GameObject carries
 * back to the registry (ObjectPoolItemKey).
 */
module PoolKeys {
  import opened Engine

  datatype LoadMode = Resource | Custom | AssetBundle

  /** A key is a plain value; IEquatable<PoolKey>.Equals compares all four
      fields, which is Dafny's structural equality on this datatype. */
  datatype PoolKey = PoolKey(
    poolType: TypeTag,
    loadMode: LoadMode,
    bundleName: Option<string>,
    assetName: Option<string>)

  /** The PoolKey constructor: the bundle name is kept only for AssetBundle
      keys, so the other modes never split a pool by bundle. */
  function MakeKey(t: TypeTag, mode: LoadMode, bundle: Option<string>, asset: Option<string>): (k: PoolKey)
    ensures k.poolType == t && k.loadMode == mode && k.assetName == asset
    ensures mode == AssetBundle ==> k.bundleName == bundle
    ensures mode != AssetBundle ==> k.bundleName == None
  {
    PoolKey(t, mode, if mode == AssetBundle then bundle else None, asset)
  }

  /** Two constructed keys are equal exactly when type, mode and asset agree
      and, for AssetBundle keys only, the bundle names agree too. */
  lemma MakeKeyEquality(t1: TypeTag, m1: LoadMode, b1: Option<string>, a1: Option<string>,
                        t2: TypeTag, m2: LoadMode, b2: Option<string>, a2: Option<string>)
    ensures MakeKey(t1, m1, b1, a1) == MakeKey(t2, m2, b2, a2)
        <==> t1 == t2 && m1 == m2 && a1 == a2 && (m1 == AssetBundle ==> b1 == b2)
  {
  }

  /** The underlying value of a LoadMode, in declaration order. */
  function ModeValue(m: LoadMode): bv32 {
    match m
    case Resource => 0
    case Custom => 1
    case AssetBundle => 2
  }

  /** PoolKey.GetHashCode in unchecked 32-bit arithmetic over the hashes of
      the type and of the strings, with 1 standing for a null string. */
  function KeyHash(k: PoolKey, typeHash: TypeTag -> bv32, stringHash: string -> bv32): bv32 {
    var h0 := typeHash(k.poolType);
    var h1 := (h0 * 397) ^ ModeValue(k.loadMode);
    var h2 := (h1 * 397) ^ (if k.bundleName.Some? then stringHash(k.bundleName.value) else 1);
    (h2 * 397) ^ (if k.assetName.Some? then stringHash(k.assetName.value) else 1)
  }

  /** Keys the constructor normalises to the same value hash equally: for
      every mode but AssetBundle the bundle name given to the constructor
      affects neither equality nor the hash. */
  lemma HashIgnoresDroppedBundle(t: TypeTag, mode: LoadMode, b1: Option<string>, b2: Option<string>, a: Option<string>,
                                 typeHash: TypeTag -> bv32, stringHash: string -> bv32)
    requires mode != AssetBundle
    ensures MakeKey(t, mode, b1, a) == MakeKey(t, mode, b2, a)
    ensures KeyHash(MakeKey(t, mode, b1, a), typeHash, stringHash) == KeyHash(MakeKey(t, mode, b2, a), typeHash, stringHash)
  {
  }

  /** The ObjectPoolItemKey marker a spawned GameObject carries: the load
      mode, bundle and asset of the sub-pool that made it. */
  datatype ItemKey = ItemKey(loadMode: LoadMode, bundleName: Option<string>, assetName: Option<string>)

  /** The key DisposeGameObject rebuilds from a marker. */
  function MarkerKey(m: ItemKey): PoolKey {
    MakeKey(GameObjectType, m.loadMode, m.bundleName, m.assetName)
  }
}

=== FILE: sweep.dfy ===
/**
 * The registries' per-frame tick. Every registry walks its live sub-pools,
 * lets each run its own Update, and drops the ones that answer false. A C#
 * collection must not be structurally changed while it is being enumerated,
 * so the removals are staged in a pending list (mToDeletePoolKeys) and
 * applied after the walk. Two stagings occur:
 *
 *  - Pools/CommonPool.cs and the older ObjectPool.cs enumerate the key set
 *    mPoolKeys; they remove the sub-pool from mPoolItems at once and stage
 *    only the key's removal from mPoolKeys;
 *  - Pools/ObjectPool.cs enumerates mPoolItems itself and stages the removal
 *    of the entry.
 *
 * Both are modelled as loops over an enumeration order and proved to compute
 * the same order-independent result, `Ticked`.
 */
module Sweep {

  /** What a sub-pool's Update leaves behind, and its verdict. */
  datatype Tick<V> = Tick(pool: V, keep: bool)

  /** The enumeration order visits every key of `keys` exactly once. */
  ghost predicate Enumerates<K>(order: seq<K>, keys: set<K>) {
    && (forall i | 0 <= i < |order| :: order[i] in keys)
    && (forall k | k in keys :: k in order)
    && (forall i, j | 0 <= i < j < |order| :: order[i] != order[j])
  }

  /** The result of ticking the sub-pools under `visited`: a visited sub-pool
      survives with its ticked state exactly when its Update answered true;
      an unvisited one is left as it was. */
  function Ticked<K, V>(items: map<K, V>, visited: set<K>, step: V -> Tick<V>): (r: map<K, V>)
    ensures forall k | k in r :: k in items && (k in visited ==> step(items[k]).keep)
    ensures forall k | k in items && (k in visited ==> step(items[k]).keep) :: k in r
    ensures forall k | k in r && k in visited :: r[k] == step(items[k]).pool
    ensures forall k | k in r && k !in visited :: r[k] == items[k]
  {
    map k | k in items && (k in visited ==> step(items[k]).keep) ::
      if k in visited then step(items[k]).pool else items[k]
  }

  /** The tick of CommonPool and of the older ObjectPool: walk the live key
      set, drop a failing sub-pool from the map at once, stage its key, then
      remove the staged keys from the key set and empty the pending list. */
  method SweepLiveKeys<K, V>(items: map<K, V>, keys: set<K>, order: seq<K>, step: V -> Tick<V>)
    returns (items': map<K, V>, keys': set<K>, pending: seq<K>)
    requires keys <= items.Keys
    requires Enumerates(order, keys)
    ensures items' == Ticked(items, keys, step)
    ensures keys' == set k | k in keys && step(items[k]).keep
    ensures pending == []
  {
    items' := items;
    pending := [];
    var i := 0;
    while i < |order|
      invariant 0 <= i <= |order|
      invariant forall j | i <= j < |order| :: order[j] in items' && items'[order[j]] == items[order[j]]
      invariant forall k :: k in items' <==>
        k in items && (k in order[..i] ==> step(items[k]).keep)
      invariant forall k | k in items' && k in order[..i] :: items'[k] == step(items[k]).pool
      invariant forall k | k in items' && k !in order[..i] :: items'[k] == items[k]
      invariant forall k :: k in pending <==> k in order[..i] && !step(items[k]).keep
    {
      var k := order[i];
      assert k !in order[..i];
      var t := step(items'[k]);
      if !t.keep {
        items' := items' - {k};
        pending := pending + [k];
      } else {
        items' := items'[k := t.pool];
      }
      assert order[..i + 1] == order[..i] + [k];
      i := i + 1;
    }
    assert order[..i] == order;
    keys' := keys;
    var j := 0;
    while j < |pending|
      invariant 0 <= j <= |pending|
      invariant forall k :: k in keys' <==> k in keys && k !in pending[..j]
    {
      keys' := keys' - {pending[j]};
      assert pending[..j + 1] == pending[..j] + [pending[j]];
      j := j + 1;
    }
    assert pending[..j] == pending;
    pending := [];
  }

  /** The tick of Pools/ObjectPool.cs: walk the map itself, stage the key of
      every failing sub-pool, then remove the staged entries and empty the
      pending list. */
  method SweepEntries<K, V>(items: map<K, V>, order: seq<K>, step: V -> Tick<V>)
    returns (items': map<K, V>, pending: seq<K>)
    requires Enumerates(order, items.Keys)
    ensures items' == Ticked(items, items.Keys, step)
    ensures pending == []
  {
    items' := items;
    pending := [];
    var i := 0;
    while i < |order|
      invariant 0 <= i <= |order|
      invariant items'.Keys == items.Keys
      invariant forall k | k in items && k in order[..i] :: items'[k] == step(items[k]).pool
      invariant forall k | k in items && k !in order[..i] :: items'[k] == items[k]
      invariant forall k :: k in pending <==> k in order[..i] && !step(items[k]).keep
    {
      var k := order[i];
      assert k !in order[..i];
      var t := step(items'[k]);
      items' := items'[k := t.pool];
      if !t.keep {
        pending := pending + [k];
      }
      assert order[..i + 1] == order[..i] + [k];
      i := i + 1;
    }
    assert order[..i] == order;
    var j := 0;
    var ticked := items';
    while j < |pending|
      invariant 0 <= j <= |pending|
      invariant forall k :: k in items' <==> k in ticked && k !in pending[..j]
      invariant forall k | k in items' :: items'[k] == ticked[k]
    {
      items' := items' - {pending[j]};
      assert pending[..j + 1] == pending[..j] + [pending[j]];
      j := j + 1;
    }
    assert pending[..j] == pending;
    pending := [];
  }

  /** The sub-pools a full tick keeps are exactly those whose Update answered
      true. */
  lemma TickedKeys<K, V>(items: map<K, V>, step: V -> Tick<V>)
    ensures Ticked(items, items.Keys, step).Keys == set k | k in items && step(items[k]).keep
  {
  }
}

=== FILE: tracked_list.dfy ===
/**
 * The idle list of the object sub-pools (PoolItems/ObjectPoolItem.cs and the
 * older PoolItem.cs) together with the hash set of instance IDs that guards it
 * against double insertion (mItems + mItemIDs). Both generations run the same
 * list algorithms; they are defined here once, with the invariant that ties
 * the list to the set.
 */
module TrackedList {
  import opened Engine
  import opened DeleteTimes
  import opened FreeList

  datatype Tracked = Tracked(items: seq<Item<ObjId>>, ids: set<ObjId>)

  const Empty: Tracked := Tracked([], {})

  /** The instance IDs of a run of entries. */
  function IdsOf(items: seq<Item<ObjId>>): set<ObjId> {
    set i | 0 <= i < |items| :: items[i].obj
  }

  /** No object occurs twice in the list. */
  ghost predicate Distinct(items: seq<Item<ObjId>>) {
    forall i, j | 0 <= i < j < |items| :: items[i].obj != items[j].obj
  }

  /** Every entry's instance ID is in the guard set and no object is pooled
      twice. The set may hold more: Resize forgets nothing about a dead object. */
  ghost predicate Inv(t: Tracked) {
    && (forall i | 0 <= i < |t.items| :: t.items[i].obj in t.ids)
    && Distinct(t.items)
  }

  /** Every ID the list knows was handed out by the supply before `next`. */
  ghost predicate FreshFrom(t: Tracked, next: ObjId) {
    forall id | id in t.ids :: id < next
  }

  /** The live objects among the entries, front to tail: what Clear and the
      sweep destroy, skipping an entry whose object is already gone. At most
      one destruction per entry, so no object twice when the list is
      distinct, and a live front entry is destroyed first. */
  function LiveObjs(items: seq<Item<ObjId>>, dead: set<ObjId>): (r: seq<ObjId>)
    ensures forall x | x in r :: x !in dead && x in IdsOf(items)
    ensures forall i | 0 <= i < |items| && items[i].obj !in dead :: items[i].obj in r
    ensures |r| <= |items|
    ensures |items| > 0 && items[0].obj !in dead ==> |r| > 0 && r[0] == items[0].obj
    ensures Distinct(items) ==> forall i, j | 0 <= i < j < |r| :: r[i] != r[j]
  {
    if |items| == 0 then []
    else
      var rest := LiveObjs(items[1..], dead);
      assert forall x | x in IdsOf(items[1..]) :: x in IdsOf(items) by {
        forall x | x in IdsOf(items[1..]) ensures x in IdsOf(items) {
          var j :| 0 <= j < |items[1..]| && items[1..][j].obj == x;
          assert items[j + 1].obj == x;
        }
      }
      assert forall i | 1 <= i < |items| :: items[i] == items[1..][i - 1];
      (if items[0].obj in dead then [] else [items[0].obj]) + rest
  }

  /** Dispose's guarded append: an object whose ID is already pooled is ignored. */
  function Add(t: Tracked, id: ObjId, now: int): Tracked {
    if id in t.ids then t else Tracked(Push(t.items, id, now), t.ids + {id})
  }

  /** What Get's backwards scan leaves, and the live object it stopped at. */
  datatype TrackedPop = TrackedPop(rest: Tracked, found: Option<ObjId>)

  /** Get's scan: pop from the tail, forgetting each popped entry's ID, until a
      live object has been popped or the list is exhausted. */
  function PopLive(t: Tracked, dead: set<ObjId>): TrackedPop {
    var p := PopUntil(t.items, (id: ObjId) => id !in dead);
    TrackedPop(Tracked(p.rest, t.ids - IdsOf(t.items[|p.rest|..])), p.found)
  }

  /** What a front-side removal leaves, and the objects it destroyed in order. */
  datatype Swept = Swept(rest: Tracked, destroyed: seq<ObjId>)

  /** Update's item sweep: from the front, destroy each entry that has reached
      the threshold and forget its ID; stop at the first younger entry. */
  function EvictExpired(t: Tracked, now: int, threshold: int, dead: set<ObjId>): Swept {
    var k := ExpiredPrefix(t.items, now, threshold);
    Swept(Tracked(t.items[k..], t.ids - IdsOf(t.items[..k])), LiveObjs(t.items[..k], dead))
  }

  /** What a tick leaves of an idle list: the list, the empty-since time,
      the pool-level verdict and the objects destroyed in order. */
  datatype IdleTick = IdleTick(idle: Tracked, nullTime: int, keep: bool, destroyed: seq<ObjId>)

  /** The Update of both object sub-pool generations: when the item threshold
      is enabled and the list is not empty, destroy and forget the front
      entries that have reached it, stopping at the first younger one, and
      record `now` if that emptied the list; then give the pool-level
      verdict. */
  function TickIdle(t: Tracked, nullTime: int, dt: DeleteTime, now: int, dead: set<ObjId>): (r: IdleTick)
    ensures dt.assetDeleteTime < 0 ==> r.idle == t && r.nullTime == nullTime && r.destroyed == []
    ensures exists k | 0 <= k <= |t.items| ::
      && r.idle.items == t.items[k..]
      && r.idle.ids == t.ids - IdsOf(t.items[..k])
      && (forall i | 0 <= i < k :: Expired(now, t.items[i].time, dt.assetDeleteTime))
      && (forall x | x in r.destroyed :: x !in dead && x in IdsOf(t.items[..k]))
      && (forall i | 0 <= i < k && t.items[i].obj !in dead :: t.items[i].obj in r.destroyed)
    ensures dt.assetDeleteTime >= 0 && |r.idle.items| > 0 ==>
      !Expired(now, r.idle.items[0].time, dt.assetDeleteTime)
    ensures r.nullTime == (if dt.assetDeleteTime >= 0 && |t.items| > 0 && |r.idle.items| == 0 then now else nullTime)
    ensures !r.keep <==> dt.poolItemDeleteTime >= 0 && |r.idle.items| == 0
                         && now - r.nullTime >= dt.poolItemDeleteTime
  {
    if dt.assetDeleteTime >= 0 && |t.items| > 0 then
      var s := EvictExpired(t, now, dt.assetDeleteTime, dead);
      var nt := if |s.rest.items| == 0 then now else nullTime;
      IdleTick(s.rest, nt, KeepPool(dt, now, nt, |s.rest.items|), s.destroyed)
    else
      assert t.items == t.items[0..] && t.items[..0] == [];
      assert t.ids == t.ids - IdsOf(t.items[..0]);
      IdleTick(t, nullTime, KeepPool(dt, now, nullTime, |t.items|), [])
  }

  /** Clear: destroy every live idle object, empty the list and the set. */
  function ClearAll(t: Tracked, dead: set<ObjId>): Swept {
    Swept(Empty, LiveObjs(t.items, dead))
  }

  /** Resize growth: `n` freshly instantiated objects appended with their IDs. */
  function Grow(t: Tracked, next: ObjId, n: nat, now: int): Tracked {
    var spawned := Spawned(next, n, now);
    Tracked(t.items + spawned, t.ids + IdsOf(spawned))
  }

  /** Resize shrinking: drop the oldest entries so that `n` remain, without
      destroying them; an ID is forgotten only when its object is still live. */
  function ShrinkTo(t: Tracked, n: nat, dead: set<ObjId>): Tracked
    requires n <= |t.items|
  {
    var removed := t.items[..|t.items| - n];
    Tracked(KeepNewest(t.items, n),
            t.ids - set i | 0 <= i < |removed| && removed[i].obj !in dead :: removed[i].obj)
  }

  /** In a list without repeats, the objects on either side of a cut are
      disjoint. */
  lemma CutIsDisjoint(items: seq<Item<ObjId>>, m: nat)
    requires Distinct(items) && m <= |items|
    ensures forall i | 0 <= i < m :: items[i].obj !in IdsOf(items[m..])
    ensures forall i | m <= i < |items| :: items[i].obj !in IdsOf(items[..m])
  {
    forall i | 0 <= i < m
      ensures items[i].obj !in IdsOf(items[m..])
    {
      forall j | 0 <= j < |items[m..]|
        ensures items[m..][j].obj != items[i].obj
      {
        assert items[m..][j] == items[m + j];
      }
    }
    forall i | m <= i < |items|
      ensures items[i].obj !in IdsOf(items[..m])
    {
      forall j | 0 <= j < |items[..m]|
        ensures items[..m][j].obj != items[i].obj
      {
        assert items[..m][j] == items[j];
      }
    }
  }

  /** Dispose keeps the invariant: the guard rejects an ID already pooled. */
  lemma AddInv(t: Tracked, id: ObjId, now: int)
    requires Inv(t)
    ensures Inv(Add(t, id, now))
  {
    if id !in t.ids {
      var r := Add(t, id, now);
      forall i, j | 0 <= i < j < |r.items|
        ensures r.items[i].obj != r.items[j].obj
      {
        if j == |t.items| {
          assert t.items[i].obj in t.ids;
        }
      }
    }
  }

  /** Get keeps the invariant: the entries left in front were never popped. */
  lemma PopLiveInv(t: Tracked, dead: set<ObjId>)
    requires Inv(t)
    ensures Inv(PopLive(t, dead).rest)
  {
    var p := PopUntil(t.items, (id: ObjId) => id !in dead);
    CutIsDisjoint(t.items, |p.rest|);
  }

  /** The sweep keeps the invariant. */
  lemma EvictExpiredInv(t: Tracked, now: int, threshold: int, dead: set<ObjId>)
    requires Inv(t)
    ensures Inv(EvictExpired(t, now, threshold, dead).rest)
  {
    var k := ExpiredPrefix(t.items, now, threshold);
    CutIsDisjoint(t.items, k);
    var r := EvictExpired(t, now, threshold, dead).rest;
    forall i | 0 <= i < |r.items|
      ensures r.items[i].obj in r.ids
    {
      assert r.items[i] == t.items[k + i];
    }
  }

  /** The tick keeps the invariant. */
  lemma TickIdleInv(t: Tracked, nullTime: int, dt: DeleteTime, now: int, dead: set<ObjId>)
    requires Inv(t)
    ensures Inv(TickIdle(t, nullTime, dt, now, dead).idle)
  {
    if dt.assetDeleteTime >= 0 && |t.items| > 0 {
      EvictExpiredInv(t, now, dt.assetDeleteTime, dead);
    }
  }

  /** Resize shrinking keeps the invariant. */
  lemma ShrinkToInv(t: Tracked, n: nat, dead: set<ObjId>)
    requires Inv(t) && n <= |t.items|
    ensures Inv(ShrinkTo(t, n, dead))
  {
    var m := |t.items| - n;
    CutIsDisjoint(t.items, m);
    var removed := t.items[..m];
    var r := ShrinkTo(t, n, dead);
    forall i | 0 <= i < |r.items|
      ensures r.items[i].obj in r.ids
    {
      assert r.items[i] == t.items[m + i];
      assert t.items[m + i].obj !in IdsOf(removed);
    }
  }

  /** Resize growth keeps the invariant provided the supply is fresh: every
      ID it hands out is new to the list. */
  lemma GrowInv(t: Tracked, next: ObjId, n: nat, now: int)
    requires Inv(t) && FreshFrom(t, next)
    ensures Inv(Grow(t, next, n, now)) && FreshFrom(Grow(t, next, n, now), next + n)
  {
    var r := Grow(t, next, n, now);
    var spawned := Spawned(next, n, now);
    forall i, j | 0 <= i < j < |r.items|
      ensures r.items[i].obj != r.items[j].obj
    {
      if i < |t.items| && j >= |t.items| {
        assert t.items[i].obj in t.ids;
        assert r.items[j] == spawned[j - |t.items|];
      } else if i >= |t.items| {
        assert r.items[i] == spawned[i - |t.items|] && r.items[j] == spawned[j - |t.items|];
      }
    }
    forall i | 0 <= i < |r.items|
      ensures r.items[i].obj in r.ids
    {
      if i >= |t.items| {
        assert r.items[i] == spawned[i - |t.items|];
      }
    }
  }
}
